=== FILE: README.md ===
# WristTwist as a Dafny model

WristTwist turns a smartwatch into a media remote. A "triple twist" of the
wrist (turn one way, back, and the first way again) runs an action the user
chose: play/pause, next or previous track, volume, a system navigation key,
or a command for the paired phone. This project models the parts of the
watch app and the phone companion that decide what happens:

- the twist classifier (`PinchGestureClassifier`): the baseline window of
  quiet gyroscope magnitudes and its upper median, the spike and
  axis-dominance tests, the cooldown, expiry and debounce gates, and the
  sequence machine that completes on an alternating third twist;
- the wear detector (`WearDetector`): motion from the linear accelerometer,
  thirty seconds of stillness without an off-body sensor, and the off-body
  sensor itself, reporting only changes of the worn state;
- the watch service (`OnePlusGestureService`): registration and pausing of
  the sensors, the sensor handler, how a gesture direction selects the
  action, routing media actions to the phone, media-session dispatch with
  its proxy rules, transport fall-backs and seeking, and the play/pause key
  fall-back with its screen-off retry;
- both preference stores (`ActionPreferences` on the watch,
  `ControlPreferences` on the phone), including the watch's merge of the
  settings the phone sends;
- the text protocol between the devices (`WearSyncProtocol`):
  `key=value` lines, one per entry;
- the phone's executor (`PhoneMediaExecutor`) and message listener
  (`PhoneSyncListenerService`): which commands the phone acts on,
  duplicate suppression, the settings-request cooldown and the watch's
  settings update.

Every component is a pure function from state and input to a new state and
a list of `Effect`s (a key sent, a transport call delivered, a command sent
to the phone, a vibration, a retry scheduled). Everything the platform
answers is a parameter: clocks, the screen state, whether notification
access is granted, the active media sessions, and whether a session accepts
a media button or a transport call. Strings are `seq<char>`. Kotlin's `Int` and `Long` ranges
are explicit bounds (`IntMin`..`IntMax`, `LongMin`..`LongMax`). Sensor
values are `real`. A magnitude enters together with its components, related
by `mag * mag == x * x + y * y + z * z`.

Module `CrossDevice` composes the two sides. The phone's settings payload,
encoded and decoded, yields exactly the phone's values in the watch's
settings. A media command the watch sends is parsed back by the phone. A
command delivered both as a message and as a data item runs only once.

Some behaviours of the code that a reader might not expect:

- The classifier has no axis lock. Only X is the primary axis. Its result
  is a Boolean, and no minimum total time bounds the gesture.
- `reset()` keeps `lastTriggerTime`, so the cooldown survives a reset.
- `lastTriggerTime` starts at 0, so no sample before time 1000 can pass the
  cooldown gate (`TwistClassifier.FirstSecondIsCoolingDown`).
- The watch's merge of synced settings does not check the direction of the
  payload.

## Model

| member | source | states |
|---|---|---|
| Common.Clamp | watch/src/main/kotlin/com/snappinch/gesture/ActionPreferences.kt:100-104 | `coerceIn`: the result lies in the range, equals the input inside it and the nearer bound outside it |
| Common.Filter | watch/src/main/kotlin/com/snappinch/gesture/OnePlusGestureService.kt:610-615 | `filter`: every kept element satisfies the test, and every element that satisfies it is kept exactly as often as it occurs in the input |
| Common.FilterOfOne | watch/src/main/kotlin/com/snappinch/gesture/OnePlusGestureService.kt:610-615 | a one-element list keeps its element exactly when it satisfies the test |
| Common.FilterAppend | watch/src/main/kotlin/com/snappinch/gesture/OnePlusGestureService.kt:610-615 | filtering a concatenation concatenates the filtered parts, so the kept elements stay in input order |
| Text.Trim | phone/src/main/kotlin/com/snappinch/gesture/phone/WearSyncProtocol.kt:37-38 | `trim()` yields a string with no leading or trailing whitespace that is a contiguous slice of the input |
| Text.TrimDropsBlanks | phone/src/main/kotlin/com/snappinch/gesture/phone/WearSyncProtocol.kt:37-38 | what `trim()` removes on either side is whitespace, and the result is empty exactly when the input is blank |
| Text.TrimTrimmed | phone/src/main/kotlin/com/snappinch/gesture/phone/WearSyncProtocol.kt:37-38 | trimming a string that neither starts nor ends with whitespace leaves it unchanged |
| Text.TrimKeepsOut | phone/src/main/kotlin/com/snappinch/gesture/phone/WearSyncProtocol.kt:37-38 | trimming never introduces a character the input lacked, so a key cut before the first `=` stays free of `=` |
| Text.IndexOf | phone/src/main/kotlin/com/snappinch/gesture/phone/WearSyncProtocol.kt:35 | `indexOf`: the found position holds the character and no earlier position does; absent exactly when the character does not occur |
| Text.Lines | phone/src/main/kotlin/com/snappinch/gesture/phone/WearSyncProtocol.kt:32-33 | `lineSequence()` yields at least one line and no line contains a line break; how it splits is stated by `Text.LinesSplitAtBreaks` |
| Text.LinesSplitAtBreaks | phone/src/main/kotlin/com/snappinch/gesture/phone/WearSyncProtocol.kt:32-33 | a text without line breaks is one line; "\r\n", "\n" and a lone "\r" each end a line and the rest is split in turn, so a trailing terminator leaves a last empty line |
| Text.LinesKeepOut | phone/src/main/kotlin/com/snappinch/gesture/phone/WearSyncProtocol.kt:32-35 | splitting into lines never introduces a character the text lacked, so a text without `=` has no line with a separator |
| Text.LinesOfJoin | phone/src/main/kotlin/com/snappinch/gesture/phone/WearSyncProtocol.kt:24-33 | splitting the newline-join of break-free strings into lines gives those strings back, in order |
| Text.NoLineBreaksByMembership | phone/src/main/kotlin/com/snappinch/gesture/phone/WearSyncProtocol.kt:32-33 | a string has no line break exactly when it contains neither `\n` nor `\r` |
| Text.ParseBoolStrict | watch/src/main/kotlin/com/snappinch/gesture/ActionPreferences.kt:138-140 | `toBooleanStrictOrNull`: true only for the text "true", false only for "false", nothing for any other text |
| Text.ParseSigned | watch/src/main/kotlin/com/snappinch/gesture/ActionPreferences.kt:147-149 | a parsed number lies within the bounds, and the empty text parses to nothing |
| Text.ParseSignedForms | watch/src/main/kotlin/com/snappinch/gesture/ActionPreferences.kt:147-149 | a text of the form sign-then-digits parses to its value exactly when the value is within the bounds; a text that parses is of that form and its value is the parsed one |
| Text.ParseInt | watch/src/main/kotlin/com/snappinch/gesture/ActionPreferences.kt:147-149 | `toIntOrNull`: a text made of an optional `+` or `-` and at least one decimal digit parses to its value when that fits in an `Int` and to nothing when it does not; any other text parses to nothing |
| Text.ParseLong | watch/src/main/kotlin/com/snappinch/gesture/ActionPreferences.kt:159-161 | `toLongOrNull`: a text made of an optional `+` or `-` and at least one decimal digit parses to its value when that fits in a `Long` and to nothing when it does not; any other text parses to nothing |
| Text.IntToStringRoundTrip | watch/src/main/kotlin/com/snappinch/gesture/ActionPreferences.kt:147-149 | parsing the decimal text of any value inside the accepted range gives that value back, negative values included |
| Text.IntToString | phone/src/main/kotlin/com/snappinch/gesture/phone/PhoneMediaExecutor.kt:57 | `toString()` of an integer: a non-empty text that starts with a minus sign exactly when the number is negative, and is otherwise all decimal digits |
| Text.DigitsRoundTrip | phone/src/main/kotlin/com/snappinch/gesture/phone/PhoneMediaExecutor.kt:57 | the decimal digits of a natural number denote that number |
| Text.IntToStringClean | phone/src/main/kotlin/com/snappinch/gesture/phone/PhoneMediaExecutor.kt:52-62 | a printed number is trimmed and contains neither a line break nor `=`, so it can travel as a payload value |
| SyncProtocol.ProtocolActions | phone/src/main/kotlin/com/snappinch/gesture/phone/WearSyncProtocol.kt:9-22 | the protocol defines fourteen distinct command identifiers |
| SyncProtocol.EncodeMap | phone/src/main/kotlin/com/snappinch/gesture/phone/WearSyncProtocol.kt:24-27 | an empty payload encodes to the empty text, and a single entry to its `key=value` line |
| SyncProtocol.EncodeMapCons | phone/src/main/kotlin/com/snappinch/gesture/phone/WearSyncProtocol.kt:24-27 | a longer payload is its first entry's line, a newline, then the encoding of the remaining entries |
| SyncProtocol.ParseLine | phone/src/main/kotlin/com/snappinch/gesture/phone/WearSyncProtocol.kt:34-40 | with the first `=` at `idx`, a line is accepted exactly when `0 < idx < |line| - 1` and the trimmed part before it is non-empty, and then yields the trimmed parts before and after that `=`; a line without `=` is dropped |
| SyncProtocol.ParsedEntries | phone/src/main/kotlin/com/snappinch/gesture/phone/WearSyncProtocol.kt:32-40 | `mapNotNull`: every entry comes from a well-formed line; with the lemmas below, exactly the accepted lines, in order |
| SyncProtocol.ParsedEntriesOfLine | phone/src/main/kotlin/com/snappinch/gesture/phone/WearSyncProtocol.kt:32-40 | one line gives its parsed pair when it is accepted and nothing otherwise |
| SyncProtocol.ParsedEntriesAppend | phone/src/main/kotlin/com/snappinch/gesture/phone/WearSyncProtocol.kt:32-40 | the entries of concatenated lines are the entries of the first part followed by those of the second |
| SyncProtocol.ParsedEntriesFromLines | phone/src/main/kotlin/com/snappinch/gesture/phone/WearSyncProtocol.kt:32-40 | every entry is the parse of some line |
| SyncProtocol.LinesGiveEntries | phone/src/main/kotlin/com/snappinch/gesture/phone/WearSyncProtocol.kt:32-40 | the parse of every accepted line is among the entries |
| SyncProtocol.ParsedEntriesAround | phone/src/main/kotlin/com/snappinch/gesture/phone/WearSyncProtocol.kt:32-40 | the entries split around an accepted line: those of the lines before, its own, then those of the lines after |
| SyncProtocol.DecodeMap | phone/src/main/kotlin/com/snappinch/gesture/phone/WearSyncProtocol.kt:29-42 | blank text decodes to the empty map; every decoded key is non-empty, trimmed and free of `=`, and every value is trimmed; the lemmas below tie the map to the lines |
| SyncProtocol.MapOfLines | phone/src/main/kotlin/com/snappinch/gesture/phone/WearSyncProtocol.kt:40-41 | every pair of the map built from the lines comes from an accepted line, and every accepted line's key is in the map |
| SyncProtocol.LastLineWins | phone/src/main/kotlin/com/snappinch/gesture/phone/WearSyncProtocol.kt:40-41 | an accepted line with no later accepted line of the same key decides that key's value |
| SyncProtocol.DecodedFromLines | phone/src/main/kotlin/com/snappinch/gesture/phone/WearSyncProtocol.kt:29-42 | for non-blank text, every decoded pair is the parse of one of its lines and every accepted line's key is decoded |
| SyncProtocol.DecodeLastLineWins | phone/src/main/kotlin/com/snappinch/gesture/phone/WearSyncProtocol.kt:29-42 | for non-blank text, the last accepted line of a key gives the decoded value |
| SyncProtocol.ToMapKeys | phone/src/main/kotlin/com/snappinch/gesture/phone/WearSyncProtocol.kt:41 | `toMap` has exactly the keys of the pairs |
| SyncProtocol.ToMapValues | phone/src/main/kotlin/com/snappinch/gesture/phone/WearSyncProtocol.kt:41 | each value of `toMap` comes from a pair carrying that key |
| SyncProtocol.ToMapLastWins | phone/src/main/kotlin/com/snappinch/gesture/phone/WearSyncProtocol.kt:41 | for a key repeated in the pairs, `toMap` keeps the last occurrence |
| SyncProtocol.ParseEntryLine | phone/src/main/kotlin/com/snappinch/gesture/phone/WearSyncProtocol.kt:34-40 | the line of a clean entry (non-empty, trimmed and break-free key and value, no `=` in the key) parses back to that entry |
| SyncProtocol.NoSeparatorNoEntries | phone/src/main/kotlin/com/snappinch/gesture/phone/WearSyncProtocol.kt:34-40 | lines none of which holds `=` contribute no entry |
| SyncProtocol.DecodeWithoutSeparator | phone/src/main/kotlin/com/snappinch/gesture/phone/WearSyncProtocol.kt:29-42 | a text without `=` decodes to the empty map |
| SyncProtocol.ParsedEntriesOfEncoded | phone/src/main/kotlin/com/snappinch/gesture/phone/WearSyncProtocol.kt:24-40 | parsing the lines of a payload of clean entries gives back the entries, in order |
| SyncProtocol.RoundTrip | phone/src/main/kotlin/com/snappinch/gesture/phone/WearSyncProtocol.kt:24-42 | decoding the encoding of clean entries yields the map `toMap` builds from them |
| SyncProtocol.RoundTripLookup | phone/src/main/kotlin/com/snappinch/gesture/phone/WearSyncProtocol.kt:24-42 | with clean entries and distinct keys, every key decodes to its own value |
| Ordering.SortByDescending | watch/src/main/kotlin/com/snappinch/gesture/OnePlusGestureService.kt:767-781 | `sortedByDescending` yields a permutation of the input whose keys never increase |
| Ordering.SortIsStable | watch/src/main/kotlin/com/snappinch/gesture/OnePlusGestureService.kt:767-781 | the sort is stable: the elements sharing a key keep their input order |
| TwistClassifier.PushBaseline | watch/src/main/kotlin/com/snappinch/gesture/PinchGestureClassifier.kt:57-62 | a magnitude at or above 5.5 leaves the window alone; a smaller one is appended, the oldest entries are dropped, and a window of at most 20 stays at most 20 |
| TwistClassifier.UpdateGyroscope | watch/src/main/kotlin/com/snappinch/gesture/PinchGestureClassifier.kt:51-63 | records the reading and its magnitude, feeds the window, leaves the sequence and the clocks alone, and keeps the classifier valid |
| TwistClassifier.WindowHoldsLatestAdmitted | watch/src/main/kotlin/com/snappinch/gesture/PinchGestureClassifier.kt:57-62 | after any stream of magnitudes, the window holds the last 20 of those below 5.5, oldest first |
| TwistClassifier.SortAsc | watch/src/main/kotlin/com/snappinch/gesture/PinchGestureClassifier.kt:209 | `sorted()` yields an ascending permutation of the window |
| TwistClassifier.CountsOfSort | watch/src/main/kotlin/com/snappinch/gesture/PinchGestureClassifier.kt:209 | sorting changes no count of elements below or at most any value |
| TwistClassifier.Baseline | watch/src/main/kotlin/com/snappinch/gesture/PinchGestureClassifier.kt:207-211 | fewer than three entries give 2.0; otherwise the baseline is an entry of the window that is its upper median (at most half the entries lie below it, more than half at or below it) |
| TwistClassifier.UpperMedian | watch/src/main/kotlin/com/snappinch/gesture/PinchGestureClassifier.kt:209-210 | the element at index size/2 of the sorted window is an upper median of the window |
| TwistClassifier.BaselineBelowThreshold | watch/src/main/kotlin/com/snappinch/gesture/PinchGestureClassifier.kt:207-211 | the baseline of a window of quiet magnitudes is itself below 5.5 |
| TwistClassifier.IsTwistAxisQualified | watch/src/main/kotlin/com/snappinch/gesture/PinchGestureClassifier.kt:213-229 | qualified exactly when \|x\| is at least 4.2, neither other axis exceeds 0.8 of it, and it is at least 1.35 times the other two plus 0.001; then X strictly dominates both |
| TwistClassifier.Direction | watch/src/main/kotlin/com/snappinch/gesture/PinchGestureClassifier.kt:111 | the direction is +1 exactly when X is not negative and -1 exactly when it is |
| TwistClassifier.ProcessTwist | watch/src/main/kotlin/com/snappinch/gesture/PinchGestureClassifier.kt:115-205 | the first twist starts a sequence; a twist within 100 ms replaces the last member only when faster; a later same-direction twist restarts the sequence; the gesture fires exactly on an alternating third twist; a third member always clears the sequence; only the sequence, the counter and the clocks change |
| TwistClassifier.ProcessSample | watch/src/main/kotlin/com/snappinch/gesture/PinchGestureClassifier.kt:65-113 | within 1000 ms of the last completion only the sample counter moves; expiry after 1200 ms happens before the 50 ms debounce; a twist is recorded exactly when every gate and the spike and axis tests pass, and past the cooldown a sample that is not recorded leaves the sequence as expiry left it; a completion restarts the cooldown and clears the sequence; the reading and the window are untouched; validity is kept |
| TwistClassifier.Reset | watch/src/main/kotlin/com/snappinch/gesture/PinchGestureClassifier.kt:231-241 | reset returns to the power-on state except that the last completion time is kept, and the result is valid |
| TwistClassifier.Apply | watch/src/main/kotlin/com/snappinch/gesture/PinchGestureClassifier.kt:51-113 | only a timestamp sample can complete the gesture, and it does so at least 1000 ms after the previous completion, which it replaces; otherwise the completion time is unchanged |
| TwistClassifier.CompletionsAreSeparated | watch/src/main/kotlin/com/snappinch/gesture/PinchGestureClassifier.kt:85-87 | over any input stream, completions are at least 1000 ms apart, and the first comes at least 1000 ms after the starting completion time |
| TwistClassifier.OneDirectionNeverCompletes | watch/src/main/kotlin/com/snappinch/gesture/PinchGestureClassifier.kt:152-162 | a stream whose X readings are never negative never completes the gesture, since each same-direction twist restarts the sequence |
| TwistClassifier.TripleTwistCompletes | watch/src/main/kotlin/com/snappinch/gesture/PinchGestureClassifier.kt:65-205 | quick +X, -X, +X twists at 2000, 2300 and 2600 ms complete the gesture exactly once, at 2600 |
| TwistClassifier.FirstSecondIsCoolingDown | watch/src/main/kotlin/com/snappinch/gesture/PinchGestureClassifier.kt:85-87 | the same twists at 0, 300 and 600 ms never complete, because the initial completion time 0 puts them inside the cooldown |
| TwistClassifier.ResetKeepsCooldown | watch/src/main/kotlin/com/snappinch/gesture/PinchGestureClassifier.kt:231-241 | reset is idempotent, and a sample still inside the cooldown after a reset neither fires nor starts a sequence |
| WearDetector.Create | watch/src/main/kotlin/com/snappinch/gesture/WearDetector.kt:21-27 | a new detector counts as worn, its last motion is now, and it has no off-body sensor and no listener yet |
| WearDetector.SetListener | watch/src/main/kotlin/com/snappinch/gesture/WearDetector.kt:29-31 | installs the listener and changes nothing else |
| WearDetector.Start | watch/src/main/kotlin/com/snappinch/gesture/WearDetector.kt:33-44 | records whether the off-body sensor exists and changes nothing else |
| WearDetector.UpdateWornState | watch/src/main/kotlin/com/snappinch/gesture/WearDetector.kt:67-73 | sets the state, and notifies the new value exactly when the state changed and a listener is installed |
| WearDetector.ProcessAccelerometer | watch/src/main/kotlin/com/snappinch/gesture/WearDetector.kt:50-65 | motion above 0.1 means worn and refreshes the clock; without motion and with the off-body sensor nothing changes; without both, more than 30 s of stillness means off the wrist; a notification is sent exactly on a change with a listener installed |
| WearDetector.OnSensorChanged | watch/src/main/kotlin/com/snappinch/gesture/WearDetector.kt:77-84 | only an off-body event acts: a value above 0.5 means worn; notifications follow the same rule |
| WearDetector.Apply | watch/src/main/kotlin/com/snappinch/gesture/WearDetector.kt:50-84 | any input notifies exactly when it changes the worn state and a listener is installed, and it carries the new state |
| WearDetector.NotificationsAreEdges | watch/src/main/kotlin/com/snappinch/gesture/WearDetector.kt:67-73 | over any input stream, the notifications alternate, the first differs from the starting state and the last equals the final state |
| WearDetector.NotificationParity | watch/src/main/kotlin/com/snappinch/gesture/WearDetector.kt:67-73 | without a listener nothing is notified; with one, an odd number of notifications means the final state differs from the starting one |
| WearDetector.OffBodySensorOverridesStillness | watch/src/main/kotlin/com/snappinch/gesture/WearDetector.kt:58-64 | with the off-body sensor, accelerometer input can only ever report "worn", and never when already worn |
| WearDetector.StillnessReportsOnce | watch/src/main/kotlin/com/snappinch/gesture/WearDetector.kt:58-64 | without the off-body sensor, still accelerometer input reports "off the wrist" at most once and never brings the watch back |
| ActionPreferences.Defaults | watch/src/main/kotlin/com/snappinch/gesture/ActionPreferences.kt:48-124 | an empty store reads play/pause for both actions, enabled, explicit keys preferred, no proxy success, retry on with 220 ms, haptics on, routing to the phone on, last sync 0 |
| ActionPreferences.SetSelectedAction | watch/src/main/kotlin/com/snappinch/gesture/ActionPreferences.kt:52-54 | the selected action reads back and no other setting changes |
| ActionPreferences.SetReverseAction | watch/src/main/kotlin/com/snappinch/gesture/ActionPreferences.kt:60-62 | the reverse action reads back and no other setting changes |
| ActionPreferences.SetServiceEnabled | watch/src/main/kotlin/com/snappinch/gesture/ActionPreferences.kt:68-70 | the enabled flag reads back and no other setting changes |
| ActionPreferences.SetPreferExplicitPlayPauseKey | watch/src/main/kotlin/com/snappinch/gesture/ActionPreferences.kt:76-78 | the flag reads back and no other setting changes |
| ActionPreferences.SetAllowProxyControlWhenScreenOff | watch/src/main/kotlin/com/snappinch/gesture/ActionPreferences.kt:84-86 | the flag reads back and no other setting changes |
| ActionPreferences.SetOffscreenRetryEnabled | watch/src/main/kotlin/com/snappinch/gesture/ActionPreferences.kt:92-94 | the flag reads back and no other setting changes |
| ActionPreferences.SetOffscreenRetryDelayMs | watch/src/main/kotlin/com/snappinch/gesture/ActionPreferences.kt:100-104 | the stored delay is the request clamped to 120..1000 ms, and no other setting changes |
| ActionPreferences.SetHapticsEnabled | watch/src/main/kotlin/com/snappinch/gesture/ActionPreferences.kt:110-112 | the flag reads back and no other setting changes |
| ActionPreferences.SetRouteMediaToPhone | watch/src/main/kotlin/com/snappinch/gesture/ActionPreferences.kt:118-120 | the flag reads back and no other setting changes |
| ActionPreferences.AllActions | watch/src/main/kotlin/com/snappinch/gesture/ActionPreferences.kt:210-217 | eighteen distinct selectable actions, play/pause first |
| ActionPreferences.MapProtocolAction | watch/src/main/kotlin/com/snappinch/gesture/ActionPreferences.kt:166-184 | a protocol identifier maps to the same watch action, anything else to play/pause, and the result is always selectable |
| ActionPreferences.WatchOnlyActions | watch/src/main/kotlin/com/snappinch/gesture/ActionPreferences.kt:25-42 | the selectable actions outside the protocol are exactly back, home, recents and notifications |
| ActionPreferences.DisplayNameTable | watch/src/main/kotlin/com/snappinch/gesture/ActionPreferences.kt:186-208 | each selectable action has its own label, in list order |
| ActionPreferences.DisplayNamesDistinct | watch/src/main/kotlin/com/snappinch/gesture/ActionPreferences.kt:186-208 | no two selectable actions share a label |
| ActionPreferences.DisplayNameOfUnknown | watch/src/main/kotlin/com/snappinch/gesture/ActionPreferences.kt:186-208 | an unknown action is labelled like play/pause |
| ActionPreferences.MergeAction | watch/src/main/kotlin/com/snappinch/gesture/ActionPreferences.kt:129-136 | a present action key is written mapped through `mapProtocolAction`; an absent one leaves the field alone |
| ActionPreferences.MergeBool | watch/src/main/kotlin/com/snappinch/gesture/ActionPreferences.kt:138-158 | "true" and "false" are written; any other text or an absent key leaves the field alone |
| ActionPreferences.MergeDelay | watch/src/main/kotlin/com/snappinch/gesture/ActionPreferences.kt:147-149 | an Int-parsable delay is written clamped to 120..1000; otherwise the field is left alone |
| ActionPreferences.MergeLong | watch/src/main/kotlin/com/snappinch/gesture/ActionPreferences.kt:159-161 | a Long-parsable sync time is written as is; otherwise the field is left alone |
| ActionPreferences.ApplyPhoneSyncedSettings | watch/src/main/kotlin/com/snappinch/gesture/ActionPreferences.kt:126-164 | each of the ten keys updates its own field by its own rule, and `control_enabled` sets the service-enabled flag |
| ActionPreferences.MergeProperties | watch/src/main/kotlin/com/snappinch/gesture/ActionPreferences.kt:126-164 | an empty payload changes nothing; unread keys do not matter; merging twice equals merging once; a valid delay stays valid; a synced primary action is selectable |
| ActionPreferences.MergeReadsBack | watch/src/main/kotlin/com/snappinch/gesture/ActionPreferences.kt:126-164 | a protocol action, a printed flag, an in-range delay and a printed time read back exactly after the merge |
| ControlPreferences.Defaults | phone/src/main/kotlin/com/snappinch/gesture/phone/ControlPreferences.kt:38-100 | an empty store reads play/pause for both actions, control on, explicit keys preferred, no proxy control, retry on with 220 ms, haptics on |
| ControlPreferences.SetPrimaryAction | phone/src/main/kotlin/com/snappinch/gesture/phone/ControlPreferences.kt:42-44 | the primary action reads back and no other setting changes |
| ControlPreferences.SetReverseAction | phone/src/main/kotlin/com/snappinch/gesture/phone/ControlPreferences.kt:50-52 | the reverse action reads back and no other setting changes |
| ControlPreferences.SetControlEnabled | phone/src/main/kotlin/com/snappinch/gesture/phone/ControlPreferences.kt:58-60 | the flag reads back and no other setting changes |
| ControlPreferences.SetPreferExplicitPlayPauseKey | phone/src/main/kotlin/com/snappinch/gesture/phone/ControlPreferences.kt:66-68 | the flag reads back and no other setting changes |
| ControlPreferences.SetAllowProxyControlWhenScreenOff | phone/src/main/kotlin/com/snappinch/gesture/phone/ControlPreferences.kt:74-76 | the flag reads back and no other setting changes |
| ControlPreferences.SetOffscreenRetryEnabled | phone/src/main/kotlin/com/snappinch/gesture/phone/ControlPreferences.kt:82-84 | the flag reads back and no other setting changes |
| ControlPreferences.SetOffscreenRetryDelayMs | phone/src/main/kotlin/com/snappinch/gesture/phone/ControlPreferences.kt:90-92 | the stored delay is the request clamped to 120..1000 ms, and no other setting changes |
| ControlPreferences.SetHapticsEnabled | phone/src/main/kotlin/com/snappinch/gesture/phone/ControlPreferences.kt:98-100 | the flag reads back and no other setting changes |
| ControlPreferences.AllActions | phone/src/main/kotlin/com/snappinch/gesture/phone/ControlPreferences.kt:122-129 | fourteen distinct actions, play/pause first |
| ControlPreferences.NoNavigationActions | phone/src/main/kotlin/com/snappinch/gesture/phone/ControlPreferences.kt:122-129 | the phone offers none of the watch's navigation actions |
| ControlPreferences.DisplayNameTable | phone/src/main/kotlin/com/snappinch/gesture/phone/ControlPreferences.kt:102-120 | each action has its own label, in list order |
| ControlPreferences.DisplayNamesDistinct | phone/src/main/kotlin/com/snappinch/gesture/phone/ControlPreferences.kt:102-120 | no two actions share a label |
| ControlPreferences.DisplayNameOfUnknown | phone/src/main/kotlin/com/snappinch/gesture/phone/ControlPreferences.kt:102-120 | an unknown action is labelled like play/pause |
| MediaSessions.IsLikelyProxyPackage | watch/src/main/kotlin/com/snappinch/gesture/OnePlusGestureService.kt:839-847 | a package is a likely proxy exactly when its name starts with one of the four relay prefixes |
| MediaSessions.WatchSupportsAction | watch/src/main/kotlin/com/snappinch/gesture/OnePlusGestureService.kt:804-837 | a controller without a playback state supports nothing |
| MediaSessions.PhoneSupportsAction | phone/src/main/kotlin/com/snappinch/gesture/phone/PhoneMediaExecutor.kt:221-233 | a session without a playback state supports nothing |
| MediaSessions.SupportIsMaskTest | watch/src/main/kotlin/com/snappinch/gesture/OnePlusGestureService.kt:804-837 | support is one test of the playback actions against the key's flags; the phone agrees with the watch on play/pause, next and previous and supports no other key |
| MediaSessions.WatchScore | watch/src/main/kotlin/com/snappinch/gesture/OnePlusGestureService.kt:767-781 | the watch's score lies in -50..125; a playing controller scores at least 50 and any other at most 25 |
| MediaSessions.PhoneScore | phone/src/main/kotlin/com/snappinch/gesture/phone/PhoneMediaExecutor.kt:151-161 | the phone's score lies in 0..125 and is at least 100 exactly for a playing session |
| MediaSessions.ChooseControllersForAction | watch/src/main/kotlin/com/snappinch/gesture/OnePlusGestureService.kt:759-782 | the prioritised list is a permutation of the controllers with non-increasing score |
| MediaSessions.PlayingFirst | watch/src/main/kotlin/com/snappinch/gesture/OnePlusGestureService.kt:767-781 | in the prioritised list, every controller before a playing one is playing too |
| MediaSessions.NonProxies | watch/src/main/kotlin/com/snappinch/gesture/OnePlusGestureService.kt:610-612 | `filterNot` keeps no proxy, only controllers from the input, and is non-empty exactly when a non-proxy exists |
| MediaSessions.Proxies | watch/src/main/kotlin/com/snappinch/gesture/OnePlusGestureService.kt:613-615 | `filter` keeps only proxies, and all controllers when none is direct |
| MediaSessions.PhoneCandidates | phone/src/main/kotlin/com/snappinch/gesture/phone/PhoneMediaExecutor.kt:146-161 | the candidates are ordered by the phone's score; without proxy control they are the non-proxies when there are any and all sessions otherwise; there are candidates exactly when there are sessions |
| MediaSessions.PhoneSkipsProxies | phone/src/main/kotlin/com/snappinch/gesture/phone/PhoneMediaExecutor.kt:146-151 | without proxy control and with a non-proxy session present, no candidate is a proxy |
| MediaSessions.SeekTarget | watch/src/main/kotlin/com/snappinch/gesture/OnePlusGestureService.kt:744-757 | a seek happens exactly when a playback state with seek-to and a non-negative position exists, and targets the position moved by the step, floored at 0 |
| MediaSessions.SeekDirection | watch/src/main/kotlin/com/snappinch/gesture/OnePlusGestureService.kt:744-757 | seeking back never passes the start and moves 10 s when there is room; seeking forward moves 10 s |
| MediaSessions.TransportFor | watch/src/main/kotlin/com/snappinch/gesture/OnePlusGestureService.kt:696-742 | play/pause becomes pause for a playing controller and play otherwise; an unknown key has no transport call |
| MediaSessions.SeekingKeysNeedSupport | watch/src/main/kotlin/com/snappinch/gesture/OnePlusGestureService.kt:719-734 | fast-forward and rewind get a transport call only for a controller that supports the key, and always when it does and its position is not negative |
| MediaSessions.FirstPlaying | watch/src/main/kotlin/com/snappinch/gesture/OnePlusGestureService.kt:570-575 | `firstOrNull` finds the first playing controller, and nothing exactly when none plays |
| MediaSessions.WatchPreferredPlayPauseKey | watch/src/main/kotlin/com/snappinch/gesture/OnePlusGestureService.kt:556-586 | a key is inferred exactly with notification access and some controller; it is pause exactly when one of them plays, play otherwise |
| MediaSessions.PhoneExplicitPlayPauseKey | phone/src/main/kotlin/com/snappinch/gesture/phone/PhoneMediaExecutor.kt:106-133 | a key is inferred exactly with access and some session, it is play or pause, with proxy control it agrees with the watch's rule, and without it the key is pause exactly when a non-proxy session plays, or any session when none is a non-proxy |
| MediaSessions.ProxyPlayingDiffers | phone/src/main/kotlin/com/snappinch/gesture/phone/PhoneMediaExecutor.kt:116-128 | a playing proxy next to an idle app makes the watch choose pause and the phone, without proxy control, choose play |
| MediaSessions.PhoneTransportFor | phone/src/main/kotlin/com/snappinch/gesture/phone/PhoneMediaExecutor.kt:199-219 | the phone's transport call agrees with the watch's for play/pause, next and previous, and there is none for any other key |
| MediaSessions.FirstTaker | watch/src/main/kotlin/com/snappinch/gesture/OnePlusGestureService.kt:617-633 | the loop stops at the first controller taking the key either way; every earlier one refused it both ways |
| MediaSessions.FirstDelivery | watch/src/main/kotlin/com/snappinch/gesture/OnePlusGestureService.kt:617-633 | nothing is delivered exactly when every controller refuses both the media button and the transport call; otherwise the first taker gets a media button if it accepts one, and otherwise its transport call, which exists for that key and goes through |
| MediaSessions.WatchDispatch | watch/src/main/kotlin/com/snappinch/gesture/OnePlusGestureService.kt:588-664 | at most one delivery; a direct delivery succeeds; a non-proxy controller gets the key exactly when one takes it, and then it is the first non-proxy controller in priority order that takes it; a proxy is reached only by transport, with the screen off, when no direct controller exists, and then counts only when proxy success is allowed |
| MediaSessions.DispatchPrioritized | watch/src/main/kotlin/com/snappinch/gesture/OnePlusGestureService.kt:605-656 | the same guarantees over the already prioritised list: a direct delivery exactly when a non-proxy controller takes the key, to the first such controller of the list |
| MediaSessions.FirstDeliveryTaker | watch/src/main/kotlin/com/snappinch/gesture/OnePlusGestureService.kt:617-633 | the loop delivers nothing exactly when every controller refuses, and otherwise delivers to the first controller that does not |
| MediaSessions.FirstDirectTaker | watch/src/main/kotlin/com/snappinch/gesture/OnePlusGestureService.kt:610-633 | the first taker among the non-proxy controllers is the first non-proxy taker of the prioritised list itself |
| MediaSessions.NonProxiesCons | watch/src/main/kotlin/com/snappinch/gesture/OnePlusGestureService.kt:610-612 | dropping proxies from a list keeps its head when that is not a proxy, followed by the rest with its proxies dropped |
| MediaSessions.DirectDelivery | watch/src/main/kotlin/com/snappinch/gesture/OnePlusGestureService.kt:610-633 | the non-proxy pass delivers exactly when a non-proxy controller takes the key, to a non-proxy controller of the list that is the first to take it |
| MediaSessions.PhoneDispatch | phone/src/main/kotlin/com/snappinch/gesture/phone/PhoneMediaExecutor.kt:135-185 | without access or sessions nothing is delivered; otherwise nothing exactly when every candidate refuses, and else a delivery to the first candidate, in priority order, that takes the key; it goes to a session, uses transport only for play/pause, next and previous, and skips proxies when a direct session exists and proxy control is off |
| GestureService.RemoteActionIsIdentity | watch/src/main/kotlin/com/snappinch/gesture/OnePlusGestureService.kt:492-510 | a watch action has a phone command exactly when it is a protocol identifier, and the command is the same identifier |
| GestureService.RemoteActionsOfWatchActions | watch/src/main/kotlin/com/snappinch/gesture/OnePlusGestureService.kt:492-510 | of the selectable actions, exactly the four navigation actions stay on the watch; every other one is a phone action that maps back to itself |
| GestureService.DirectionSelectsAction | watch/src/main/kotlin/com/snappinch/gesture/OnePlusGestureService.kt:391-395 | a gesture whose first twist turned with non-negative X runs the reverse action, any other the selected action |
| GestureService.Delivered | watch/src/main/kotlin/com/snappinch/gesture/OnePlusGestureService.kt:617-633 | each delivery becomes one effect, in order; every effect reaches a session and none goes to the phone |
| GestureService.PlayPauseFallback | watch/src/main/kotlin/com/snappinch/gesture/OnePlusGestureService.kt:531-554 | sends the preferred explicit key, or play/pause; repeats it after the retry delay exactly with the screen off, retry on and an explicit key |
| GestureService.PerformMediaAction | watch/src/main/kotlin/com/snappinch/gesture/OnePlusGestureService.kt:466-490 | the phone gets the command exactly when routing is on, the phone takes commands and the action is one the protocol knows, and then it is the only effect and carries the action unchanged; otherwise the action is handled locally, starting with a delivery or a key; never a vibration |
| GestureService.LocalMediaAction | watch/src/main/kotlin/com/snappinch/gesture/OnePlusGestureService.kt:479-489 | local handling starts with a delivery or a key, and every effect reaches a session or sends a key, so none goes to the phone |
| GestureService.KeyFallback | watch/src/main/kotlin/com/snappinch/gesture/OnePlusGestureService.kt:485-489 | the fall-back sends one key, play/pause possibly followed by its retry, and any other key just once; every effect sends a key |
| GestureService.LocalMediaActionCases | watch/src/main/kotlin/com/snappinch/gesture/OnePlusGestureService.kt:479-489 | a direct controller taking the key ends the action with one direct delivery; without access or controllers the key fall-back runs |
| GestureService.RemoteOrLocal | watch/src/main/kotlin/com/snappinch/gesture/OnePlusGestureService.kt:512-522 | exactly one effect: the command to the phone when routing is on, the phone takes commands and the action is a protocol action, and the local effect in every other case |
| GestureService.PerformGestureAction | watch/src/main/kotlin/com/snappinch/gesture/OnePlusGestureService.kt:382-464 | a paused service does nothing; the double buzz occurs exactly when the service is live and haptics are on, and then first; the phone gets at most one command, the selected action's (play/pause for an unlisted one), and only when it takes commands; with the phone unreachable everything stays on the watch |
| GestureService.ActionEffectsByKind | watch/src/main/kotlin/com/snappinch/gesture/OnePlusGestureService.kt:398-454 | navigation actions are global actions; camera, assistant and find-phone go only to the phone; an unknown action behaves like play/pause; media actions go through `performMediaAction` with their key |
| GestureService.ActionEffects | watch/src/main/kotlin/com/snappinch/gesture/OnePlusGestureService.kt:398-454 | the action's effects never vibrate; the phone gets at most the action's own command (play/pause for an unlisted one) and only when it takes commands; nothing happens only for camera, assistant or find-phone with the phone unreachable |
| GestureService.ListedActions | watch/src/main/kotlin/com/snappinch/gesture/OnePlusGestureService.kt:398-454 | the watch lists exactly the actions with a media key and the ten others the `when` names, so an unlisted action reaches the `else` branch |
| GestureService.ProxyTransportThenKey | watch/src/main/kotlin/com/snappinch/gesture/OnePlusGestureService.kt:636-647 | with the screen off, only a proxy session and no proxy success, "next" reaches the proxy by transport and then still sends the key |
| GestureService.Create | watch/src/main/kotlin/com/snappinch/gesture/OnePlusGestureService.kt:90-96 | a new service is unregistered and worn, has a fresh classifier, and its wear detector counts as worn and has a listener |
| GestureService.Register | watch/src/main/kotlin/com/snappinch/gesture/OnePlusGestureService.kt:255-299 | registration is idempotent and leaves the classifier and the detector alone |
| GestureService.Unregister | watch/src/main/kotlin/com/snappinch/gesture/OnePlusGestureService.kt:301-313 | unregistering a registered service resets the classifier; an unregistered one is unchanged |
| GestureService.ReleaseResources | watch/src/main/kotlin/com/snappinch/gesture/OnePlusGestureService.kt:220-237 | releasing unregisters and always resets the classifier |
| GestureService.ResetTwice | watch/src/main/kotlin/com/snappinch/gesture/OnePlusGestureService.kt:229-236 | the second reset in `releaseResources` changes nothing |
| GestureService.UpdatePauseState | watch/src/main/kotlin/com/snappinch/gesture/OnePlusGestureService.kt:178-190 | enabled means registered with the classifier kept; disabled means unregistered with the classifier reset |
| GestureService.OnWearStateChanged | watch/src/main/kotlin/com/snappinch/gesture/OnePlusGestureService.kt:239-253 | off the wrist releases everything; back on the wrist registers only when the service is enabled |
| GestureService.OnScreenOn | watch/src/main/kotlin/com/snappinch/gesture/OnePlusGestureService.kt:66-80 | a screen-on event registers the sensors when the service is enabled and changes nothing else |
| GestureService.RegistrationCycle | watch/src/main/kotlin/com/snappinch/gesture/OnePlusGestureService.kt:178-313 | register and unregister are idempotent, and pausing then resuming leaves the sensors registered with a reset classifier |
| GestureService.NanosToMillis | watch/src/main/kotlin/com/snappinch/gesture/OnePlusGestureService.kt:332 | Long division by 1,000,000 truncates toward zero, for negative timestamps too |
| GestureService.OnSensorChanged | watch/src/main/kotlin/com/snappinch/gesture/OnePlusGestureService.kt:315-362 | a null event or an off-wrist watch changes nothing; a gyroscope sample feeds the classifier; a linear-acceleration sample feeds the wear detector when it needs it, and a change it reports goes to `onWearStateChanged`; other sensors are ignored |
| GestureService.FeedDetector | watch/src/main/kotlin/com/snappinch/gesture/OnePlusGestureService.kt:336-347 | feeding the detector never completes a gesture, and motion seen by a detector that counted the watch off the wrist brings the service back to worn and registered |
| GestureService.OffWristIgnoresSamples | watch/src/main/kotlin/com/snappinch/gesture/OnePlusGestureService.kt:328-330 | once off the wrist, a run through the handler as written ignores every later event, motion included, so the service never changes again |
| GestureService.OnSensorChangedFeedingDetector | watch/src/main/kotlin/com/snappinch/gesture/OnePlusGestureService.kt:315-362 | the corrected handler, used by the model's runs, agrees with the original everywhere except for linear acceleration off the wrist, and only a gyroscope sample on the wrist completes a gesture |
| GestureService.MotionBringsTheWatchBack | watch/src/main/kotlin/com/snappinch/gesture/OnePlusGestureService.kt:66-347 | off the wrist, the screen-on broadcast registers the listeners; after it, with the corrected handler, one moving sample brings the watch back to worn and registered, while the original handler leaves the service as the broadcast left it |
| GestureService.GesturesNeedGyroscope | watch/src/main/kotlin/com/snappinch/gesture/OnePlusGestureService.kt:349-360 | over any run through the corrected handler, gestures never outnumber the gyroscope samples, because only a gyroscope sample reaches the classifier |
| PhoneMediaExecutor.ShouldRetryOffScreen | phone/src/main/kotlin/com/snappinch/gesture/phone/PhoneMediaExecutor.kt:99-104 | never when retry is disabled or for the generic play/pause key; otherwise exactly when the screen is off |
| PhoneMediaExecutor.HandlePlayPause | phone/src/main/kotlin/com/snappinch/gesture/phone/PhoneMediaExecutor.kt:81-97 | the explicit key when it is preferred and sessions are known, play/pause otherwise; the same key again after the delay exactly with retry on, the screen off and an explicit key |
| PhoneMediaExecutor.DispatchOr | phone/src/main/kotlin/com/snappinch/gesture/phone/PhoneMediaExecutor.kt:30-42 | one delivery to an active session or the fall-back; with a fall-back that delivers nothing, the fall-back exactly when no session takes the key; a delivery goes to the first candidate that takes it |
| PhoneMediaExecutor.KeyOrDelivery | phone/src/main/kotlin/com/snappinch/gesture/phone/PhoneMediaExecutor.kt:34-43 | next and previous: one effect, a delivery to a session or the key itself, and the key exactly when no session takes it |
| PhoneMediaExecutor.PlayPauseEffects | phone/src/main/kotlin/com/snappinch/gesture/phone/PhoneMediaExecutor.kt:29-33 | play/pause: a delivery or a key first; `handlePlayPause` runs exactly when no session takes the key; a retry only follows an explicit play or pause key with the screen off and retry enabled, after the configured delay |
| PhoneMediaExecutor.ExecuteAction | phone/src/main/kotlin/com/snappinch/gesture/phone/PhoneMediaExecutor.kt:22-49 | disabled control or an unhandled identifier does nothing; volume and mute adjust the volume; play/pause, next and previous try the sessions and fall back to a key; nothing goes to the phone, vibrates or runs a global action; a retry only follows an explicit play or pause key with the screen off |
| PhoneMediaExecutor.IgnoredProtocolActions | phone/src/main/kotlin/com/snappinch/gesture/phone/PhoneMediaExecutor.kt:28-48 | of the fourteen protocol commands, exactly play, pause, stop, fast-forward, rewind, open camera, launch assistant and find phone do nothing on the phone |
| PhoneMediaExecutor.PhoneNeverRetries | phone/src/main/kotlin/com/snappinch/gesture/phone/PhoneMediaExecutor.kt:29-33 | while every transport call goes through, the phone schedules no retry: `handlePlayPause` runs only after every session failed |
| PhoneMediaExecutor.PhoneRetriesWhenSessionsFail | phone/src/main/kotlin/com/snappinch/gesture/phone/PhoneMediaExecutor.kt:81-104 | with the screen off, retry and the explicit key on, and every session failing both ways, play/pause sends the inferred play or pause key and schedules it again after the delay |
| PhoneMediaExecutor.SettingsPayload | phone/src/main/kotlin/com/snappinch/gesture/phone/PhoneMediaExecutor.kt:52-62 | nine distinct keys in the listed order, routing always "true", and no reverse action |
| PhoneSyncListener.ShouldHandle | phone/src/main/kotlin/com/snappinch/gesture/phone/PhoneSyncListenerService.kt:118-133 | a different action is always handled; the same action is dropped inside 900 ms or with a positive timestamp no newer than the last; a handled command becomes the last one and a dropped one changes nothing |
| PhoneSyncListener.HandleAll | phone/src/main/kotlin/com/snappinch/gesture/phone/PhoneSyncListenerService.kt:118-133 | the handled commands are among the delivered ones |
| PhoneSyncListener.RedeliveryDropped | phone/src/main/kotlin/com/snappinch/gesture/phone/PhoneSyncListenerService.kt:125-127 | a handled command with a positive timestamp, delivered again at any later time, is dropped |
| PhoneSyncListener.HandledAfter | phone/src/main/kotlin/com/snappinch/gesture/phone/PhoneSyncListenerService.kt:118-133 | repeats of the last action are handled only with a newer timestamp and at least 900 ms later |
| PhoneSyncListener.HandledInOrder | phone/src/main/kotlin/com/snappinch/gesture/phone/PhoneSyncListenerService.kt:118-133 | the handled repeats of one action have increasing timestamps and are at least 900 ms apart |
| PhoneSyncListener.InterleavedRedeliveryHandled | phone/src/main/kotlin/com/snappinch/gesture/phone/PhoneSyncListenerService.kt:118-133 | only the last command is remembered: next, mute, then next redelivered with the same timestamp runs all three |
| PhoneSyncListener.OnSettingsRequest | phone/src/main/kotlin/com/snappinch/gesture/phone/PhoneSyncListenerService.kt:48-61 | a request is answered exactly when 1200 ms have passed since the last answered one, and only an answer moves the clock |
| PhoneSyncListener.AnsweredAfter | phone/src/main/kotlin/com/snappinch/gesture/phone/PhoneSyncListenerService.kt:48-61 | every answered request comes at least 1200 ms after the starting clock |
| PhoneSyncListener.AnsweredRequestsSpaced | phone/src/main/kotlin/com/snappinch/gesture/phone/PhoneSyncListenerService.kt:48-61 | answered requests are at least 1200 ms apart |
| PhoneSyncListener.RequestedPrimary | phone/src/main/kotlin/com/snappinch/gesture/phone/PhoneSyncListenerService.kt:69-76 | a primary action is requested exactly when the payload has one the phone offers |
| PhoneSyncListener.RequestedControl | phone/src/main/kotlin/com/snappinch/gesture/phone/PhoneSyncListenerService.kt:77-82 | control is requested on or off exactly for the strict texts "true" and "false" |
| PhoneSyncListener.WritePrimary | phone/src/main/kotlin/com/snappinch/gesture/phone/PhoneSyncListenerService.kt:69-76 | the primary action becomes the requested one, and the store is rewritten only when that changes what it reads |
| PhoneSyncListener.WriteControl | phone/src/main/kotlin/com/snappinch/gesture/phone/PhoneSyncListenerService.kt:77-82 | the control flag becomes the requested one, and the store is rewritten only when that changes what it reads |
| PhoneSyncListener.WatchSettingsUpdate | phone/src/main/kotlin/com/snappinch/gesture/phone/PhoneSyncListenerService.kt:63-92 | an empty payload changes nothing; only the primary action and the control flag change; "changed" holds exactly when the settings read differently |
| PhoneSyncListener.SettingsUpdateIdempotent | phone/src/main/kotlin/com/snappinch/gesture/phone/PhoneSyncListenerService.kt:63-92 | applying the same update again reports no change |
| PhoneSyncListener.SettingsUpdateOnlyTwoKeys | phone/src/main/kotlin/com/snappinch/gesture/phone/PhoneSyncListenerService.kt:63-92 | the reverse action, the key preferences, the retry settings and haptics are never touched by an update |
| PhoneSyncListener.ParseMediaCommand | phone/src/main/kotlin/com/snappinch/gesture/phone/PhoneSyncListenerService.kt:33-35 | the action is the decoded `action` value, or the whole text when it is missing; the timestamp is the parsed `ts`, 0 when missing or unparsable, and always a Long; a body without `=` is a bare action with timestamp 0; `CrossDevice.MediaCommandRoundTrip` states that it inverts the watch's encoding |
| PhoneSyncListener.OnMessageReceived | phone/src/main/kotlin/com/snappinch/gesture/phone/PhoneSyncListenerService.kt:28-94 | a media command runs `executeAction` exactly when `shouldHandle` lets it through; a settings request follows the cooldown; a settings update broadcasts and re-syncs exactly when the settings changed; other paths do nothing |
| PhoneSyncListener.OnDataChanged | phone/src/main/kotlin/com/snappinch/gesture/phone/PhoneSyncListenerService.kt:96-116 | data items never touch the settings-request clock; irrelevant events are skipped and a batch of them does nothing; a changed media-command item with an action is judged by the duplicate rule at its own clock reading, executed when accepted, and the rest follow from the new state |
| CrossDevice.PhoneActionsAreProtocolActions | phone/src/main/kotlin/com/snappinch/gesture/phone/ControlPreferences.kt:122-129 | the phone's actions are exactly the protocol's identifiers, in the same order |
| CrossDevice.PayloadIsClean | phone/src/main/kotlin/com/snappinch/gesture/phone/PhoneMediaExecutor.kt:52-62 | every key and value of the phone's settings payload survives the text encoding |
| CrossDevice.DecodedPayload | phone/src/main/kotlin/com/snappinch/gesture/phone/PhoneMediaExecutor.kt:52-67 | the watch decodes each payload key to its value and sees no reverse action |
| CrossDevice.DecodedSettings | phone/src/main/kotlin/com/snappinch/gesture/phone/PhoneMediaExecutor.kt:52-67 | the decoded payload holds each of the phone's settings, as text, under its key |
| CrossDevice.MergeOfPhoneSettings | watch/src/main/kotlin/com/snappinch/gesture/ActionPreferences.kt:126-164 | merging such a map sets the watch's settings to the phone's values, routing on and the sync time, and keeps the reverse action |
| CrossDevice.PhoneSettingsReachWatch | phone/src/main/kotlin/com/snappinch/gesture/phone/PhoneMediaExecutor.kt:51-68 | after a sync, the watch reads exactly the phone's primary action, flags and delay, routing on and the sync time; only its reverse action is its own |
| CrossDevice.MediaCommandPayload | watch/src/main/kotlin/com/snappinch/gesture/WatchToPhoneBridge.kt:15-20 | the watch's command payload has the `action` entry followed by the `ts` entry |
| CrossDevice.MediaCommandRoundTrip | watch/src/main/kotlin/com/snappinch/gesture/WatchToPhoneBridge.kt:13-26 | the phone parses the watch's encoded command back to its action and timestamp |
| CrossDevice.MessageThenDataItemRunsOnce | watch/src/main/kotlin/com/snappinch/gesture/WatchToPhoneBridge.kt:13-26 | a command delivered as a message and then as a data item with the same timestamp runs only once on the phone |
| CrossDevice.DataItemActsAsMessage | phone/src/main/kotlin/com/snappinch/gesture/phone/PhoneSyncListenerService.kt:96-116 | a changed media-command data item does exactly what the message carrying the same action and timestamp does at the same clock reading |
| CrossDevice.RetryRulesAgree | watch/src/main/kotlin/com/snappinch/gesture/OnePlusGestureService.kt:540-544 | the watch's and the phone's off-screen retry rules give the same answer for every key either side can send; the phone consults its rule only after every session failed (`PhoneMediaExecutor.PhoneNeverRetries`) |

## Left out

- Android glue is not modelled: threads, handlers, wake locks and their refresh, broadcast receivers, notification listeners and the `MainActivity` screens of both apps. Where their answers matter they are parameters.
- The Wear data-layer transport is not modelled: node discovery and message and data-item delivery. Only the payloads and what each side does with them are modelled.
- `sendMediaCommand` either sends the message or falls back to a data item. That choice is the `phoneTakesCommands` parameter.
- Floating point and `sqrt` are not modelled. Magnitudes are exact reals given with their components, so float32 rounding and the 0.5 threshold's representation are ignored.
- UTF-8 encoding is not modelled. Texts are character sequences, and byte-level decoding errors are not modelled.
- Number parsing accepts ASCII digits only. Kotlin would also accept other Unicode digits.
- `onServiceConnected` and `onDestroy` are left out because they only chain the modelled steps with platform calls. So are the pause receiver and `requestSettingsSyncFromPhone`, which only sends a message.
- The watch service calls `processSample` as if it returned a nullable direction. The classifier returns a Boolean, so the sensor handler reports only that a gesture completed. The direction rule is stated on its own in `GestureService.DirectionSelectsAction`.
- `needsAccelerometerFeed` is not defined in the visible `WearDetector`. It is the `needsAccelFeed` parameter.
- Logging and counters that only feed logging are not modelled. The handlers around `dispatchMediaButtonEvent` and the transport calls turn an exception into "not taken"; the `Answers` parameter gives both outcomes for each controller. A failure of `getActiveSessions` itself, which both sides also catch, is not modelled.
- These tables and one-line definitions carry no contract of their own; the rows named after each state them: `ActionPreferences.ActionDisplayName` and `ControlPreferences.ActionDisplayName` (the display-name rows), `GestureService.ToRemoteAction` (`GestureService.RemoteActionIsIdentity`), `GestureService.MediaKeyFor` (`GestureService.ListedActions`, `GestureService.ActionEffectsByKind`), `GestureService.ActionForDirection` (`GestureService.DirectionSelectsAction`), `GestureService.WatchShouldRetry` (`CrossDevice.RetryRulesAgree`), `Text.StartsWith` (`MediaSessions.IsLikelyProxyPackage`), `SyncProtocol.ToMap` (`SyncProtocol.ToMapKeys`, `SyncProtocol.ToMapValues`, `SyncProtocol.ToMapLastWins`), and `ActionPreferences.Read` and `ControlPreferences.Read` (the `Defaults` and setter rows of each store).
- TwistClassifier.ProcessSample: the result is a Boolean, matching the classifier as written. It carries no direction, and the sample counter is an unbounded integer.

## Findings

| source | as written | input that shows it | evidently intended | confidence | as-written member | corrected member |
|---|---|---|---|---|---|---|
| watch/src/main/kotlin/com/snappinch/gesture/OnePlusGestureService.kt:328-347 | `onSensorChanged` returns before any sensor switch while the watch counts as off the wrist, so on a watch without an off-body sensor the wear detector never sees motion again | a watch without an off-body sensor, left still for more than 30 s, then picked up: every linear-acceleration sample is dropped and the service stays off the wrist (`releaseResources` also unregisters the sensors) | motion should still reach the wear detector off the wrist, so the watch comes back to worn and re-registers | medium, not executed | GestureService.OffWristIgnoresSamples | GestureService.OnSensorChangedFeedingDetector |

=== FILE: action_preferences.dfy ===
/** The watch's preference store (`ActionPreferences`).

    The stored preferences are a record with one optional field per key; an
    absent key reads as its default. The phone's settings payload is merged
    in by `ApplyPhoneSyncedSettings`: each field changes only when its key is
    present and its value parses, action identifiers are normalised through
    the protocol mapping, and the retry delay is clamped. */
module ActionPreferences {
  import opened Common
  import opened Text
  import SyncProtocol

  const ActionPlayPause: string := "play_pause"
  const ActionPlay: string := "play"
  const ActionPause: string := "pause"
  const ActionStop: string := "stop"
  const ActionBack: string := "back"
  const ActionHome: string := "home"
  const ActionRecents: string := "recents"
  const ActionNextTrack: string := "next_track"
  const ActionPrevTrack: string := "prev_track"
  const ActionFastForward: string := "fast_forward"
  const ActionRewind: string := "rewind"
  const ActionVolumeUp: string := "volume_up"
  const ActionVolumeDown: string := "volume_down"
  const ActionMute: string := "mute"
  const ActionNotifications: string := "notifications"
  const ActionOpenCamera: string := "open_camera"
  const ActionLaunchAssistant: string := "launch_assistant"
  const ActionFindPhone: string := "find_phone"

  const DefaultRetryDelayMs: int := 220
  const MinRetryDelayMs: int := 120
  const MaxRetryDelayMs: int := 1000

  /** The stored keys; `None` is a key that was never written. */
  datatype Store = Store(
    action: Option<string>,
    reverseAction: Option<string>,
    serviceEnabled: Option<bool>,
    preferExplicitPlayPause: Option<bool>,
    allowProxyScreenOff: Option<bool>,
    offscreenRetryEnabled: Option<bool>,
    offscreenRetryDelayMs: Option<int>,
    hapticsEnabled: Option<bool>,
    routeMediaToPhone: Option<bool>,
    lastPhoneSyncTs: Option<int>)

  /** What the getters return. */
  datatype Settings = Settings(
    action: string,
    reverseAction: string,
    serviceEnabled: bool,
    preferExplicitPlayPause: bool,
    allowProxyScreenOff: bool,
    offscreenRetryEnabled: bool,
    offscreenRetryDelayMs: int,
    hapticsEnabled: bool,
    routeMediaToPhone: bool,
    lastPhoneSyncTs: int)

  /** A store in which nothing was ever written. */
  function Empty(): Store {
    Store(None, None, None, None, None, None, None, None, None, None)
  }

  /** The getters, each with its default for an absent key. */
  function Read(s: Store): Settings {
    Settings(
      s.action.GetOr(ActionPlayPause),
      s.reverseAction.GetOr(ActionPlayPause),
      s.serviceEnabled.GetOr(true),
      s.preferExplicitPlayPause.GetOr(true),
      s.allowProxyScreenOff.GetOr(false),
      s.offscreenRetryEnabled.GetOr(true),
      s.offscreenRetryDelayMs.GetOr(DefaultRetryDelayMs),
      s.hapticsEnabled.GetOr(true),
      s.routeMediaToPhone.GetOr(true),
      s.lastPhoneSyncTs.GetOr(0))
  }

  /** The defaults read from a store where nothing was written. */
  lemma Defaults()
    ensures Read(Empty()) == Settings(ActionPlayPause, ActionPlayPause, true, true, false, true, 220, true, true, 0)
  {
  }

  // ---------------------------------------------------------------------
  // Setters
  // ---------------------------------------------------------------------

  function SetSelectedAction(s: Store, action: string): (r: Store)
    ensures Read(r) == Read(s).(action := action)
  {
    s.(action := Some(action))
  }

  function SetReverseAction(s: Store, action: string): (r: Store)
    ensures Read(r) == Read(s).(reverseAction := action)
  {
    s.(reverseAction := Some(action))
  }

  function SetServiceEnabled(s: Store, enabled: bool): (r: Store)
    ensures Read(r) == Read(s).(serviceEnabled := enabled)
  {
    s.(serviceEnabled := Some(enabled))
  }

  function SetPreferExplicitPlayPauseKey(s: Store, enabled: bool): (r: Store)
    ensures Read(r) == Read(s).(preferExplicitPlayPause := enabled)
  {
    s.(preferExplicitPlayPause := Some(enabled))
  }

  function SetAllowProxyControlWhenScreenOff(s: Store, enabled: bool): (r: Store)
    ensures Read(r) == Read(s).(allowProxyScreenOff := enabled)
  {
    s.(allowProxyScreenOff := Some(enabled))
  }

  function SetOffscreenRetryEnabled(s: Store, enabled: bool): (r: Store)
    ensures Read(r) == Read(s).(offscreenRetryEnabled := enabled)
  {
    s.(offscreenRetryEnabled := Some(enabled))
  }

  /** `setOffscreenRetryDelayMs` stores the delay clamped into [120, 1000]:
      in-range values unchanged, others at the nearer bound. */
  function SetOffscreenRetryDelayMs(s: Store, delayMs: int): (r: Store)
    ensures MinRetryDelayMs <= Read(r).offscreenRetryDelayMs <= MaxRetryDelayMs
    ensures MinRetryDelayMs <= delayMs <= MaxRetryDelayMs ==> Read(r).offscreenRetryDelayMs == delayMs
    ensures delayMs < MinRetryDelayMs ==> Read(r).offscreenRetryDelayMs == MinRetryDelayMs
    ensures delayMs > MaxRetryDelayMs ==> Read(r).offscreenRetryDelayMs == MaxRetryDelayMs
    ensures Read(r) == Read(s).(offscreenRetryDelayMs := Read(r).offscreenRetryDelayMs)
  {
    s.(offscreenRetryDelayMs := Some(Clamp(delayMs, MinRetryDelayMs, MaxRetryDelayMs)))
  }

  function SetHapticsEnabled(s: Store, enabled: bool): (r: Store)
    ensures Read(r) == Read(s).(hapticsEnabled := enabled)
  {
    s.(hapticsEnabled := Some(enabled))
  }

  function SetRouteMediaToPhone(s: Store, enabled: bool): (r: Store)
    ensures Read(r) == Read(s).(routeMediaToPhone := enabled)
  {
    s.(routeMediaToPhone := Some(enabled))
  }

  // ---------------------------------------------------------------------
  // Action identifiers
  // ---------------------------------------------------------------------

  /** `getAllActions`: the eighteen selectable actions, play/pause first. */
  function AllActions(): (r: seq<string>)
    ensures |r| == 18 && r[0] == ActionPlayPause
    ensures forall i, j :: 0 <= i < j < |r| ==> r[i] != r[j]
  {
    [ActionPlayPause, ActionPlay, ActionPause, ActionStop, ActionBack, ActionHome,
     ActionRecents, ActionNextTrack, ActionPrevTrack, ActionFastForward, ActionRewind,
     ActionVolumeUp, ActionVolumeDown, ActionMute, ActionNotifications, ActionOpenCamera,
     ActionLaunchAssistant, ActionFindPhone]
  }

  /** `mapProtocolAction`: a protocol identifier becomes the watch action
      of the same name; anything else becomes play/pause. The result is
      always a selectable action. */
  function MapProtocolAction(action: string): (r: string)
    ensures action in SyncProtocol.ProtocolActions() ==> r == action
    ensures action !in SyncProtocol.ProtocolActions() ==> r == ActionPlayPause
    ensures r in AllActions()
  {
    if action == SyncProtocol.ActionPlayPause then ActionPlayPause
    else if action == SyncProtocol.ActionPlay then ActionPlay
    else if action == SyncProtocol.ActionPause then ActionPause
    else if action == SyncProtocol.ActionStop then ActionStop
    else if action == SyncProtocol.ActionNext then ActionNextTrack
    else if action == SyncProtocol.ActionPrevious then ActionPrevTrack
    else if action == SyncProtocol.ActionFastForward then ActionFastForward
    else if action == SyncProtocol.ActionRewind then ActionRewind
    else if action == SyncProtocol.ActionVolumeUp then ActionVolumeUp
    else if action == SyncProtocol.ActionVolumeDown then ActionVolumeDown
    else if action == SyncProtocol.ActionMute then ActionMute
    else if action == SyncProtocol.ActionOpenCamera then ActionOpenCamera
    else if action == SyncProtocol.ActionLaunchAssistant then ActionLaunchAssistant
    else if action == SyncProtocol.ActionFindPhone then ActionFindPhone
    else ActionPlayPause
  }

  /** The watch-only actions are exactly the ones the protocol cannot name. */
  lemma WatchOnlyActions(action: string)
    requires action in AllActions()
    ensures action !in SyncProtocol.ProtocolActions() <==>
              action in [ActionBack, ActionHome, ActionRecents, ActionNotifications]
  {
  }

  /** `getActionDisplayName`: the label of each action; unknown identifiers
      read as play/pause. */
  function ActionDisplayName(action: string): string {
    if action == ActionPlayPause then "Play/Pause Media"
    else if action == ActionPlay then "Play"
    else if action == ActionPause then "Pause"
    else if action == ActionStop then "Stop"
    else if action == ActionBack then "Back"
    else if action == ActionHome then "Home"
    else if action == ActionRecents then "Recent Apps"
    else if action == ActionNextTrack then "Next Track"
    else if action == ActionPrevTrack then "Previous Track"
    else if action == ActionFastForward then "Fast Forward"
    else if action == ActionRewind then "Rewind"
    else if action == ActionVolumeUp then "Volume Up"
    else if action == ActionVolumeDown then "Volume Down"
    else if action == ActionMute then "Mute"
    else if action == ActionNotifications then "Notifications"
    else if action == ActionOpenCamera then "Open Camera"
    else if action == ActionLaunchAssistant then "Voice Assistant"
    else if action == ActionFindPhone then "Find My Phone"
    else "Play/Pause Media"
  }

  /** The labels of `AllActions`, position by position. */
  function DisplayNames(): seq<string> {
    ["Play/Pause Media", "Play", "Pause", "Stop", "Back", "Home", "Recent Apps",
     "Next Track", "Previous Track", "Fast Forward", "Rewind", "Volume Up",
     "Volume Down", "Mute", "Notifications", "Open Camera", "Voice Assistant",
     "Find My Phone"]
  }

  /** Each selectable action has the label at its position. */
  lemma DisplayNameTable(i: nat)
    requires i < |AllActions()|
    ensures ActionDisplayName(AllActions()[i]) == DisplayNames()[i]
  {
    if i == 0 {
      assert ActionDisplayName(AllActions()[0]) == DisplayNames()[0];
    } else if i == 1 {
      assert ActionDisplayName(AllActions()[1]) == DisplayNames()[1];
    } else if i == 2 {
      assert ActionDisplayName(AllActions()[2]) == DisplayNames()[2];
    } else if i == 3 {
      assert ActionDisplayName(AllActions()[3]) == DisplayNames()[3];
    } else if i == 4 {
      assert ActionDisplayName(AllActions()[4]) == DisplayNames()[4];
    } else if i == 5 {
      assert ActionDisplayName(AllActions()[5]) == DisplayNames()[5];
    } else if i == 6 {
      assert ActionDisplayName(AllActions()[6]) == DisplayNames()[6];
    } else if i == 7 {
      assert ActionDisplayName(AllActions()[7]) == DisplayNames()[7];
    } else if i == 8 {
      assert ActionDisplayName(AllActions()[8]) == DisplayNames()[8];
    } else if i == 9 {
      assert ActionDisplayName(AllActions()[9]) == DisplayNames()[9];
    } else if i == 10 {
      assert ActionDisplayName(AllActions()[10]) == DisplayNames()[10];
    } else if i == 11 {
      assert ActionDisplayName(AllActions()[11]) == DisplayNames()[11];
    } else if i == 12 {
      assert ActionDisplayName(AllActions()[12]) == DisplayNames()[12];
    } else if i == 13 {
      assert ActionDisplayName(AllActions()[13]) == DisplayNames()[13];
    } else if i == 14 {
      assert ActionDisplayName(AllActions()[14]) == DisplayNames()[14];
    } else if i == 15 {
      assert ActionDisplayName(AllActions()[15]) == DisplayNames()[15];
    } else if i == 16 {
      assert ActionDisplayName(AllActions()[16]) == DisplayNames()[16];
    }
  }

  /** The labels are distinct. */
  lemma DisplayNamesDistinct()
    ensures forall i, j :: 0 <= i < j < |DisplayNames()| ==> DisplayNames()[i] != DisplayNames()[j]
  {
  }

  /** An unknown identifier reads as play/pause. */
  lemma DisplayNameOfUnknown(action: string)
    requires action !in AllActions()
    ensures ActionDisplayName(action) == DisplayNames()[0]
  {
    var all := AllActions();
    assert forall i :: 0 <= i < |all| ==> action != all[i];
  }

  // ---------------------------------------------------------------------
  // Merging the phone's settings
  // ---------------------------------------------------------------------

  /** The value of `key` in the payload, if present. */
  function Lookup(payload: map<string, string>, key: string): Option<string> {
    if key in payload then Some(payload[key]) else None
  }

  /** An action field after the merge: present keys are mapped. */
  function MergeAction(current: Option<string>, value: Option<string>): (r: Option<string>)
    ensures value.None? ==> r == current
    ensures value.Some? ==> r == Some(MapProtocolAction(value.value))
  {
    match value
    case None => current
    case Some(v) => Some(MapProtocolAction(v))
  }

  /** A boolean field after the merge: only "true" and "false" write. */
  function MergeBool(current: Option<bool>, value: Option<string>): (r: Option<bool>)
    ensures value == Some("true") ==> r == Some(true)
    ensures value == Some("false") ==> r == Some(false)
    ensures value != Some("true") && value != Some("false") ==> r == current
  {
    match value
    case None => current
    case Some(v) =>
      (match ParseBoolStrict(v)
       case None => current
       case Some(b) => Some(b))
  }

  /** The delay after the merge: an `Int` writes, clamped; anything else is
      ignored. */
  function MergeDelay(current: Option<int>, value: Option<string>): (r: Option<int>)
    ensures value.None? || ParseInt(value.value).None? ==> r == current
    ensures value.Some? && ParseInt(value.value).Some? ==>
              r == Some(Clamp(ParseInt(value.value).value, MinRetryDelayMs, MaxRetryDelayMs))
  {
    match value
    case None => current
    case Some(v) =>
      (match ParseInt(v)
       case None => current
       case Some(d) => Some(Clamp(d, MinRetryDelayMs, MaxRetryDelayMs)))
  }

  /** The sync timestamp after the merge: a `Long` writes; anything else is
      ignored. */
  function MergeLong(current: Option<int>, value: Option<string>): (r: Option<int>)
    ensures value.None? || ParseLong(value.value).None? ==> r == current
    ensures value.Some? && ParseLong(value.value).Some? ==> r == ParseLong(value.value)
  {
    match value
    case None => current
    case Some(v) =>
      (match ParseLong(v)
       case None => current
       case Some(t) => Some(t))
  }

  /** `applyPhoneSyncedSettings`: merges the phone's payload. Every field
      whose key is absent keeps its stored value; so does every boolean
      field whose value is not exactly "true" or "false", and the delay
      and timestamp when their values do not parse. `control_enabled`
      writes the service flag. */
  function ApplyPhoneSyncedSettings(s: Store, payload: map<string, string>): (r: Store)
    ensures SyncProtocol.KeyPrimaryAction !in payload ==> r.action == s.action
    ensures SyncProtocol.KeyPrimaryAction in payload ==>
              r.action == Some(MapProtocolAction(payload[SyncProtocol.KeyPrimaryAction]))
    ensures SyncProtocol.KeyReverseAction !in payload ==> r.reverseAction == s.reverseAction
    ensures SyncProtocol.KeyReverseAction in payload ==>
              r.reverseAction == Some(MapProtocolAction(payload[SyncProtocol.KeyReverseAction]))
    ensures r.serviceEnabled == MergeBool(s.serviceEnabled, Lookup(payload, SyncProtocol.KeyControlEnabled))
    ensures r.preferExplicitPlayPause == MergeBool(s.preferExplicitPlayPause, Lookup(payload, SyncProtocol.KeyPreferExplicitPlayPause))
    ensures r.allowProxyScreenOff == MergeBool(s.allowProxyScreenOff, Lookup(payload, SyncProtocol.KeyAllowProxyScreenOff))
    ensures r.offscreenRetryEnabled == MergeBool(s.offscreenRetryEnabled, Lookup(payload, SyncProtocol.KeyEnableOffscreenRetry))
    ensures r.offscreenRetryDelayMs == MergeDelay(s.offscreenRetryDelayMs, Lookup(payload, SyncProtocol.KeyOffscreenRetryDelayMs))
    ensures r.hapticsEnabled == MergeBool(s.hapticsEnabled, Lookup(payload, SyncProtocol.KeyHapticsEnabled))
    ensures r.routeMediaToPhone == MergeBool(s.routeMediaToPhone, Lookup(payload, SyncProtocol.KeyRouteMediaToPhone))
    ensures r.lastPhoneSyncTs == MergeLong(s.lastPhoneSyncTs, Lookup(payload, SyncProtocol.KeySyncTs))
  {
    Store(
      MergeAction(s.action, Lookup(payload, SyncProtocol.KeyPrimaryAction)),
      MergeAction(s.reverseAction, Lookup(payload, SyncProtocol.KeyReverseAction)),
      MergeBool(s.serviceEnabled, Lookup(payload, SyncProtocol.KeyControlEnabled)),
      MergeBool(s.preferExplicitPlayPause, Lookup(payload, SyncProtocol.KeyPreferExplicitPlayPause)),
      MergeBool(s.allowProxyScreenOff, Lookup(payload, SyncProtocol.KeyAllowProxyScreenOff)),
      MergeBool(s.offscreenRetryEnabled, Lookup(payload, SyncProtocol.KeyEnableOffscreenRetry)),
      MergeDelay(s.offscreenRetryDelayMs, Lookup(payload, SyncProtocol.KeyOffscreenRetryDelayMs)),
      MergeBool(s.hapticsEnabled, Lookup(payload, SyncProtocol.KeyHapticsEnabled)),
      MergeBool(s.routeMediaToPhone, Lookup(payload, SyncProtocol.KeyRouteMediaToPhone)),
      MergeLong(s.lastPhoneSyncTs, Lookup(payload, SyncProtocol.KeySyncTs)))
  }

  /** The keys the merge reads. */
  function SyncedKeys(): set<string> {
    {SyncProtocol.KeyPrimaryAction, SyncProtocol.KeyReverseAction, SyncProtocol.KeyControlEnabled,
     SyncProtocol.KeyPreferExplicitPlayPause, SyncProtocol.KeyAllowProxyScreenOff,
     SyncProtocol.KeyEnableOffscreenRetry, SyncProtocol.KeyOffscreenRetryDelayMs,
     SyncProtocol.KeyHapticsEnabled, SyncProtocol.KeyRouteMediaToPhone, SyncProtocol.KeySyncTs}
  }

  /** The stored values are within what the setters and the merge can
      write: a stored delay is inside [120, 1000]. */
  predicate Valid(s: Store) {
    s.offscreenRetryDelayMs.Some? ==> MinRetryDelayMs <= s.offscreenRetryDelayMs.value <= MaxRetryDelayMs
  }

  /** An empty payload changes nothing, keys the merge does not read change
      nothing, merging the same payload twice is merging it once, the merge
      keeps the store valid, and a synced action is always selectable. */
  lemma MergeProperties(s: Store, payload: map<string, string>)
    ensures ApplyPhoneSyncedSettings(s, map[]) == s
    ensures ApplyPhoneSyncedSettings(s, payload)
         == ApplyPhoneSyncedSettings(s, map k | k in payload && k in SyncedKeys() :: payload[k])
    ensures ApplyPhoneSyncedSettings(ApplyPhoneSyncedSettings(s, payload), payload)
         == ApplyPhoneSyncedSettings(s, payload)
    ensures Valid(s) ==> Valid(ApplyPhoneSyncedSettings(s, payload))
    ensures SyncProtocol.KeyPrimaryAction in payload ==> Read(ApplyPhoneSyncedSettings(s, payload)).action in AllActions()
  {
  }

  /** The settings that arrive as their own text are read back exactly:
      a protocol action, the exact booleans, an in-range delay and a
      timestamp in `Long` range. */
  lemma MergeReadsBack(s: Store, action: string, flag: bool, delay: int, ts: int)
    requires action in SyncProtocol.ProtocolActions()
    requires MinRetryDelayMs <= delay <= MaxRetryDelayMs
    requires LongMin <= ts <= LongMax
    ensures var r := Read(ApplyPhoneSyncedSettings(s, map[
                SyncProtocol.KeyPrimaryAction := action,
                SyncProtocol.KeyHapticsEnabled := BoolToString(flag),
                SyncProtocol.KeyOffscreenRetryDelayMs := IntToString(delay),
                SyncProtocol.KeySyncTs := IntToString(ts)]));
      r.action == action && r.hapticsEnabled == flag && r.offscreenRetryDelayMs == delay && r.lastPhoneSyncTs == ts
  {
    IntToStringRoundTrip(delay, IntMin, IntMax);
    IntToStringRoundTrip(ts, LongMin, LongMax);
  }
}

=== FILE: common.dfy ===
/** Small shared vocabulary: an optional value, Kotlin's `coerceIn` and
    `filter`, and the bounds of Kotlin's 32- and 64-bit integers. */
module Common {

  /** Kotlin's nullable value `T?`. */
  datatype Option<+T> = None | Some(value: T) {

    /** The `?:` (elvis) operator: the value, or `default` when absent. */
    function GetOr(default: T): T {
      match this
      case Some(v) => v
      case None => default
    }
  }

  const IntMin: int := -0x8000_0000
  const IntMax: int := 0x7FFF_FFFF
  const LongMin: int := -0x8000_0000_0000_0000
  const LongMax: int := 0x7FFF_FFFF_FFFF_FFFF

  /** Kotlin's `coerceIn(lo, hi)`. */
  function Clamp(x: int, lo: int, hi: int): (r: int)
    requires lo <= hi
    ensures lo <= r <= hi
    ensures lo <= x <= hi ==> r == x
    ensures x < lo ==> r == lo
    ensures hi < x ==> r == hi
  {
    if x < lo then lo else if hi < x then hi else x
  }

  /** A sequence is its prefix, one element and the rest. */
  lemma SplitAround<T>(s: seq<T>, j: nat)
    requires j < |s|
    ensures s == s[..j] + [s[j]] + s[j + 1..]
  {
  }

  /** Kotlin's `filter`: the elements that satisfy `keep`, in order. Every
      element that satisfies `keep` is kept as often as it occurs; the order
      is stated by `FilterAppend` and `FilterOfOne`. */
  function Filter<T(!new)>(xs: seq<T>, keep: T -> bool): (r: seq<T>)
    ensures forall i :: 0 <= i < |r| ==> keep(r[i])
    ensures multiset(r) <= multiset(xs)
    ensures forall x :: multiset(r)[x] == (if keep(x) then multiset(xs)[x] else 0)
    decreases |xs|
  {
    if |xs| == 0 then []
    else
      var rest := Filter(xs[1..], keep);
      assert multiset(xs) == multiset{xs[0]} + multiset(xs[1..]) by {
        assert xs == [xs[0]] + xs[1..];
      }
      if keep(xs[0]) then
        var r := [xs[0]] + rest;
        assert forall i :: 1 <= i < |r| ==> r[i] == rest[i - 1];
        assert multiset(r) == multiset{xs[0]} + multiset(rest);
        r
      else rest
  }

  /** A single element is kept exactly when it satisfies `keep`. */
  lemma FilterOfOne<T(!new)>(x: T, keep: T -> bool)
    ensures Filter([x], keep) == if keep(x) then [x] else []
  {
  }

  /** Filtering two blocks one after the other concatenates their
      results, so the kept elements keep their order. */
  lemma {:induction false} FilterAppend<T(!new)>(a: seq<T>, b: seq<T>, keep: T -> bool)
    ensures Filter(a + b, keep) == Filter(a, keep) + Filter(b, keep)
    decreases |a|
  {
    if |a| == 0 {
      assert a + b == b;
    } else {
      assert (a + b)[0] == a[0];
      assert (a + b)[1..] == a[1..] + b;
      FilterAppend(a[1..], b, keep);
    }
  }

  /** The filter keeps something exactly when some element satisfies
      `keep`. */
  lemma {:induction false} FilterNonEmpty<T(!new)>(xs: seq<T>, keep: T -> bool)
    ensures (exists i :: 0 <= i < |xs| && keep(xs[i])) <==> |Filter(xs, keep)| > 0
    decreases |xs|
  {
    if |xs| > 0 && !keep(xs[0]) {
      FilterNonEmpty(xs[1..], keep);
      if exists i :: 0 <= i < |xs| && keep(xs[i]) {
        var i :| 0 <= i < |xs| && keep(xs[i]);
        assert xs[1..][i - 1] == xs[i];
      }
      if exists i :: 0 <= i < |xs[1..]| && keep(xs[1..][i]) {
        var i :| 0 <= i < |xs[1..]| && keep(xs[1..][i]);
        assert xs[i + 1] == xs[1..][i];
      }
    }
  }
}

=== FILE: control_preferences.dfy ===
/** The phone's preference store (`ControlPreferences`): the same
    optional-field record as on the watch, with the fourteen actions the
    phone can carry out. */
module ControlPreferences {
  import opened Common

  const ActionPlayPause: string := "play_pause"
  const ActionPlay: string := "play"
  const ActionPause: string := "pause"
  const ActionStop: string := "stop"
  const ActionNextTrack: string := "next_track"
  const ActionPrevTrack: string := "prev_track"
  const ActionFastForward: string := "fast_forward"
  const ActionRewind: string := "rewind"
  const ActionVolumeUp: string := "volume_up"
  const ActionVolumeDown: string := "volume_down"
  const ActionMute: string := "mute"
  const ActionOpenCamera: string := "open_camera"
  const ActionLaunchAssistant: string := "launch_assistant"
  const ActionFindPhone: string := "find_phone"

  const DefaultRetryDelayMs: int := 220
  const MinRetryDelayMs: int := 120
  const MaxRetryDelayMs: int := 1000

  /** The stored keys; `None` is a key that was never written. */
  datatype Store = Store(
    primaryAction: Option<string>,
    reverseAction: Option<string>,
    controlEnabled: Option<bool>,
    preferExplicitPlayPause: Option<bool>,
    allowProxyScreenOff: Option<bool>,
    offscreenRetryEnabled: Option<bool>,
    offscreenRetryDelayMs: Option<int>,
    hapticsEnabled: Option<bool>)

  /** What the getters return. */
  datatype Settings = Settings(
    primaryAction: string,
    reverseAction: string,
    controlEnabled: bool,
    preferExplicitPlayPause: bool,
    allowProxyScreenOff: bool,
    offscreenRetryEnabled: bool,
    offscreenRetryDelayMs: int,
    hapticsEnabled: bool)

  function Empty(): Store {
    Store(None, None, None, None, None, None, None, None)
  }

  /** The getters, each with its default for an absent key. */
  function Read(s: Store): Settings {
    Settings(
      s.primaryAction.GetOr(ActionPlayPause),
      s.reverseAction.GetOr(ActionPlayPause),
      s.controlEnabled.GetOr(true),
      s.preferExplicitPlayPause.GetOr(true),
      s.allowProxyScreenOff.GetOr(false),
      s.offscreenRetryEnabled.GetOr(true),
      s.offscreenRetryDelayMs.GetOr(DefaultRetryDelayMs),
      s.hapticsEnabled.GetOr(true))
  }

  /** The defaults read from a store where nothing was written. */
  lemma Defaults()
    ensures Read(Empty()) == Settings(ActionPlayPause, ActionPlayPause, true, true, false, true, 220, true)
  {
  }

  // ---------------------------------------------------------------------
  // Setters: each changes what its own getter returns and nothing else
  // ---------------------------------------------------------------------

  function SetPrimaryAction(s: Store, action: string): (r: Store)
    ensures Read(r) == Read(s).(primaryAction := action)
  {
    s.(primaryAction := Some(action))
  }

  function SetReverseAction(s: Store, action: string): (r: Store)
    ensures Read(r) == Read(s).(reverseAction := action)
  {
    s.(reverseAction := Some(action))
  }

  function SetControlEnabled(s: Store, enabled: bool): (r: Store)
    ensures Read(r) == Read(s).(controlEnabled := enabled)
  {
    s.(controlEnabled := Some(enabled))
  }

  function SetPreferExplicitPlayPauseKey(s: Store, enabled: bool): (r: Store)
    ensures Read(r) == Read(s).(preferExplicitPlayPause := enabled)
  {
    s.(preferExplicitPlayPause := Some(enabled))
  }

  function SetAllowProxyControlWhenScreenOff(s: Store, enabled: bool): (r: Store)
    ensures Read(r) == Read(s).(allowProxyScreenOff := enabled)
  {
    s.(allowProxyScreenOff := Some(enabled))
  }

  function SetOffscreenRetryEnabled(s: Store, enabled: bool): (r: Store)
    ensures Read(r) == Read(s).(offscreenRetryEnabled := enabled)
  {
    s.(offscreenRetryEnabled := Some(enabled))
  }

  /** `setOffscreenRetryDelayMs` stores the delay clamped into [120, 1000]. */
  function SetOffscreenRetryDelayMs(s: Store, delayMs: int): (r: Store)
    ensures MinRetryDelayMs <= Read(r).offscreenRetryDelayMs <= MaxRetryDelayMs
    ensures MinRetryDelayMs <= delayMs <= MaxRetryDelayMs ==> Read(r).offscreenRetryDelayMs == delayMs
    ensures delayMs < MinRetryDelayMs ==> Read(r).offscreenRetryDelayMs == MinRetryDelayMs
    ensures delayMs > MaxRetryDelayMs ==> Read(r).offscreenRetryDelayMs == MaxRetryDelayMs
    ensures Read(r) == Read(s).(offscreenRetryDelayMs := Read(r).offscreenRetryDelayMs)
  {
    s.(offscreenRetryDelayMs := Some(Clamp(delayMs, MinRetryDelayMs, MaxRetryDelayMs)))
  }

  function SetHapticsEnabled(s: Store, enabled: bool): (r: Store)
    ensures Read(r) == Read(s).(hapticsEnabled := enabled)
  {
    s.(hapticsEnabled := Some(enabled))
  }

  // ---------------------------------------------------------------------
  // Action identifiers
  // ---------------------------------------------------------------------

  /** `getAllActions`: the fourteen actions, play/pause first. */
  function AllActions(): (r: seq<string>)
    ensures |r| == 14 && r[0] == ActionPlayPause
    ensures forall i, j :: 0 <= i < j < |r| ==> r[i] != r[j]
  {
    [ActionPlayPause, ActionPlay, ActionPause, ActionStop, ActionNextTrack, ActionPrevTrack,
     ActionFastForward, ActionRewind, ActionVolumeUp, ActionVolumeDown, ActionMute,
     ActionOpenCamera, ActionLaunchAssistant, ActionFindPhone]
  }

  /** The phone lists none of the watch-only navigation actions. */
  lemma NoNavigationActions()
    ensures "back" !in AllActions() && "home" !in AllActions()
    ensures "recents" !in AllActions() && "notifications" !in AllActions()
  {
  }

  /** `getActionDisplayName`. */
  function ActionDisplayName(action: string): string {
    if action == ActionPlayPause then "Play/Pause"
    else if action == ActionPlay then "Play"
    else if action == ActionPause then "Pause"
    else if action == ActionStop then "Stop"
    else if action == ActionNextTrack then "Next Track"
    else if action == ActionPrevTrack then "Previous Track"
    else if action == ActionFastForward then "Fast Forward"
    else if action == ActionRewind then "Rewind"
    else if action == ActionVolumeUp then "Volume Up"
    else if action == ActionVolumeDown then "Volume Down"
    else if action == ActionMute then "Mute"
    else if action == ActionOpenCamera then "Open Camera"
    else if action == ActionLaunchAssistant then "Voice Assistant"
    else if action == ActionFindPhone then "Find My Phone"
    else "Play/Pause"
  }

  /** The labels of `AllActions`, position by position. */
  function DisplayNames(): seq<string> {
    ["Play/Pause", "Play", "Pause", "Stop", "Next Track", "Previous Track",
     "Fast Forward", "Rewind", "Volume Up", "Volume Down", "Mute", "Open Camera",
     "Voice Assistant", "Find My Phone"]
  }

  /** Each action has the label at its position. */
  lemma DisplayNameTable(i: nat)
    requires i < |AllActions()|
    ensures ActionDisplayName(AllActions()[i]) == DisplayNames()[i]
  {
    if i == 0 {
      assert ActionDisplayName(AllActions()[0]) == DisplayNames()[0];
    } else if i == 1 {
      assert ActionDisplayName(AllActions()[1]) == DisplayNames()[1];
    } else if i == 2 {
      assert ActionDisplayName(AllActions()[2]) == DisplayNames()[2];
    } else if i == 3 {
      assert ActionDisplayName(AllActions()[3]) == DisplayNames()[3];
    } else if i == 4 {
      assert ActionDisplayName(AllActions()[4]) == DisplayNames()[4];
    } else if i == 5 {
      assert ActionDisplayName(AllActions()[5]) == DisplayNames()[5];
    } else if i == 6 {
      assert ActionDisplayName(AllActions()[6]) == DisplayNames()[6];
    } else if i == 7 {
      assert ActionDisplayName(AllActions()[7]) == DisplayNames()[7];
    } else if i == 8 {
      assert ActionDisplayName(AllActions()[8]) == DisplayNames()[8];
    } else if i == 9 {
      assert ActionDisplayName(AllActions()[9]) == DisplayNames()[9];
    } else if i == 10 {
      assert ActionDisplayName(AllActions()[10]) == DisplayNames()[10];
    } else if i == 11 {
      assert ActionDisplayName(AllActions()[11]) == DisplayNames()[11];
    } else if i == 12 {
      assert ActionDisplayName(AllActions()[12]) == DisplayNames()[12];
    }
  }

  /** The labels are distinct. */
  lemma DisplayNamesDistinct()
    ensures forall i, j :: 0 <= i < j < |DisplayNames()| ==> DisplayNames()[i] != DisplayNames()[j]
  {
  }

  /** An unknown identifier reads as play/pause. */
  lemma DisplayNameOfUnknown(action: string)
    requires action !in AllActions()
    ensures ActionDisplayName(action) == DisplayNames()[0]
  {
    var all := AllActions();
    assert forall i :: 0 <= i < |all| ==> action != all[i];
  }
}

=== FILE: cross_device.dfy ===
/** The two ends together: what the phone sends is what the watch reads.

    The phone's settings payload, written with the wire format's encoder,
    decoded on the watch and merged into its store, sets every synced
    setting to the phone's value; a media command written by the watch is
    read back by the phone as the same action and timestamp, and its
    data-item fallback is handled like the message; and the two ends'
    off-screen retry rules agree on every key either can pick, although
    the phone consults its rule only when every session fails both ways
    (`PhoneMediaExecutor.PhoneNeverRetries`). */
module CrossDevice {
  import opened Common
  import opened Text
  import SyncProtocol
  import ActionPreferences
  import ControlPreferences
  import PhoneMediaExecutor
  import PhoneSyncListener
  import GestureService
  import opened MediaSessions

  // ---------------------------------------------------------------------
  // Settings: phone to watch
  // ---------------------------------------------------------------------

  /** The phone's actions are exactly the protocol's identifiers, in the
      same order. */
  lemma PhoneActionsAreProtocolActions()
    ensures ControlPreferences.AllActions() == SyncProtocol.ProtocolActions()
  {
  }

  /** A value the wire format carries unchanged in either position of an
      entry. */
  predicate WireSafe(s: string) {
    s != "" && Trimmed(s) && NoLineBreaks(s) && '=' !in s
  }

  /** A literal is wire-safe when it is non-empty, starts and ends with a
      non-blank character and contains no break and no `=`. */
  lemma LiteralIsWireSafe(s: string)
    requires s != "" && !IsWhitespace(s[0]) && !IsWhitespace(s[|s| - 1])
    requires '\n' !in s && '\r' !in s && '=' !in s
    ensures WireSafe(s)
  {
    NoLineBreaksByMembership(s);
  }

  /** Lower-case letters and underscores only, as every identifier of the
      protocol is written. */
  predicate IsIdentifier(s: string) {
    s != "" && forall k :: 0 <= k < |s| ==> ('a' <= s[k] <= 'z' || s[k] == '_')
  }

  lemma IdentifierIsWireSafe(s: string)
    requires IsIdentifier(s)
    ensures WireSafe(s)
  {
    assert s[0] == s[0] && s[|s| - 1] == s[|s| - 1];
    assert forall k :: 0 <= k < |s| ==> s[k] != '=';
  }

  /** Every protocol identifier is wire-safe. */
  lemma ProtocolActionIsWireSafe(i: nat)
    requires i < |SyncProtocol.ProtocolActions()|
    ensures WireSafe(SyncProtocol.ProtocolActions()[i])
  {
    IdentifierIsWireSafe(SyncProtocol.ProtocolActions()[i]);
  }

  /** Every key of the settings payload is wire-safe. */
  lemma PayloadKeyIsWireSafe(i: nat)
    requires i < |PhoneMediaExecutor.PayloadKeys()|
    ensures WireSafe(PhoneMediaExecutor.PayloadKeys()[i])
  {
    if i < 2 {
      KeysAreIdentifiers01(i);
    } else if i < 4 {
      KeysAreIdentifiers23(i);
    } else if i < 6 {
      KeysAreIdentifiers45(i);
    } else {
      KeysAreIdentifiers678(i);
    }
    IdentifierIsWireSafe(PhoneMediaExecutor.PayloadKeys()[i]);
  }

  // The keys' characters, checked a few keys at a time.
  lemma KeysAreIdentifiers01(i: nat)
    requires i < 2
    ensures IsIdentifier(PhoneMediaExecutor.PayloadKeys()[i])
  {
  }

  lemma KeysAreIdentifiers23(i: nat)
    requires 2 <= i < 4
    ensures IsIdentifier(PhoneMediaExecutor.PayloadKeys()[i])
  {
  }

  lemma KeysAreIdentifiers45(i: nat)
    requires 4 <= i < 6
    ensures IsIdentifier(PhoneMediaExecutor.PayloadKeys()[i])
  {
  }

  lemma KeysAreIdentifiers678(i: nat)
    requires 6 <= i < 9
    ensures IsIdentifier(PhoneMediaExecutor.PayloadKeys()[i])
  {
  }

  /** Printed booleans and integers are wire-safe. */
  lemma PrintedValuesAreWireSafe(b: bool, n: int)
    ensures WireSafe(BoolToString(b)) && WireSafe(IntToString(n))
  {
    LiteralIsWireSafe("true");
    LiteralIsWireSafe("false");
    IntToStringClean(n);
  }

  /** An entry of two wire-safe strings is clean. */
  lemma WireSafeEntry(e: SyncProtocol.Entry)
    requires WireSafe(e.0) && WireSafe(e.1)
    ensures SyncProtocol.CleanEntry(e)
  {
  }

  /** Every phone action is wire-safe. */
  lemma PhoneActionIsWireSafe(action: string)
    requires action in ControlPreferences.AllActions()
    ensures WireSafe(action)
  {
    PhoneActionsAreProtocolActions();
    var k :| 0 <= k < |SyncProtocol.ProtocolActions()| && SyncProtocol.ProtocolActions()[k] == action;
    ProtocolActionIsWireSafe(k);
  }

  /** Every value of the phone's settings payload is wire-safe. */
  lemma PayloadValueIsWireSafe(phone: ControlPreferences.Settings, now: int, i: nat)
    requires phone.primaryAction in ControlPreferences.AllActions()
    requires i < |PhoneMediaExecutor.PayloadKeys()|
    ensures WireSafe(PhoneMediaExecutor.SettingsPayload(phone, now)[i].1)
  {
    var v := PhoneMediaExecutor.SettingsPayload(phone, now)[i].1;
    if i == 0 {
      PhoneActionIsWireSafe(phone.primaryAction);
    } else if i == 4 {
      assert v == IntToString(phone.offscreenRetryDelayMs);
      PrintedValuesAreWireSafe(true, phone.offscreenRetryDelayMs);
    } else if i == 8 {
      assert v == IntToString(now);
      PrintedValuesAreWireSafe(true, now);
    } else {
      assert v == "true" || v == "false";
      PrintedValuesAreWireSafe(true, 0);
      PrintedValuesAreWireSafe(false, 0);
    }
  }

  /** Every entry of the phone's settings payload survives the wire
      format. */
  lemma PayloadIsClean(phone: ControlPreferences.Settings, now: int)
    requires phone.primaryAction in ControlPreferences.AllActions()
    ensures var es := PhoneMediaExecutor.SettingsPayload(phone, now);
      forall i :: 0 <= i < |es| ==> SyncProtocol.CleanEntry(es[i])
  {
    var es := PhoneMediaExecutor.SettingsPayload(phone, now);
    forall i | 0 <= i < |es| ensures SyncProtocol.CleanEntry(es[i]) {
      PayloadKeyIsWireSafe(i);
      PayloadValueIsWireSafe(phone, now, i);
      WireSafeEntry(es[i]);
    }
  }

  /** What the watch decodes from the phone's settings payload: every
      payload entry under its key, and no reverse action. */
  lemma DecodedPayload(phone: ControlPreferences.Settings, now: int)
    requires phone.primaryAction in ControlPreferences.AllActions()
    ensures var es := PhoneMediaExecutor.SettingsPayload(phone, now);
      var m := SyncProtocol.DecodeMap(SyncProtocol.EncodeMap(es));
      && (forall i :: 0 <= i < |es| ==> es[i].0 in m && m[es[i].0] == es[i].1)
      && SyncProtocol.KeyReverseAction !in m
  {
    var es := PhoneMediaExecutor.SettingsPayload(phone, now);
    var m := SyncProtocol.DecodeMap(SyncProtocol.EncodeMap(es));
    PayloadIsClean(phone, now);
    forall i | 0 <= i < |es| ensures es[i].0 in m && m[es[i].0] == es[i].1 {
      SyncProtocol.RoundTripLookup(es, i);
    }
    SyncProtocol.RoundTrip(es);
    SyncProtocol.ToMapKeys(es);
  }

  /** The watch's settings after it merges the phone's payload. */
  function WatchAfterSync(phone: ControlPreferences.Settings, watch: ActionPreferences.Store, now: int): ActionPreferences.Settings {
    var wire := SyncProtocol.EncodeMap(PhoneMediaExecutor.SettingsPayload(phone, now));
    ActionPreferences.Read(ActionPreferences.ApplyPhoneSyncedSettings(watch, SyncProtocol.DecodeMap(wire)))
  }

  /** The watch's merge of a map that holds the phone's settings as text,
      and no reverse action. */
  lemma MergeOfPhoneSettings(watch: ActionPreferences.Store, m: map<string, string>, phone: ControlPreferences.Settings, now: int)
    requires phone.primaryAction in SyncProtocol.ProtocolActions()
    requires ControlPreferences.MinRetryDelayMs <= phone.offscreenRetryDelayMs <= ControlPreferences.MaxRetryDelayMs
    requires LongMin <= now <= LongMax
    requires SyncProtocol.KeyPrimaryAction in m && m[SyncProtocol.KeyPrimaryAction] == phone.primaryAction
    requires SyncProtocol.KeyReverseAction !in m
    requires SyncProtocol.KeyControlEnabled in m && m[SyncProtocol.KeyControlEnabled] == BoolToString(phone.controlEnabled)
    requires SyncProtocol.KeyPreferExplicitPlayPause in m && m[SyncProtocol.KeyPreferExplicitPlayPause] == BoolToString(phone.preferExplicitPlayPause)
    requires SyncProtocol.KeyAllowProxyScreenOff in m && m[SyncProtocol.KeyAllowProxyScreenOff] == BoolToString(phone.allowProxyScreenOff)
    requires SyncProtocol.KeyEnableOffscreenRetry in m && m[SyncProtocol.KeyEnableOffscreenRetry] == BoolToString(phone.offscreenRetryEnabled)
    requires SyncProtocol.KeyOffscreenRetryDelayMs in m && m[SyncProtocol.KeyOffscreenRetryDelayMs] == IntToString(phone.offscreenRetryDelayMs)
    requires SyncProtocol.KeyHapticsEnabled in m && m[SyncProtocol.KeyHapticsEnabled] == BoolToString(phone.hapticsEnabled)
    requires SyncProtocol.KeyRouteMediaToPhone in m && m[SyncProtocol.KeyRouteMediaToPhone] == "true"
    requires SyncProtocol.KeySyncTs in m && m[SyncProtocol.KeySyncTs] == IntToString(now)
    ensures ActionPreferences.Read(ActionPreferences.ApplyPhoneSyncedSettings(watch, m)) == ActionPreferences.Read(watch).(
              action := phone.primaryAction,
              serviceEnabled := phone.controlEnabled,
              preferExplicitPlayPause := phone.preferExplicitPlayPause,
              allowProxyScreenOff := phone.allowProxyScreenOff,
              offscreenRetryEnabled := phone.offscreenRetryEnabled,
              offscreenRetryDelayMs := phone.offscreenRetryDelayMs,
              hapticsEnabled := phone.hapticsEnabled,
              routeMediaToPhone := true,
              lastPhoneSyncTs := now)
  {
    IntToStringRoundTrip(phone.offscreenRetryDelayMs, IntMin, IntMax);
    IntToStringRoundTrip(now, LongMin, LongMax);
  }

  /** End to end: after a settings sync the watch holds the phone's primary
      action, switches and delay, routes media to the phone and records the
      sync time; its reverse action is untouched, since the payload does not
      carry one. */
  lemma PhoneSettingsReachWatch(phone: ControlPreferences.Settings, watch: ActionPreferences.Store, now: int)
    requires phone.primaryAction in ControlPreferences.AllActions()
    requires ControlPreferences.MinRetryDelayMs <= phone.offscreenRetryDelayMs <= ControlPreferences.MaxRetryDelayMs
    requires LongMin <= now <= LongMax
    ensures WatchAfterSync(phone, watch, now) == ActionPreferences.Read(watch).(
              action := phone.primaryAction,
              serviceEnabled := phone.controlEnabled,
              preferExplicitPlayPause := phone.preferExplicitPlayPause,
              allowProxyScreenOff := phone.allowProxyScreenOff,
              offscreenRetryEnabled := phone.offscreenRetryEnabled,
              offscreenRetryDelayMs := phone.offscreenRetryDelayMs,
              hapticsEnabled := phone.hapticsEnabled,
              routeMediaToPhone := true,
              lastPhoneSyncTs := now)
  {
    var m := SyncProtocol.DecodeMap(SyncProtocol.EncodeMap(PhoneMediaExecutor.SettingsPayload(phone, now)));
    DecodedSettings(phone, now);
    PhoneActionsAreProtocolActions();
    MergeOfPhoneSettings(watch, m, phone, now);
  }

  /** The decoded payload, key by key. */
  lemma DecodedSettings(phone: ControlPreferences.Settings, now: int)
    requires phone.primaryAction in ControlPreferences.AllActions()
    ensures var m := SyncProtocol.DecodeMap(SyncProtocol.EncodeMap(PhoneMediaExecutor.SettingsPayload(phone, now)));
      && SyncProtocol.KeyPrimaryAction in m && m[SyncProtocol.KeyPrimaryAction] == phone.primaryAction
      && SyncProtocol.KeyReverseAction !in m
      && SyncProtocol.KeyControlEnabled in m && m[SyncProtocol.KeyControlEnabled] == BoolToString(phone.controlEnabled)
      && SyncProtocol.KeyPreferExplicitPlayPause in m && m[SyncProtocol.KeyPreferExplicitPlayPause] == BoolToString(phone.preferExplicitPlayPause)
      && SyncProtocol.KeyAllowProxyScreenOff in m && m[SyncProtocol.KeyAllowProxyScreenOff] == BoolToString(phone.allowProxyScreenOff)
      && SyncProtocol.KeyEnableOffscreenRetry in m && m[SyncProtocol.KeyEnableOffscreenRetry] == BoolToString(phone.offscreenRetryEnabled)
      && SyncProtocol.KeyOffscreenRetryDelayMs in m && m[SyncProtocol.KeyOffscreenRetryDelayMs] == IntToString(phone.offscreenRetryDelayMs)
      && SyncProtocol.KeyHapticsEnabled in m && m[SyncProtocol.KeyHapticsEnabled] == BoolToString(phone.hapticsEnabled)
      && SyncProtocol.KeyRouteMediaToPhone in m && m[SyncProtocol.KeyRouteMediaToPhone] == "true"
      && SyncProtocol.KeySyncTs in m && m[SyncProtocol.KeySyncTs] == IntToString(now)
  {
    var es := PhoneMediaExecutor.SettingsPayload(phone, now);
    var m := SyncProtocol.DecodeMap(SyncProtocol.EncodeMap(es));
    DecodedPayload(phone, now);
    assert es[0].0 in m && es[1].0 in m && es[2].0 in m && es[3].0 in m && es[4].0 in m;
    assert es[5].0 in m && es[6].0 in m && es[7].0 in m && es[8].0 in m;
  }

  // ---------------------------------------------------------------------
  // Media commands: watch to phone
  // ---------------------------------------------------------------------

  /** The payload `WatchToPhoneBridge.sendMediaCommand` writes for an action
      at wall-clock time `ts`. */
  function MediaCommandPayload(action: string, ts: int): (r: seq<SyncProtocol.Entry>)
    ensures |r| == 2 && r[0].0 == SyncProtocol.KeyAction && r[1].0 == SyncProtocol.KeyTs
  {
    [(SyncProtocol.KeyAction, action), (SyncProtocol.KeyTs, IntToString(ts))]
  }

  /** The phone reads a watch command back as the action and timestamp the
      watch wrote. */
  lemma MediaCommandRoundTrip(action: string, ts: int)
    requires SyncProtocol.CleanEntry((SyncProtocol.KeyAction, action))
    requires LongMin <= ts <= LongMax
    ensures PhoneSyncListener.ParseMediaCommand(SyncProtocol.EncodeMap(MediaCommandPayload(action, ts))) == (action, ts)
  {
    var es := MediaCommandPayload(action, ts);
    IntToStringClean(ts);
    NoLineBreaksByMembership(SyncProtocol.KeyAction);
    NoLineBreaksByMembership(SyncProtocol.KeyTs);
    assert SyncProtocol.CleanEntry(es[1]);
    SyncProtocol.RoundTripLookup(es, 0);
    SyncProtocol.RoundTripLookup(es, 1);
    IntToStringRoundTrip(ts, LongMin, LongMax);
  }

  /** The data-item path agrees with the message path: a changed
      media-command item does what the message carrying the same action
      and timestamp does at the same clock reading. */
  lemma DataItemActsAsMessage(l: PhoneSyncListener.Listener, store: ControlPreferences.Store,
                              e: PhoneSyncListener.DataEvent, env: PhoneMediaExecutor.Environment)
    requires PhoneSyncListener.Relevant(e)
    requires SyncProtocol.CleanEntry((SyncProtocol.KeyAction, e.action.value))
    requires LongMin <= e.ts <= LongMax
    ensures var wire := SyncProtocol.EncodeMap(MediaCommandPayload(e.action.value, e.ts));
      var m := PhoneSyncListener.OnMessageReceived(l, store, PhoneSyncListener.Message(SyncProtocol.PathMediaCommand, wire),
                                                   e.elapsedMs, env);
      PhoneSyncListener.OnDataChanged(l, store, [e], env) == (m.listener, m.effects)
  {
    var action := e.action.value;
    var wire := SyncProtocol.EncodeMap(MediaCommandPayload(action, e.ts));
    MediaCommandRoundTrip(action, e.ts);
    var v := PhoneSyncListener.ShouldHandle(l, action, e.ts, e.elapsedMs);
    var effects := if v.handle then PhoneMediaExecutor.ExecuteAction(ControlPreferences.Read(store), action, env) else [];
    assert [e][1..] == [];
    assert PhoneSyncListener.OnDataChanged(v.listener, store, [], env) == (v.listener, []);
    assert PhoneSyncListener.OnDataChanged(l, store, [e], env) == (v.listener, effects + []);
    var m := PhoneSyncListener.OnMessageReceived(l, store, PhoneSyncListener.Message(SyncProtocol.PathMediaCommand, wire),
                                                 e.elapsedMs, env);
    assert m.listener == v.listener && m.effects == effects;
    assert effects + [] == effects;
  }

  /** A command delivered both as a message and as its data-item fallback
      is carried out once: the data item is dropped as a duplicate. */
  lemma MessageThenDataItemRunsOnce(l: PhoneSyncListener.Listener, store: ControlPreferences.Store, action: string,
                                    ts: int, sentAt: int, arrived: int, env: PhoneMediaExecutor.Environment)
    requires SyncProtocol.CleanEntry((SyncProtocol.KeyAction, action))
    requires 0 < ts <= LongMax
    requires PhoneSyncListener.ShouldHandle(l, action, ts, sentAt).handle
    ensures var wire := SyncProtocol.EncodeMap(MediaCommandPayload(action, ts));
      var first := PhoneSyncListener.OnMessageReceived(l, store, PhoneSyncListener.Message(SyncProtocol.PathMediaCommand, wire), sentAt, env);
      first.effects == PhoneMediaExecutor.ExecuteAction(ControlPreferences.Read(store), action, env) &&
      PhoneSyncListener.OnDataChanged(first.listener, store,
        [PhoneSyncListener.DataEvent(true, SyncProtocol.PathMediaCommand, Some(action), ts, arrived)], env).1 == []
  {
    MediaCommandRoundTrip(action, ts);
    var first := PhoneSyncListener.ShouldHandle(l, action, ts, sentAt);
    var events := [PhoneSyncListener.DataEvent(true, SyncProtocol.PathMediaCommand, Some(action), ts, arrived)];
    assert events[1..] == [];
    assert !PhoneSyncListener.ShouldHandle(first.listener, action, ts, arrived).handle;
  }

  // ---------------------------------------------------------------------
  // Play/pause retry
  // ---------------------------------------------------------------------

  /** The watch's and the phone's off-screen retry rules agree on every key
      the play/pause fallback can send: none is retried for the generic
      key, an explicit key is retried exactly when retry is on and the
      screen is off. */
  lemma RetryRulesAgree(interactive: bool, preferred: Option<int>, retryEnabled: bool)
    requires preferred in {None, Some(KeyPlay), Some(KeyPause)}
    ensures GestureService.WatchShouldRetry(interactive, preferred, retryEnabled)
            == PhoneMediaExecutor.ShouldRetryOffScreen(retryEnabled, preferred.GetOr(KeyPlayPause), interactive)
  {
  }
}

=== FILE: gesture_service.dfy ===
/** The decisions of the watch's accessibility service
    (`OnePlusGestureService`): the sensor-registration flags and how they
    follow the pause switch and the worn state, the routing of sensor
    samples to the classifier and the wear detector, the choice of action
    for a completed gesture, and the plan of effects that action becomes.

    Platform answers the service asks for — whether the phone took a
    message, whether the screen is on, whether notification access is
    granted, the active media controllers, whether each accepts a media
    button and whether its transport call goes through — are parameters gathered in `Environment`. */
module GestureService {
  import opened Common
  import TwistClassifier
  import WearDetector
  import ActionPreferences
  import ControlPreferences
  import SyncProtocol
  import opened MediaSessions

  // ---------------------------------------------------------------------
  // Action identifiers
  // ---------------------------------------------------------------------

  /** `toRemoteAction`: the command sent to the phone for a watch action,
      or none for the watch-only navigation actions and unknown ids. */
  function ToRemoteAction(actionId: string): Option<string> {
    if actionId == ActionPreferences.ActionPlayPause then Some(SyncProtocol.ActionPlayPause)
    else if actionId == ActionPreferences.ActionPlay then Some(SyncProtocol.ActionPlay)
    else if actionId == ActionPreferences.ActionPause then Some(SyncProtocol.ActionPause)
    else if actionId == ActionPreferences.ActionStop then Some(SyncProtocol.ActionStop)
    else if actionId == ActionPreferences.ActionNextTrack then Some(SyncProtocol.ActionNext)
    else if actionId == ActionPreferences.ActionPrevTrack then Some(SyncProtocol.ActionPrevious)
    else if actionId == ActionPreferences.ActionFastForward then Some(SyncProtocol.ActionFastForward)
    else if actionId == ActionPreferences.ActionRewind then Some(SyncProtocol.ActionRewind)
    else if actionId == ActionPreferences.ActionVolumeUp then Some(SyncProtocol.ActionVolumeUp)
    else if actionId == ActionPreferences.ActionVolumeDown then Some(SyncProtocol.ActionVolumeDown)
    else if actionId == ActionPreferences.ActionMute then Some(SyncProtocol.ActionMute)
    else if actionId == ActionPreferences.ActionOpenCamera then Some(SyncProtocol.ActionOpenCamera)
    else if actionId == ActionPreferences.ActionLaunchAssistant then Some(SyncProtocol.ActionLaunchAssistant)
    else if actionId == ActionPreferences.ActionFindPhone then Some(SyncProtocol.ActionFindPhone)
    else None
  }

  /** A watch action has a phone command exactly when it is one of the
      protocol's actions, and that command carries the same identifier. */
  lemma RemoteActionIsIdentity(actionId: string)
    ensures ToRemoteAction(actionId).Some? <==> actionId in SyncProtocol.ProtocolActions()
    ensures ToRemoteAction(actionId).Some? ==> ToRemoteAction(actionId).value == actionId
  {
    var all := SyncProtocol.ProtocolActions();
    if ToRemoteAction(actionId).None? {
      assert forall i :: 0 <= i < |all| ==> actionId != all[i];
    }
  }

  /** Of the watch's eighteen actions, exactly back, home, recents and
      notifications stay on the watch; every command sent is one the
      phone lists, and the phone's sync maps it back to itself. */
  lemma RemoteActionsOfWatchActions(actionId: string)
    requires actionId in ActionPreferences.AllActions()
    ensures ToRemoteAction(actionId).None? <==>
              actionId in {ActionPreferences.ActionBack, ActionPreferences.ActionHome,
                           ActionPreferences.ActionRecents, ActionPreferences.ActionNotifications}
    ensures ToRemoteAction(actionId).Some? ==>
              && ToRemoteAction(actionId).value in ControlPreferences.AllActions()
              && ActionPreferences.MapProtocolAction(ToRemoteAction(actionId).value) == actionId
  {
    RemoteActionIsIdentity(actionId);
    ActionPreferences.WatchOnlyActions(actionId);
    if ToRemoteAction(actionId).Some? {
      var all := ControlPreferences.AllActions();
      var proto := SyncProtocol.ProtocolActions();
      var i :| 0 <= i < |proto| && proto[i] == actionId;
      assert proto[i] == all[i];
    }
  }

  /** `performGestureAction`'s choice: a gesture starting in the positive
      direction runs the reverse action, any other the selected one. */
  function ActionForDirection(settings: ActionPreferences.Settings, startDirection: int): string {
    if startDirection >= 0 then settings.reverseAction else settings.action
  }

  /** Composed with the classifier's direction: a gesture whose first twist
      turned with non-negative X rate runs the reverse action, one whose
      first twist turned the other way runs the selected action. */
  lemma DirectionSelectsAction(settings: ActionPreferences.Settings, x: real)
    ensures x >= 0.0 ==> ActionForDirection(settings, TwistClassifier.Direction(x)) == settings.reverseAction
    ensures x < 0.0 ==> ActionForDirection(settings, TwistClassifier.Direction(x)) == settings.action
  {
  }

  /** The key code of each media action. */
  function MediaKeyFor(actionId: string): Option<int> {
    if actionId == ActionPreferences.ActionPlayPause then Some(KeyPlayPause)
    else if actionId == ActionPreferences.ActionPlay then Some(KeyPlay)
    else if actionId == ActionPreferences.ActionPause then Some(KeyPause)
    else if actionId == ActionPreferences.ActionStop then Some(KeyStop)
    else if actionId == ActionPreferences.ActionNextTrack then Some(KeyNext)
    else if actionId == ActionPreferences.ActionPrevTrack then Some(KeyPrevious)
    else if actionId == ActionPreferences.ActionFastForward then Some(KeyFastForward)
    else if actionId == ActionPreferences.ActionRewind then Some(KeyRewind)
    else None
  }

  // ---------------------------------------------------------------------
  // The effects of a gesture
  // ---------------------------------------------------------------------

  /** What the platform answers while a gesture is carried out. */
  datatype Environment = Environment(
    phoneTakesCommands: bool,
    interactive: bool,
    accessEnabled: bool,
    controllers: seq<Controller>,
    accepts: Answers)

  /** The deliveries of a dispatch, as effects. */
  function Delivered(ds: seq<Delivery>): (r: seq<Effect>)
    ensures |r| == |ds| && forall i :: 0 <= i < |ds| ==> r[i] == Deliver(ds[i])
    ensures SessionOrKey(r)
  {
    seq(|ds|, i requires 0 <= i < |ds| => Deliver(ds[i]))
  }

  /** The watch's off-screen retry rule in `sendPlayPauseFallbackCombo`. */
  predicate WatchShouldRetry(interactive: bool, preferredKey: Option<int>, retryEnabled: bool) {
    !interactive && preferredKey.Some? && retryEnabled
  }

  /** `sendPlayPauseFallbackCombo`: the explicit key when one is preferred
      and known, play/pause otherwise, and the same key again after the
      retry delay when the rule asks for it. */
  function PlayPauseFallback(settings: ActionPreferences.Settings, env: Environment): (r: seq<Effect>)
    ensures 1 <= |r| <= 2 && r[0].MediaKey?
    ensures !settings.preferExplicitPlayPause ==> r == [MediaKey(KeyPlayPause)]
    ensures r[0].keyCode in {KeyPlayPause, KeyPlay, KeyPause}
    ensures |r| == 2 <==> !env.interactive && settings.offscreenRetryEnabled && r[0].keyCode != KeyPlayPause
    ensures |r| == 2 ==> r[1] == RetryKey(r[0].keyCode, settings.offscreenRetryDelayMs)
  {
    var preferred := if settings.preferExplicitPlayPause then WatchPreferredPlayPauseKey(env.accessEnabled, env.controllers) else None;
    var key := preferred.GetOr(KeyPlayPause);
    [MediaKey(key)]
    + (if WatchShouldRetry(env.interactive, preferred, settings.offscreenRetryEnabled)
       then [RetryKey(key, settings.offscreenRetryDelayMs)] else [])
  }

  /** `performMediaAction`: to the phone when routing is on, the action has
      a phone command and the phone takes it; otherwise to the device's own
      sessions. */
  function PerformMediaAction(settings: ActionPreferences.Settings, actionId: string, keyCode: int, env: Environment): (r: seq<Effect>)
    ensures |r| >= 1
    // the phone is asked exactly when routing is on, it takes commands and the action is a protocol action
    ensures r[0].SendToPhone? <==>
              settings.routeMediaToPhone && env.phoneTakesCommands && actionId in SyncProtocol.ProtocolActions()
    // and then the command is the action itself, and nothing else happens
    ensures r[0].SendToPhone? ==> r == [SendToPhone(actionId)]
    // otherwise the device's own sessions are used and the phone is never involved
    ensures !r[0].SendToPhone? ==> SessionOrKey(r) && (r[0].Deliver? || r[0].MediaKey?) && r == LocalMediaAction(settings, keyCode, env)
    ensures forall i :: 0 <= i < |r| ==> !r[i].Vibrate?
  {
    RemoteActionIsIdentity(actionId);
    var remote := ToRemoteAction(actionId);
    if settings.routeMediaToPhone && remote.Some? && env.phoneTakesCommands then [SendToPhone(remote.value)]
    else LocalMediaAction(settings, keyCode, env)
  }

  /** The local half of `performMediaAction`: the active sessions (with
      proxy success allowed when the screen is on or the permission is
      set); failing that, the play/pause fallback or the bare key. */
  function LocalMediaAction(settings: ActionPreferences.Settings, keyCode: int, env: Environment): (r: seq<Effect>)
    ensures |r| >= 1 && (r[0].Deliver? || r[0].MediaKey?)
    ensures SessionOrKey(r)
  {
    var d := WatchDispatch(env.accessEnabled, env.controllers, keyCode, env.interactive,
                           env.interactive || settings.allowProxyScreenOff, env.accepts);
    if d.success then Delivered(d.sent)
    else
      var tail := KeyFallback(settings, keyCode, env);
      SessionOrKeyConcat(Delivered(d.sent), tail);
      Delivered(d.sent) + tail
  }

  /** No effect of the list talks to the phone. */
  predicate StaysLocal(es: seq<Effect>) {
    forall i :: 0 <= i < |es| ==> !es[i].SendToPhone?
  }

  /** Every effect reaches a media session or sends a key, possibly again
      after a delay. */
  predicate SessionOrKey(es: seq<Effect>) {
    forall i :: 0 <= i < |es| ==> es[i].Deliver? || es[i].MediaKey? || es[i].RetryKey?
  }

  lemma SessionOrKeyConcat(a: seq<Effect>, b: seq<Effect>)
    requires SessionOrKey(a) && SessionOrKey(b)
    ensures SessionOrKey(a + b) && StaysLocal(a + b)
  {
  }

  /** The key sent when no session counted as reached. */
  function KeyFallback(settings: ActionPreferences.Settings, keyCode: int, env: Environment): (r: seq<Effect>)
    ensures 1 <= |r| <= 2 && r[0].MediaKey? && (|r| == 2 ==> r[1].RetryKey?)
    ensures SessionOrKey(r)
    ensures keyCode != KeyPlayPause ==> r == [MediaKey(keyCode)]
  {
    if keyCode == KeyPlayPause then PlayPauseFallback(settings, env) else [MediaKey(keyCode)]
  }

  /** A non-proxy session that takes the key is the only effect; with no
      session to reach, the key goes out directly. */
  lemma LocalMediaActionCases(settings: ActionPreferences.Settings, keyCode: int, env: Environment)
    ensures env.accessEnabled && DirectTaker(env.controllers, keyCode, env.accepts) ==>
              var r := LocalMediaAction(settings, keyCode, env);
              |r| == 1 && r[0].Deliver? && !IsLikelyProxyPackage(r[0].delivery.controller.packageName)
    ensures !env.accessEnabled || |env.controllers| == 0 ==>
              LocalMediaAction(settings, keyCode, env) == KeyFallback(settings, keyCode, env)
  {
    var d := WatchDispatch(env.accessEnabled, env.controllers, keyCode, env.interactive,
                           env.interactive || settings.allowProxyScreenOff, env.accepts);
    if env.accessEnabled && DirectTaker(env.controllers, keyCode, env.accepts) {
      assert HasDirect(env.controllers);
      assert d.success;
    }
    if !env.accessEnabled || |env.controllers| == 0 {
      assert d == Dispatch([], false);
      assert Delivered([]) == [];
    }
  }

  /** A volume or mute action: the phone command when routing is on and
      the phone takes it, the local adjustment otherwise. */
  function RemoteOrLocal(settings: ActionPreferences.Settings, actionId: string, env: Environment, local: Effect): (r: seq<Effect>)
    ensures r == [local] || r == [SendToPhone(actionId)]
    ensures settings.routeMediaToPhone && env.phoneTakesCommands && actionId in SyncProtocol.ProtocolActions() ==>
              r == [SendToPhone(actionId)]
    ensures !settings.routeMediaToPhone || !env.phoneTakesCommands || actionId !in SyncProtocol.ProtocolActions() ==>
              r == [local]
  {
    RemoteActionIsIdentity(actionId);
    var remote := ToRemoteAction(actionId);
    if settings.routeMediaToPhone && remote.Some? && env.phoneTakesCommands then [SendToPhone(remote.value)]
    else [local]
  }

  /** The effects of one action identifier, the `when` of
      `performGestureAction`: an identifier the watch does not list acts
      as play/pause; the phone is reached with at most one command, the
      action's own; and an action does nothing only when it is a
      phone-only action and the phone takes no commands. */
  function ActionEffects(settings: ActionPreferences.Settings, action: string, env: Environment): (r: seq<Effect>)
    ensures forall i :: 0 <= i < |r| ==> !r[i].Vibrate?
    ensures !StaysLocal(r) ==>
              env.phoneTakesCommands &&
              r == [SendToPhone(if action in ActionPreferences.AllActions() then action else ActionPreferences.ActionPlayPause)]
    ensures r == [] ==>
              !env.phoneTakesCommands &&
              action in {ActionPreferences.ActionOpenCamera, ActionPreferences.ActionLaunchAssistant, ActionPreferences.ActionFindPhone}
  {
    match MediaKeyFor(action)
    case Some(key) => PerformMediaAction(settings, action, key, env)
    case None =>
      if action in {ActionPreferences.ActionBack, ActionPreferences.ActionHome,
                    ActionPreferences.ActionRecents, ActionPreferences.ActionNotifications} then [GlobalAction(action)]
      else if action == ActionPreferences.ActionVolumeUp then RemoteOrLocal(settings, action, env, AdjustVolume(true))
      else if action == ActionPreferences.ActionVolumeDown then RemoteOrLocal(settings, action, env, AdjustVolume(false))
      else if action == ActionPreferences.ActionMute then RemoteOrLocal(settings, action, env, ToggleMute)
      else if action in {ActionPreferences.ActionOpenCamera, ActionPreferences.ActionLaunchAssistant,
                         ActionPreferences.ActionFindPhone} then
        if env.phoneTakesCommands then [SendToPhone(action)] else []
      else
        assert action !in ActionPreferences.AllActions() by {
          ListedActions(action);
        }
        PerformMediaAction(settings, ActionPreferences.ActionPlayPause, KeyPlayPause, env)
  }

  /** The watch lists exactly the eight media actions and the ten others. */
  lemma ListedActions(action: string)
    ensures action in ActionPreferences.AllActions() <==>
              MediaKeyFor(action).Some? ||
              action in {ActionPreferences.ActionBack, ActionPreferences.ActionHome,
                         ActionPreferences.ActionRecents, ActionPreferences.ActionNotifications,
                         ActionPreferences.ActionVolumeUp, ActionPreferences.ActionVolumeDown, ActionPreferences.ActionMute,
                         ActionPreferences.ActionOpenCamera, ActionPreferences.ActionLaunchAssistant,
                         ActionPreferences.ActionFindPhone}
  {
  }

  /** `performGestureAction`: nothing while paused; otherwise the double
      buzz (when haptics are on) and the chosen action's effects. */
  function PerformGestureAction(settings: ActionPreferences.Settings, startDirection: int, env: Environment): (r: seq<Effect>)
    ensures !settings.serviceEnabled ==> r == []
    // the double buzz comes first, exactly when the gesture is live and haptics are on
    ensures Vibrate in r <==> settings.serviceEnabled && settings.hapticsEnabled
    ensures settings.serviceEnabled && settings.hapticsEnabled ==> r[0] == Vibrate
    // the phone gets at most one command, the chosen action's (play/pause for an unknown one)
    ensures !StaysLocal(r) ==>
              var action := ActionForDirection(settings, startDirection);
              env.phoneTakesCommands &&
              r == (if settings.hapticsEnabled then [Vibrate] else [])
                   + [SendToPhone(if action in ActionPreferences.AllActions() then action else ActionPreferences.ActionPlayPause)]
    ensures settings.serviceEnabled && !env.phoneTakesCommands ==> StaysLocal(r)
  {
    if !settings.serviceEnabled then []
    else (if settings.hapticsEnabled then [Vibrate] else []) + ActionEffects(settings, ActionForDirection(settings, startDirection), env)
  }

  /** What each kind of action does, once the gesture is not paused:
      navigation actions are global actions, phone-only actions reach the
      phone or do nothing, and an unknown identifier acts as play/pause. */
  lemma ActionEffectsByKind(settings: ActionPreferences.Settings, action: string, env: Environment)
    ensures action in {ActionPreferences.ActionBack, ActionPreferences.ActionHome,
                       ActionPreferences.ActionRecents, ActionPreferences.ActionNotifications} ==>
              ActionEffects(settings, action, env) == [GlobalAction(action)]
    ensures action in {ActionPreferences.ActionOpenCamera, ActionPreferences.ActionLaunchAssistant,
                       ActionPreferences.ActionFindPhone} ==>
              ActionEffects(settings, action, env) == (if env.phoneTakesCommands then [SendToPhone(action)] else [])
    ensures action !in ActionPreferences.AllActions() ==>
              ActionEffects(settings, action, env) == ActionEffects(settings, ActionPreferences.ActionPlayPause, env)
    ensures action in ActionPreferences.AllActions() && MediaKeyFor(action).Some? ==>
              ActionEffects(settings, action, env) == PerformMediaAction(settings, action, MediaKeyFor(action).value, env)
  {
    if action !in ActionPreferences.AllActions() {
      var all := ActionPreferences.AllActions();
      assert forall i :: 0 <= i < |all| ==> action != all[i];
      assert MediaKeyFor(action).None?;
    }
  }

  /** With the screen off, only proxy sessions and the proxy permission
      off, a media action reaches the proxy by transport and is then sent
      again as a key: the proxy's transport call does not count. */
  lemma ProxyTransportThenKey(settings: ActionPreferences.Settings, env: Environment, proxy: Controller)
    requires !settings.routeMediaToPhone && !settings.allowProxyScreenOff
    requires !env.interactive && env.accessEnabled && env.controllers == [proxy]
    requires IsLikelyProxyPackage(proxy.packageName) && env.accepts.transport(proxy)
    ensures PerformMediaAction(settings, ActionPreferences.ActionNextTrack, KeyNext, env)
            == [Deliver(TransportCall(proxy, SkipToNext)), MediaKey(KeyNext)]
  {
    var prioritized := ChooseControllersForAction([proxy], KeyNext);
    assert multiset(prioritized) == multiset([proxy]);
    assert |prioritized| == 1;
    assert prioritized[0] in multiset(prioritized);
    assert prioritized == [proxy];
    assert [proxy][1..] == [];
    assert NonProxies([proxy]) == [];
    assert Proxies([proxy]) == [proxy];
  }

  // ---------------------------------------------------------------------
  // Sensor registration
  // ---------------------------------------------------------------------

  /** The service's own state: whether its sensor listeners are
      registered, whether the watch is worn, the classifier and the wear
      detector (whose listener is the service). */
  datatype Service = Service(
    registered: bool,
    worn: bool,
    classifier: TwistClassifier.Classifier,
    detector: WearDetector.Detector)

  /** `onCreate` at time `now`: a fresh classifier, a detector listening to
      the service, nothing registered, assumed worn. */
  function Create(now: int): (s: Service)
    ensures !s.registered && s.worn && s.classifier == TwistClassifier.Fresh()
    ensures s.detector.isWorn && s.detector.hasListener && s.detector.lastMotionTime == now
  {
    Service(false, true, TwistClassifier.Fresh(), WearDetector.SetListener(WearDetector.Create(now)))
  }

  /** `registerSensorListener`: a no-op when already registered. */
  function Register(s: Service): (r: Service)
    ensures r.registered
    ensures s.registered ==> r == s
    ensures r.worn == s.worn && r.classifier == s.classifier && r.detector == s.detector
  {
    if s.registered then s else s.(registered := true)
  }

  /** `unregisterSensorListener`: a no-op when not registered; a real
      unregister clears the flag and resets the classifier. */
  function Unregister(s: Service): (r: Service)
    ensures !r.registered
    ensures !s.registered ==> r == s
    ensures s.registered ==> r.classifier == TwistClassifier.Reset(s.classifier)
    ensures r.worn == s.worn && r.detector == s.detector
  {
    if !s.registered then s else s.(registered := false, classifier := TwistClassifier.Reset(s.classifier))
  }

  /** `releaseResources`: unregisters and resets the classifier, whether
      or not anything was registered. */
  function ReleaseResources(s: Service): (r: Service)
    ensures !r.registered
    ensures r.classifier == TwistClassifier.Reset(s.classifier)
    ensures r.worn == s.worn && r.detector == s.detector
  {
    var u := Unregister(s);
    ResetTwice(s.classifier);
    u.(classifier := TwistClassifier.Reset(u.classifier))
  }

  /** Resetting twice is resetting once. */
  lemma ResetTwice(c: TwistClassifier.Classifier)
    ensures TwistClassifier.Reset(TwistClassifier.Reset(c)) == TwistClassifier.Reset(c)
  {
  }

  /** `updatePauseState`: registered when enabled, released when paused. */
  function UpdatePauseState(s: Service, enabled: bool): (r: Service)
    ensures r.registered == enabled
    ensures enabled ==> r.classifier == s.classifier
    ensures !enabled ==> r.classifier == TwistClassifier.Reset(s.classifier)
    ensures r.worn == s.worn && r.detector == s.detector
  {
    if enabled then Register(s) else ReleaseResources(s)
  }

  /** `onWearStateChanged`: off the wrist releases everything; back on the
      wrist registers again when the service is enabled. */
  function OnWearStateChanged(s: Service, isWorn: bool, enabled: bool): (r: Service)
    ensures r.worn == isWorn
    ensures !isWorn ==> !r.registered && r.classifier == TwistClassifier.Reset(s.classifier)
    ensures isWorn ==> r.classifier == s.classifier && r.registered == (s.registered || enabled)
    ensures r.detector == s.detector
  {
    var s1 := s.(worn := isWorn);
    if !isWorn then ReleaseResources(s1)
    else if enabled then Register(s1)
    else s1
  }

  /** The screen-on broadcast registers the listeners when enabled. */
  function OnScreenOn(s: Service, enabled: bool): (r: Service)
    ensures r.registered == (s.registered || enabled)
    ensures r.worn == s.worn && r.classifier == s.classifier && r.detector == s.detector
  {
    if enabled then Register(s) else s
  }

  /** Registration is idempotent, and pausing then resuming leaves the
      listeners registered with a reset classifier. */
  lemma RegistrationCycle(s: Service)
    ensures Register(Register(s)) == Register(s)
    ensures Unregister(Unregister(s)) == Unregister(s)
    ensures var r := UpdatePauseState(UpdatePauseState(s, false), true);
      r.registered && r.classifier == TwistClassifier.Reset(s.classifier)
  {
  }

  // ---------------------------------------------------------------------
  // Sensor samples
  // ---------------------------------------------------------------------

  /** A nanosecond timestamp in milliseconds, by Kotlin's `Long` division,
      which truncates toward zero. */
  function NanosToMillis(ns: int): (ms: int)
    ensures ns >= 0 ==> 0 <= ms * 1_000_000 <= ns < ms * 1_000_000 + 1_000_000
    ensures ns < 0 ==> ms * 1_000_000 - 1_000_000 < ns <= ms * 1_000_000 <= 0
  {
    if ns >= 0 then ns / 1_000_000 else -((-ns) / 1_000_000)
  }

  /** A sensor event as the service sees it; `timestampNs` is the
      event's nanosecond timestamp. */
  datatype SensorSample =
    | Gyroscope(x: real, y: real, z: real, mag: real, timestampNs: int)
    | LinearAcceleration(ax: real, ay: real, az: real)
    | OtherSensor

  predicate WellFormed(e: Option<SensorSample>) {
    e.Some? && e.value.Gyroscope? ==> TwistClassifier.IsMagnitude(e.value.x, e.value.y, e.value.z, e.value.mag)
  }

  /** The service after a sample, and whether a gesture completed. */
  datatype SensorStep = SensorStep(service: Service, gesture: bool)

  /** `onSensorChanged` while `enabled` tells whether the service is
      switched on and `now` is the wall clock. A linear-acceleration sample
      feeds the wear detector when `needsAccelFeed`; a change it reports
      goes to `onWearStateChanged`. */
  function OnSensorChanged(s: Service, event: Option<SensorSample>, needsAccelFeed: bool, enabled: bool, now: int): (r: SensorStep)
    requires WellFormed(event)
    ensures event.None? || !s.worn ==> r == SensorStep(s, false)
    ensures r.gesture ==> event.Some? && event.value.Gyroscope? && s.worn
    ensures s.worn && event.Some? && event.value.Gyroscope? ==>
              var e := event.value;
              var step := TwistClassifier.ProcessSample(TwistClassifier.UpdateGyroscope(s.classifier, e.x, e.y, e.z, e.mag),
                                                        NanosToMillis(e.timestampNs));
              r == SensorStep(s.(classifier := step.state), step.fired)
    ensures s.worn && event.Some? && event.value.LinearAcceleration? && needsAccelFeed ==>
              var o := WearDetector.ProcessAccelerometer(s.detector, event.value.ax, event.value.ay, event.value.az, now);
              && r.service.detector == o.detector
              && (o.notified.None? ==> r.service == s.(detector := o.detector))
              && (o.notified.Some? ==> r.service == OnWearStateChanged(s.(detector := o.detector), o.notified.value, enabled))
    ensures event.Some? && (event.value.OtherSensor? || (event.value.LinearAcceleration? && !needsAccelFeed)) ==>
              r == SensorStep(s, false)
  {
    match event
    case None => SensorStep(s, false)
    case Some(e) =>
      if !s.worn then SensorStep(s, false)
      else match e
        case LinearAcceleration(ax, ay, az) =>
          if !needsAccelFeed then SensorStep(s, false)
          else FeedDetector(s, ax, ay, az, enabled, now)
        case Gyroscope(x, y, z, mag, ts) =>
          var step := TwistClassifier.ProcessSample(TwistClassifier.UpdateGyroscope(s.classifier, x, y, z, mag),
                                                    NanosToMillis(ts));
          SensorStep(s.(classifier := step.state), step.fired)
        case OtherSensor => SensorStep(s, false)
  }

  /** One accelerometer reading through the wear detector, with a reported
      change passed to `onWearStateChanged`. */
  function FeedDetector(s: Service, ax: real, ay: real, az: real, enabled: bool, now: int): (r: SensorStep)
    ensures !r.gesture
    ensures r.service.detector == WearDetector.ProcessAccelerometer(s.detector, ax, ay, az, now).detector
    ensures WearDetector.IsMotion(ax, ay, az) && !s.detector.isWorn && s.detector.hasListener && enabled ==>
              r.service.worn && r.service.registered
  {
    var o := WearDetector.ProcessAccelerometer(s.detector, ax, ay, az, now);
    var s1 := s.(detector := o.detector);
    match o.notified
    case None => SensorStep(s1, false)
    case Some(w) => SensorStep(OnWearStateChanged(s1, w, enabled), false)
  }

  /** The service and the number of gestures after a run of samples. */
  datatype Trace = Trace(service: Service, gestures: nat)

  predicate AllWellFormed(events: seq<Option<SensorSample>>) {
    forall i :: 0 <= i < |events| ==> WellFormed(events[i])
  }

  /** A run of samples through the handler as written. */
  function RunAsWritten(s: Service, events: seq<Option<SensorSample>>, needsAccelFeed: bool, enabled: bool, now: int): Trace
    requires AllWellFormed(events)
    decreases |events|
  {
    if |events| == 0 then Trace(s, 0)
    else
      var step := OnSensorChanged(s, events[0], needsAccelFeed, enabled, now);
      var rest := RunAsWritten(step.service, events[1..], needsAccelFeed, enabled, now);
      Trace(rest.service, rest.gestures + (if step.gesture then 1 else 0))
  }

  /** Off the wrist every sample is ignored: no gesture, and the service,
      its detector included, is left as it was. Without an off-body
      sensor nothing else reports the wrist, so the watch stays off it. */
  lemma {:induction false} OffWristIgnoresSamples(s: Service, events: seq<Option<SensorSample>>, needsAccelFeed: bool, enabled: bool, now: int)
    requires AllWellFormed(events)
    requires !s.worn
    ensures RunAsWritten(s, events, needsAccelFeed, enabled, now) == Trace(s, 0)
    decreases |events|
  {
    if |events| > 0 {
      OffWristIgnoresSamples(s, events[1..], needsAccelFeed, enabled, now);
    }
  }

  /** The accelerometer path as evidently intended: the reading reaches the
      wear detector whether or not the watch is currently worn, so motion
      can mark it worn again; everything else is `OnSensorChanged`. */
  function OnSensorChangedFeedingDetector(s: Service, event: Option<SensorSample>, needsAccelFeed: bool, enabled: bool, now: int): (r: SensorStep)
    requires WellFormed(event)
    ensures s.worn || !(event.Some? && event.value.LinearAcceleration?) ==> r == OnSensorChanged(s, event, needsAccelFeed, enabled, now)
    ensures r.gesture ==> event.Some? && event.value.Gyroscope? && s.worn
  {
    match event
    case Some(LinearAcceleration(ax, ay, az)) =>
      if needsAccelFeed then FeedDetector(s, ax, ay, az, enabled, now) else SensorStep(s, false)
    case _ => OnSensorChanged(s, event, needsAccelFeed, enabled, now)
  }

  /** The recovery path of an off-wrist watch: the screen-on broadcast
      registers the listeners again, and then, with the intended path, one
      moving reading brings the watch back, worn and registered; the
      handler as written leaves the service as the broadcast left it. */
  lemma MotionBringsTheWatchBack(s: Service, ax: real, ay: real, az: real, now: int)
    requires !s.worn && !s.detector.isWorn && s.detector.hasListener
    requires WearDetector.IsMotion(ax, ay, az)
    ensures OnScreenOn(s, true).registered
    ensures var on := OnScreenOn(s, true);
      var r := OnSensorChangedFeedingDetector(on, Some(LinearAcceleration(ax, ay, az)), true, true, now);
      r.service.worn && r.service.registered && r.service.detector.isWorn
    ensures var on := OnScreenOn(s, true);
      OnSensorChanged(on, Some(LinearAcceleration(ax, ay, az)), true, true, now).service == on
  {
  }

  /** A run of samples through the intended handler. */
  function Run(s: Service, events: seq<Option<SensorSample>>, needsAccelFeed: bool, enabled: bool, now: int): Trace
    requires AllWellFormed(events)
    decreases |events|
  {
    if |events| == 0 then Trace(s, 0)
    else
      var step := OnSensorChangedFeedingDetector(s, events[0], needsAccelFeed, enabled, now);
      var rest := Run(step.service, events[1..], needsAccelFeed, enabled, now);
      Trace(rest.service, rest.gestures + (if step.gesture then 1 else 0))
  }

  /** The number of gyroscope samples of a run. */
  function GyroscopeCount(events: seq<Option<SensorSample>>): nat
    decreases |events|
  {
    if |events| == 0 then 0
    else (if events[0].Some? && events[0].value.Gyroscope? then 1 else 0) + GyroscopeCount(events[1..])
  }

  /** Only gyroscope samples complete gestures: a run never reports more
      gestures than it holds gyroscope samples. */
  lemma {:induction false} GesturesNeedGyroscope(s: Service, events: seq<Option<SensorSample>>, needsAccelFeed: bool, enabled: bool, now: int)
    requires AllWellFormed(events)
    ensures Run(s, events, needsAccelFeed, enabled, now).gestures <= GyroscopeCount(events)
    decreases |events|
  {
    if |events| > 0 {
      var step := OnSensorChangedFeedingDetector(s, events[0], needsAccelFeed, enabled, now);
      GesturesNeedGyroscope(step.service, events[1..], needsAccelFeed, enabled, now);
    }
  }
}

=== FILE: media_sessions.dfy ===
/** The pure decisions taken before media controllers are driven, on the
    watch (`OnePlusGestureService`) and on the phone (`PhoneMediaExecutor`):
    which packages look like proxies, which controller supports which key,
    the order controllers are tried in, which transport call a key becomes,
    where a seek fallback lands, and which explicit key replaces
    play/pause.

    A controller is a record of what the platform reports about it; key
    codes and playback-state flags carry Android's values. */
module MediaSessions {
  import opened Common
  import opened Text
  import opened Ordering

  // Android key codes.
  const KeyPlayPause: int := 85
  const KeyStop: int := 86
  const KeyNext: int := 87
  const KeyPrevious: int := 88
  const KeyRewind: int := 89
  const KeyFastForward: int := 90
  const KeyPlay: int := 126
  const KeyPause: int := 127

  // Playback-state action flags.
  const FlagStop: bv64 := 1
  const FlagPause: bv64 := 2
  const FlagPlay: bv64 := 4
  const FlagRewind: bv64 := 8
  const FlagSkipToPrevious: bv64 := 16
  const FlagSkipToNext: bv64 := 32
  const FlagFastForward: bv64 := 64
  const FlagSeekTo: bv64 := 256
  const FlagPlayPause: bv64 := 512

  // Playback states that count as playing.
  const StatePlaying: int := 3
  const StateBuffering: int := 6
  const StateConnecting: int := 8

  /** The step of the seek fallback for fast-forward and rewind. */
  const SeekStepMs: int := 10000

  datatype PlaybackState = PlaybackState(state: int, actions: bv64, position: int)

  /** A media controller: its package, its playback state (absent when the
      session reports none) and whether it has metadata. */
  datatype Controller = Controller(packageName: string, playback: Option<PlaybackState>, hasMetadata: bool)

  /** The package prefixes of companion apps that mirror the phone's media. */
  function ProxyPrefixes(): seq<string> {
    ["com.google.wear", "com.google.android.clockwork", "com.oplus.wearable.media.sessions", "com.heytap.wearable"]
  }

  /** `isLikelyProxyPackage`, identical on both devices. */
  function IsLikelyProxyPackage(packageName: string): (r: bool)
    ensures r <==> exists i :: 0 <= i < |ProxyPrefixes()| && StartsWith(packageName, ProxyPrefixes()[i])
  {
    var prefixes := ProxyPrefixes();
    assert StartsWith(packageName, prefixes[0]) || StartsWith(packageName, prefixes[1])
        || StartsWith(packageName, prefixes[2]) || StartsWith(packageName, prefixes[3])
       ==> exists i :: 0 <= i < |prefixes| && StartsWith(packageName, prefixes[i]);
    StartsWith(packageName, "com.google.wear")
    || StartsWith(packageName, "com.google.android.clockwork")
    || StartsWith(packageName, "com.oplus.wearable.media.sessions")
    || StartsWith(packageName, "com.heytap.wearable")
  }

  /** The playback state is playing, buffering or connecting. */
  predicate IsPlaying(c: Controller) {
    c.playback.Some? && c.playback.value.state in {StatePlaying, StateBuffering, StateConnecting}
  }

  predicate HasFlag(actions: bv64, flag: bv64) {
    actions & flag != 0
  }

  /** The watch's `supportsAction`: no playback state supports nothing;
      otherwise each key asks for its own flags. */
  function WatchSupportsAction(c: Controller, keyCode: int): (r: bool)
    ensures c.playback.None? ==> !r
  {
    match c.playback
    case None => false
    case Some(ps) =>
      var actions := ps.actions;
      if keyCode == KeyPlayPause then
        HasFlag(actions, FlagPlayPause) || HasFlag(actions, FlagPlay) || HasFlag(actions, FlagPause)
      else if keyCode == KeyNext then HasFlag(actions, FlagSkipToNext)
      else if keyCode == KeyPrevious then HasFlag(actions, FlagSkipToPrevious)
      else if keyCode == KeyPlay then HasFlag(actions, FlagPlay)
      else if keyCode == KeyPause then HasFlag(actions, FlagPause)
      else if keyCode == KeyStop then HasFlag(actions, FlagStop)
      else if keyCode == KeyFastForward then HasFlag(actions, FlagFastForward) || HasFlag(actions, FlagSeekTo)
      else if keyCode == KeyRewind then HasFlag(actions, FlagRewind) || HasFlag(actions, FlagSeekTo)
      else false
  }

  /** The phone's `supportsAction`: only play/pause, next and previous. */
  function PhoneSupportsAction(c: Controller, keyCode: int): (r: bool)
    ensures c.playback.None? ==> !r
  {
    match c.playback
    case None => false
    case Some(ps) =>
      var actions := ps.actions;
      if keyCode == KeyPlayPause then
        HasFlag(actions, FlagPlayPause) || HasFlag(actions, FlagPlay) || HasFlag(actions, FlagPause)
      else if keyCode == KeyNext then HasFlag(actions, FlagSkipToNext)
      else if keyCode == KeyPrevious then HasFlag(actions, FlagSkipToPrevious)
      else false
  }

  /** The flags any one of which supports a key. */
  function AcceptedFlags(keyCode: int): bv64 {
    if keyCode == KeyPlayPause then FlagPlayPause | FlagPlay | FlagPause
    else if keyCode == KeyNext then FlagSkipToNext
    else if keyCode == KeyPrevious then FlagSkipToPrevious
    else if keyCode == KeyPlay then FlagPlay
    else if keyCode == KeyPause then FlagPause
    else if keyCode == KeyStop then FlagStop
    else if keyCode == KeyFastForward then FlagFastForward | FlagSeekTo
    else if keyCode == KeyRewind then FlagRewind | FlagSeekTo
    else 0
  }

  /** Support is one mask test: the controller has a playback state sharing
      a flag with the key's accepted flags. The phone agrees with the watch
      on play/pause, next and previous and supports nothing else. */
  lemma SupportIsMaskTest(c: Controller, keyCode: int)
    ensures WatchSupportsAction(c, keyCode) <==> c.playback.Some? && HasFlag(c.playback.value.actions, AcceptedFlags(keyCode))
    ensures keyCode in {KeyPlayPause, KeyNext, KeyPrevious} ==> PhoneSupportsAction(c, keyCode) == WatchSupportsAction(c, keyCode)
    ensures keyCode !in {KeyPlayPause, KeyNext, KeyPrevious} ==> !PhoneSupportsAction(c, keyCode)
  {
  }

  // ---------------------------------------------------------------------
  // Controller ordering
  // ---------------------------------------------------------------------

  /** The watch's score: +100 playing, +20 supports the key, +5 metadata,
      -50 proxy. */
  function WatchScore(c: Controller, keyCode: int): (s: int)
    ensures -50 <= s <= 125
    ensures IsPlaying(c) ==> s >= 50
    ensures !IsPlaying(c) ==> s <= 25
  {
    (if IsPlaying(c) then 100 else 0)
    + (if WatchSupportsAction(c, keyCode) then 20 else 0)
    + (if c.hasMetadata then 5 else 0)
    - (if IsLikelyProxyPackage(c.packageName) then 50 else 0)
  }

  /** The phone's score: the watch's without the proxy penalty. */
  function PhoneScore(c: Controller, keyCode: int): (s: int)
    ensures 0 <= s <= 125
    ensures IsPlaying(c) <==> s >= 100
  {
    (if IsPlaying(c) then 100 else 0)
    + (if PhoneSupportsAction(c, keyCode) then 20 else 0)
    + (if c.hasMetadata then 5 else 0)
  }

  /** `chooseControllersForAction`: every controller, ordered by
      non-increasing watch score, ties in their original order. */
  function ChooseControllersForAction(controllers: seq<Controller>, keyCode: int): (r: seq<Controller>)
    ensures multiset(r) == multiset(controllers)
    ensures NonIncreasing(r, (c: Controller) => WatchScore(c, keyCode))
    ensures controllers == [] ==> r == []
  {
    if |controllers| == 0 then []
    else SortByDescending(controllers, (c: Controller) => WatchScore(c, keyCode))
  }

  /** A playing controller is always tried before every idle one. */
  lemma PlayingFirst(controllers: seq<Controller>, keyCode: int, i: nat, j: nat)
    requires i < j < |ChooseControllersForAction(controllers, keyCode)|
    requires IsPlaying(ChooseControllersForAction(controllers, keyCode)[j])
    ensures IsPlaying(ChooseControllersForAction(controllers, keyCode)[i])
  {
    var r := ChooseControllersForAction(controllers, keyCode);
    assert WatchScore(r[i], keyCode) >= WatchScore(r[j], keyCode);
  }

  /** A controller that is not a proxy. */
  predicate IsDirect(c: Controller) {
    !IsLikelyProxyPackage(c.packageName)
  }

  /** The controllers that are not proxies, in order. */
  function NonProxies(cs: seq<Controller>): (r: seq<Controller>)
    ensures forall i :: 0 <= i < |r| ==> !IsLikelyProxyPackage(r[i].packageName)
    ensures multiset(r) <= multiset(cs)
    ensures (exists i :: 0 <= i < |cs| && !IsLikelyProxyPackage(cs[i].packageName)) <==> |r| > 0
    decreases |cs|
  {
    FilterNonEmpty(cs, IsDirect);
    Filter(cs, IsDirect)
  }

  /** The phone's candidate list in `dispatchToActiveSession`: without the
      proxy permission proxies are dropped, unless that leaves nothing, in
      which case every session stays; then ordered by phone score. */
  function PhoneCandidates(sessions: seq<Controller>, allowProxy: bool, keyCode: int): (r: seq<Controller>)
    ensures NonIncreasing(r, (c: Controller) => PhoneScore(c, keyCode))
    ensures allowProxy ==> multiset(r) == multiset(sessions)
    ensures !allowProxy && |NonProxies(sessions)| > 0 ==> multiset(r) == multiset(NonProxies(sessions))
    ensures !allowProxy && |NonProxies(sessions)| == 0 ==> multiset(r) == multiset(sessions)
    ensures |r| > 0 <==> |sessions| > 0
  {
    var filtered := if allowProxy then sessions else NonProxies(sessions);
    var base := if |filtered| > 0 then filtered else sessions;
    SortByDescending(base, (c: Controller) => PhoneScore(c, keyCode))
  }

  /** Whenever a non-proxy session exists and proxies are not allowed, the
      phone tries no proxy at all. */
  lemma PhoneSkipsProxies(sessions: seq<Controller>, keyCode: int, k: nat)
    requires exists i :: 0 <= i < |sessions| && !IsLikelyProxyPackage(sessions[i].packageName)
    requires k < |PhoneCandidates(sessions, false, keyCode)|
    ensures !IsLikelyProxyPackage(PhoneCandidates(sessions, false, keyCode)[k].packageName)
  {
    var r := PhoneCandidates(sessions, false, keyCode);
    var np := NonProxies(sessions);
    assert r[k] in multiset(r);
    assert r[k] in multiset(np);
    var j :| 0 <= j < |np| && np[j] == r[k];
  }

  // ---------------------------------------------------------------------
  // Transport controls and seeking
  // ---------------------------------------------------------------------

  /** The transport call a key turns into. */
  datatype Transport = Play | Pause | Stop | SkipToNext | SkipToPrevious | FastForward | Rewind | SeekTo(target: int)

  /** The target of `seekByTransportFallback`: none without a playback
      state, without the seek flag or with a negative position; otherwise
      the position moved by `delta`, not below zero. */
  function SeekTarget(playback: Option<PlaybackState>, deltaMs: int): (r: Option<int>)
    ensures r.Some? <==> playback.Some? && HasFlag(playback.value.actions, FlagSeekTo) && playback.value.position >= 0
    ensures r.Some? ==> r.value >= 0
    ensures r.Some? ==> (r.value == playback.value.position + deltaMs || (r.value == 0 && playback.value.position + deltaMs < 0))
  {
    match playback
    case None => None
    case Some(ps) =>
      if !HasFlag(ps.actions, FlagSeekTo) then None
      else if ps.position < 0 then None
      else
        var target := ps.position + deltaMs;
        Some(if target < 0 then 0 else target)
  }

  /** Seeking back by ten seconds never leaves the track and never moves
      forward; seeking forward never moves back. */
  lemma SeekDirection(ps: PlaybackState)
    requires HasFlag(ps.actions, FlagSeekTo) && ps.position >= 0
    ensures var back := SeekTarget(Some(ps), -SeekStepMs).value;
      0 <= back <= ps.position && (ps.position >= SeekStepMs ==> back == ps.position - SeekStepMs)
    ensures SeekTarget(Some(ps), SeekStepMs).value == ps.position + SeekStepMs
  {
  }

  /** The watch's `sendTransportActionToController`: the transport call for
      a key, or none when the key has no transport call (or fast-forward
      and rewind have neither their own flag nor a seek fallback). */
  function TransportFor(c: Controller, keyCode: int): (r: Option<Transport>)
    ensures keyCode == KeyPlayPause ==> r == Some(if IsPlaying(c) then Pause else Play)
    ensures keyCode !in {KeyPlayPause, KeyPlay, KeyPause, KeyStop, KeyNext, KeyPrevious, KeyFastForward, KeyRewind} ==> r.None?
  {
    var actions := if c.playback.Some? then c.playback.value.actions else 0;
    if keyCode == KeyPlayPause then Some(if IsPlaying(c) then Pause else Play)
    else if keyCode == KeyPlay then Some(Play)
    else if keyCode == KeyPause then Some(Pause)
    else if keyCode == KeyStop then Some(Stop)
    else if keyCode == KeyNext then Some(SkipToNext)
    else if keyCode == KeyPrevious then Some(SkipToPrevious)
    else if keyCode == KeyFastForward then
      if HasFlag(actions, FlagFastForward) then Some(FastForward)
      else match SeekTarget(c.playback, SeekStepMs)
        case None => None
        case Some(t) => Some(SeekTo(t))
    else if keyCode == KeyRewind then
      if HasFlag(actions, FlagRewind) then Some(Rewind)
      else match SeekTarget(c.playback, -SeekStepMs)
        case None => None
        case Some(t) => Some(SeekTo(t))
    else None
  }

  /** Fast-forward and rewind reach the transport exactly when the
      controller supports them. */
  lemma SeekingKeysNeedSupport(c: Controller, keyCode: int)
    requires keyCode == KeyFastForward || keyCode == KeyRewind
    ensures TransportFor(c, keyCode).Some? ==> WatchSupportsAction(c, keyCode)
    ensures WatchSupportsAction(c, keyCode) && (c.playback.Some? ==> c.playback.value.position >= 0) ==> TransportFor(c, keyCode).Some?
  {
  }

  // ---------------------------------------------------------------------
  // Explicit play/pause
  // ---------------------------------------------------------------------

  /** Some controller is playing. */
  predicate AnyPlaying(cs: seq<Controller>) {
    exists i :: 0 <= i < |cs| && IsPlaying(cs[i])
  }

  /** The first playing controller (`firstOrNull`), if any. */
  function FirstPlaying(cs: seq<Controller>): (r: Option<nat>)
    ensures r.Some? ==> r.value < |cs| && IsPlaying(cs[r.value])
    ensures r.Some? ==> forall j :: 0 <= j < r.value ==> !IsPlaying(cs[j])
    ensures r.None? <==> !AnyPlaying(cs)
    decreases |cs|
  {
    if |cs| == 0 then None
    else if IsPlaying(cs[0]) then Some(0)
    else
      match FirstPlaying(cs[1..])
      case None =>
        assert forall i :: 1 <= i < |cs| ==> cs[i] == cs[1..][i - 1];
        None
      case Some(k) =>
        assert forall j :: 1 <= j < k + 1 ==> cs[j] == cs[1..][j - 1];
        Some(k + 1)
  }

  /** The watch's `getPreferredPlayPauseKeyCode`: with notification access
      and some controller, pause when one is playing and play otherwise. */
  function WatchPreferredPlayPauseKey(accessEnabled: bool, controllers: seq<Controller>): (r: Option<int>)
    ensures r.Some? <==> accessEnabled && |controllers| > 0
    ensures r == Some(KeyPause) <==> accessEnabled && AnyPlaying(controllers)
    ensures r.Some? ==> r.value == KeyPause || r.value == KeyPlay
  {
    if !accessEnabled then None
    else if |controllers| == 0 then None
    else if FirstPlaying(controllers).Some? then Some(KeyPause)
    else Some(KeyPlay)
  }

  /** A session plays among the non-proxy sessions, or among all of them
      when every one is a proxy. */
  predicate PlayingWithoutProxies(sessions: seq<Controller>) {
    AnyPlaying(if |NonProxies(sessions)| > 0 then NonProxies(sessions) else sessions)
  }

  /** The phone's `inferExplicitPlayPauseKey`: the same question asked of
      the proxy-filtered list, falling back to every session. */
  function PhoneExplicitPlayPauseKey(accessEnabled: bool, sessions: seq<Controller>, allowProxy: bool): (r: Option<int>)
    ensures r.Some? <==> accessEnabled && |sessions| > 0
    ensures r.Some? ==> r.value == KeyPause || r.value == KeyPlay
    ensures allowProxy ==> r == WatchPreferredPlayPauseKey(accessEnabled, sessions)
    // without proxy control: pause exactly when a non-proxy session plays, or, with none, any session
    ensures accessEnabled && |sessions| > 0 && !allowProxy ==> (r == Some(KeyPause) <==> PlayingWithoutProxies(sessions))
  {
    if !accessEnabled then None
    else if |sessions| == 0 then None
    else
      var filtered := if allowProxy then sessions else NonProxies(sessions);
      var candidate := if |filtered| > 0 then filtered else sessions;
      if FirstPlaying(candidate).Some? then Some(KeyPause) else Some(KeyPlay)
  }

  /** Where the two devices differ: a playing proxy next to an idle
      non-proxy session makes the watch send pause and the phone, without
      the proxy permission, send play. */
  lemma ProxyPlayingDiffers()
    ensures var proxy := Controller("com.google.wearable.app", Some(PlaybackState(StatePlaying, 0, 0)), true);
      var idle := Controller("com.example.player", None, false);
      && WatchPreferredPlayPauseKey(true, [proxy, idle]) == Some(KeyPause)
      && PhoneExplicitPlayPauseKey(true, [proxy, idle], false) == Some(KeyPlay)
  {
    var proxy := Controller("com.google.wearable.app", Some(PlaybackState(StatePlaying, 0, 0)), true);
    var idle := Controller("com.example.player", None, false);
    assert IsLikelyProxyPackage(proxy.packageName) by {
      assert StartsWith(proxy.packageName, ProxyPrefixes()[0]);
    }
    assert !IsLikelyProxyPackage(idle.packageName) by {
      forall i | 0 <= i < |ProxyPrefixes()|
        ensures !StartsWith(idle.packageName, ProxyPrefixes()[i])
      {
        var p := ProxyPrefixes()[i];
        assert p[4] != 'e';
      }
    }
    assert NonProxies([proxy, idle]) == [idle] by {
      assert [proxy, idle][1..] == [idle];
      assert [idle][1..] == [];
      assert Filter([idle], IsDirect) == [idle];
    }
  }

  // ---------------------------------------------------------------------
  // Dispatch to the active sessions
  // ---------------------------------------------------------------------

  /** The phone's `sendTransportActionToController`: only play/pause, next
      and previous have a transport call there. */
  function PhoneTransportFor(c: Controller, keyCode: int): (r: Option<Transport>)
    ensures keyCode in {KeyPlayPause, KeyNext, KeyPrevious} ==> r == TransportFor(c, keyCode)
    ensures keyCode !in {KeyPlayPause, KeyNext, KeyPrevious} ==> r.None?
  {
    if keyCode == KeyPlayPause then Some(if IsPlaying(c) then Pause else Play)
    else if keyCode == KeyNext then Some(SkipToNext)
    else if keyCode == KeyPrevious then Some(SkipToPrevious)
    else None
  }

  /** The transport call of the device in question. */
  function TransportOn(onPhone: bool, c: Controller, keyCode: int): Option<Transport> {
    if onPhone then PhoneTransportFor(c, keyCode) else TransportFor(c, keyCode)
  }

  /** How a key reached a controller. */
  datatype Delivery = MediaButton(controller: Controller) | TransportCall(controller: Controller, call: Transport)

  /** The platform's answers for each controller: whether
      `dispatchMediaButtonEvent` takes the key, and whether its transport
      call goes through (`false` when the call throws, which the source
      catches and reports as not sent). */
  datatype Answers = Answers(button: Controller -> bool, transport: Controller -> bool)

  /** The controller refuses the key both ways: no media button, and no
      transport call for the key or one that fails. */
  predicate Refuses(onPhone: bool, c: Controller, keyCode: int, accepts: Answers) {
    !accepts.button(c) && !TransportGoesThrough(onPhone, c, keyCode, accepts)
  }

  /** The controller has a transport call for the key and the call goes
      through. */
  predicate TransportGoesThrough(onPhone: bool, c: Controller, keyCode: int, accepts: Answers) {
    TransportOn(onPhone, c, keyCode).Some? && accepts.transport(c)
  }

  /** The position of the first controller that takes the key either way
      (`|cs|` when none does): the loop over candidates shared by both
      devices, given the platform's `Answers`. */
  function FirstTaker(cs: seq<Controller>, keyCode: int, accepts: Answers, onPhone: bool): (k: nat)
    ensures k <= |cs|
    ensures forall j :: 0 <= j < k ==> Refuses(onPhone, cs[j], keyCode, accepts)
    ensures k < |cs| ==> !Refuses(onPhone, cs[k], keyCode, accepts)
    decreases |cs|
  {
    if |cs| == 0 then 0
    else if !Refuses(onPhone, cs[0], keyCode, accepts) then 0
    else
      assert forall i :: 1 <= i < |cs| ==> cs[i] == cs[1..][i - 1];
      1 + FirstTaker(cs[1..], keyCode, accepts, onPhone)
  }

  /** The delivery to the first controller that takes the key: by media
      button when it accepts one, by its transport call otherwise. */
  function FirstDelivery(cs: seq<Controller>, keyCode: int, accepts: Answers, onPhone: bool): (r: Option<Delivery>)
    ensures r.None? <==> forall i :: 0 <= i < |cs| ==> Refuses(onPhone, cs[i], keyCode, accepts)
    ensures r.Some? ==>
              exists k :: 0 <= k < |cs| && r.value.controller == cs[k] && (forall j :: 0 <= j < k ==> Refuses(onPhone, cs[j], keyCode, accepts))
    ensures r.Some? && r.value.MediaButton? ==> accepts.button(r.value.controller)
    ensures r.Some? && r.value.TransportCall? ==>
              !accepts.button(r.value.controller) && accepts.transport(r.value.controller) && TransportOn(onPhone, r.value.controller, keyCode) == Some(r.value.call)
  {
    var k := FirstTaker(cs, keyCode, accepts, onPhone);
    if k == |cs| then None
    else if accepts.button(cs[k]) then Some(MediaButton(cs[k]))
    else Some(TransportCall(cs[k], TransportOn(onPhone, cs[k], keyCode).value))
  }

  /** Every controller of `cs` refuses the key. */
  predicate AllRefuse(cs: seq<Controller>, keyCode: int, accepts: Answers, onPhone: bool) {
    forall i :: 0 <= i < |cs| ==> Refuses(onPhone, cs[i], keyCode, accepts)
  }

  /** `c` is the first controller of `cs` that does not refuse the key. */
  predicate FirstTakerIs(cs: seq<Controller>, keyCode: int, accepts: Answers, onPhone: bool, c: Controller) {
    exists k :: 0 <= k < |cs| && cs[k] == c && !Refuses(onPhone, c, keyCode, accepts) &&
      forall j :: 0 <= j < k ==> Refuses(onPhone, cs[j], keyCode, accepts)
  }

  /** `FirstDelivery` in those terms: nothing exactly when every controller
      refuses, otherwise a delivery to the first one that does not. */
  lemma FirstDeliveryTaker(cs: seq<Controller>, keyCode: int, accepts: Answers, onPhone: bool)
    ensures var r := FirstDelivery(cs, keyCode, accepts, onPhone);
      && (r.None? <==> AllRefuse(cs, keyCode, accepts, onPhone))
      && (r.Some? ==> FirstTakerIs(cs, keyCode, accepts, onPhone, r.value.controller))
  {
    var k := FirstTaker(cs, keyCode, accepts, onPhone);
    if k < |cs| {
      assert FirstDelivery(cs, keyCode, accepts, onPhone).value.controller == cs[k];
    }
  }

  /** `c` is the first non-proxy controller of `cs` that takes the key on
      the watch: every non-proxy controller before it refuses. */
  predicate FirstDirectTakerIs(cs: seq<Controller>, keyCode: int, accepts: Answers, c: Controller) {
    exists p :: 0 <= p < |cs| && cs[p] == c && IsDirect(c) && !Refuses(false, c, keyCode, accepts) &&
      forall j :: 0 <= j < p && IsDirect(cs[j]) ==> Refuses(false, cs[j], keyCode, accepts)
  }

  /** The first taker among `NonProxies(cs)` is the first non-proxy taker
      of `cs` itself: filtering the proxies out keeps the order. */
  lemma FirstDirectTaker(cs: seq<Controller>, keyCode: int, accepts: Answers)
    requires FirstDelivery(NonProxies(cs), keyCode, accepts, false).Some?
    ensures FirstDirectTakerIs(cs, keyCode, accepts, FirstDelivery(NonProxies(cs), keyCode, accepts, false).value.controller)
  {
    FirstDirectTakerAt(cs, keyCode, accepts);
  }

  /** The same, by position: the induction over `cs`. */
  lemma {:induction false} FirstDirectTakerAt(cs: seq<Controller>, keyCode: int, accepts: Answers)
    requires FirstTaker(NonProxies(cs), keyCode, accepts, false) < |NonProxies(cs)|
    ensures FirstDirectTakerIs(cs, keyCode, accepts, NonProxies(cs)[FirstTaker(NonProxies(cs), keyCode, accepts, false)])
    decreases |cs|
  {
    var np := NonProxies(cs);
    var k := FirstTaker(np, keyCode, accepts, false);
    var rest := cs[1..];
    var nr := NonProxies(rest);
    NonProxiesCons(cs);
    if IsDirect(cs[0]) && !Refuses(false, cs[0], keyCode, accepts) {
      assert np[0] == cs[0];
      assert k == 0;
      assert 0 < |cs| && cs[0] == np[k];
    } else {
      if IsDirect(cs[0]) {
        assert np[1..] == nr;
        FirstTakerCons(np, keyCode, accepts, false);
        assert np[k] == nr[k - 1];
      }
      FirstDirectTakerAt(rest, keyCode, accepts);
      FirstDirectTakerShift(cs, keyCode, accepts, np[k]);
    }
  }

  /** `NonProxies` of a non-empty list: its head when that is not a proxy,
      then the rest's. */
  lemma NonProxiesCons(cs: seq<Controller>)
    requires |cs| > 0
    ensures NonProxies(cs) == (if IsDirect(cs[0]) then [cs[0]] else []) + NonProxies(cs[1..])
  {
    assert cs == [cs[0]] + cs[1..];
    FilterAppend([cs[0]], cs[1..], IsDirect);
    FilterOfOne(cs[0], IsDirect);
  }

  /** A refusing head moves the first taker one place on. */
  lemma FirstTakerCons(cs: seq<Controller>, keyCode: int, accepts: Answers, onPhone: bool)
    requires |cs| > 0 && Refuses(onPhone, cs[0], keyCode, accepts)
    ensures FirstTaker(cs, keyCode, accepts, onPhone) == 1 + FirstTaker(cs[1..], keyCode, accepts, onPhone)
  {
  }

  /** The first non-proxy taker of the tail is the first of the whole list
      when the head is a proxy or refuses. */
  lemma FirstDirectTakerShift(cs: seq<Controller>, keyCode: int, accepts: Answers, c: Controller)
    requires |cs| > 0 && (!IsDirect(cs[0]) || Refuses(false, cs[0], keyCode, accepts))
    requires FirstDirectTakerIs(cs[1..], keyCode, accepts, c)
    ensures FirstDirectTakerIs(cs, keyCode, accepts, c)
  {
    var rest := cs[1..];
    var p :| 0 <= p < |rest| && rest[p] == c && IsDirect(c) && !Refuses(false, c, keyCode, accepts) &&
      forall j :: 0 <= j < p && IsDirect(rest[j]) ==> Refuses(false, rest[j], keyCode, accepts);
    assert cs[p + 1] == c;
    forall j | 0 <= j < p + 1 && IsDirect(cs[j]) ensures Refuses(false, cs[j], keyCode, accepts) {
      if j > 0 {
        assert cs[j] == rest[j - 1];
      }
    }
  }

  /** The controllers that are proxies, in order. */
  function Proxies(cs: seq<Controller>): (r: seq<Controller>)
    ensures forall i :: 0 <= i < |r| ==> IsLikelyProxyPackage(r[i].packageName)
    ensures |NonProxies(cs)| == 0 ==> r == cs
    decreases |cs|
  {
    if |cs| == 0 then []
    else
      var rest := Proxies(cs[1..]);
      if IsLikelyProxyPackage(cs[0].packageName) then [cs[0]] + rest else rest
  }

  /** Whether a list has a controller that is not a proxy. */
  predicate HasDirect(cs: seq<Controller>) {
    exists i :: 0 <= i < |cs| && !IsLikelyProxyPackage(cs[i].packageName)
  }

  /** Whether a non-proxy controller of the list takes the key on the watch. */
  predicate DirectTaker(cs: seq<Controller>, keyCode: int, accepts: Answers) {
    exists i :: 0 <= i < |cs| && !IsLikelyProxyPackage(cs[i].packageName) && !Refuses(false, cs[i], keyCode, accepts)
  }

  /** A reordering keeps both questions' answers. */
  lemma DirectOfPermutation(xs: seq<Controller>, ys: seq<Controller>, keyCode: int, accepts: Answers)
    requires multiset(xs) == multiset(ys)
    ensures HasDirect(xs) <==> HasDirect(ys)
    ensures DirectTaker(xs, keyCode, accepts) <==> DirectTaker(ys, keyCode, accepts)
  {
    forall c | c in xs ensures c in ys {
      assert c in multiset(xs);
    }
    forall c | c in ys ensures c in xs {
      assert c in multiset(ys);
    }
    if HasDirect(xs) {
      var i :| 0 <= i < |xs| && !IsLikelyProxyPackage(xs[i].packageName);
      assert xs[i] in ys;
    }
    if HasDirect(ys) {
      var i :| 0 <= i < |ys| && !IsLikelyProxyPackage(ys[i].packageName);
      assert ys[i] in xs;
    }
    if DirectTaker(xs, keyCode, accepts) {
      var i :| 0 <= i < |xs| && !IsLikelyProxyPackage(xs[i].packageName) && !Refuses(false, xs[i], keyCode, accepts);
      assert xs[i] in ys;
    }
    if DirectTaker(ys, keyCode, accepts) {
      var i :| 0 <= i < |ys| && !IsLikelyProxyPackage(ys[i].packageName) && !Refuses(false, ys[i], keyCode, accepts);
      assert ys[i] in xs;
    }
  }

  /** A platform effect a decision leads to, in the order it happens. */
  datatype Effect =
    | Deliver(delivery: Delivery)
    | MediaKey(keyCode: int)
    | RetryKey(keyCode: int, delayMs: int)
    | AdjustVolume(up: bool)
    | ToggleMute
    | SendToPhone(action: string)
    | GlobalAction(action: string)
    | Vibrate

  /** What one dispatch did: the deliveries made (at most one) and whether
      the caller counts it as success. */
  datatype Dispatch = Dispatch(sent: seq<Delivery>, success: bool)

  /** The watch's `sendMediaCommandToActiveSession`: non-proxy controllers
      in priority order; failing those, with the screen off and nothing
      but proxies, the first proxy's transport call, which counts as
      success only when `allowProxyScreenOffSuccess`. */
  function WatchDispatch(accessEnabled: bool, controllers: seq<Controller>, keyCode: int, interactive: bool,
                         allowProxyScreenOffSuccess: bool, accepts: Answers): (r: Dispatch)
    ensures !accessEnabled || |controllers| == 0 ==> r == Dispatch([], false)
    ensures |r.sent| <= 1 && (r.success ==> |r.sent| == 1)
    ensures |r.sent| == 1 ==> r.sent[0].controller in multiset(controllers)
    // a non-proxy delivery always succeeds
    ensures |r.sent| == 1 && !IsLikelyProxyPackage(r.sent[0].controller.packageName) ==> r.success
    // a proxy is reached only by transport, with the screen off, when nothing else exists
    ensures |r.sent| == 1 && IsLikelyProxyPackage(r.sent[0].controller.packageName) ==>
              && r.sent[0].TransportCall?
              && !interactive
              && !HasDirect(controllers)
              && r.success == allowProxyScreenOffSuccess
    // with a non-proxy controller present, success means one of them took the key
    ensures accessEnabled && HasDirect(controllers) ==> (r.success <==> DirectTaker(controllers, keyCode, accepts))
    // a non-proxy controller gets the key exactly when one takes it, and then the first in priority order that does
    ensures accessEnabled ==> ((|r.sent| == 1 && IsDirect(r.sent[0].controller)) <==> DirectTaker(controllers, keyCode, accepts))
    ensures |r.sent| == 1 && IsDirect(r.sent[0].controller) ==>
              FirstDirectTakerIs(ChooseControllersForAction(controllers, keyCode), keyCode, accepts, r.sent[0].controller)
  {
    if !accessEnabled || |controllers| == 0 then Dispatch([], false)
    else
      var prioritized := ChooseControllersForAction(controllers, keyCode);
      DirectOfPermutation(controllers, prioritized, keyCode, accepts);
      DispatchPrioritized(prioritized, keyCode, interactive, allowProxyScreenOffSuccess, accepts)
  }

  /** The body of the watch's dispatch, over the prioritized list. */
  function DispatchPrioritized(prioritized: seq<Controller>, keyCode: int, interactive: bool,
                               allowProxyScreenOffSuccess: bool, accepts: Answers): (r: Dispatch)
    ensures |r.sent| <= 1 && (r.success ==> |r.sent| == 1)
    ensures |r.sent| == 1 ==> r.sent[0].controller in multiset(prioritized)
    ensures |r.sent| == 1 && !IsLikelyProxyPackage(r.sent[0].controller.packageName) ==> r.success
    ensures |r.sent| == 1 && IsLikelyProxyPackage(r.sent[0].controller.packageName) ==>
              && r.sent[0].TransportCall?
              && !interactive
              && !HasDirect(prioritized)
              && r.success == allowProxyScreenOffSuccess
    ensures HasDirect(prioritized) ==> (r.success <==> DirectTaker(prioritized, keyCode, accepts))
    // a non-proxy controller gets the key exactly when one takes it, and then the first in priority order that does
    ensures (|r.sent| == 1 && IsDirect(r.sent[0].controller)) <==> DirectTaker(prioritized, keyCode, accepts)
    ensures |r.sent| == 1 && IsDirect(r.sent[0].controller) ==> FirstDirectTakerIs(prioritized, keyCode, accepts, r.sent[0].controller)
  {
    var direct := NonProxies(prioritized);
    DirectDelivery(prioritized, keyCode, accepts);
    match FirstDelivery(direct, keyCode, accepts, false)
    case Some(d) =>
      Dispatch([d], true)
    case None =>
      var proxies := Proxies(prioritized);
      if !interactive && |direct| == 0 && |proxies| > 0 then
        match TransportFor(proxies[0], keyCode)
        case Some(t) =>
          if accepts.transport(proxies[0]) then Dispatch([TransportCall(proxies[0], t)], allowProxyScreenOffSuccess)
          else Dispatch([], false)
        case None => Dispatch([], false)
      else Dispatch([], false)
  }

  /** What the non-proxy pass of the watch's dispatch delivers: something
      exactly when a non-proxy controller takes the key, and then to the
      first such controller. */
  lemma DirectDelivery(prioritized: seq<Controller>, keyCode: int, accepts: Answers)
    ensures var f := FirstDelivery(NonProxies(prioritized), keyCode, accepts, false);
      && (f.Some? <==> DirectTaker(prioritized, keyCode, accepts))
      && (f.Some? ==> f.value.controller in prioritized && IsDirect(f.value.controller))
      && (f.Some? ==> FirstDirectTakerIs(prioritized, keyCode, accepts, f.value.controller))
      && (f.None? && HasDirect(prioritized) ==> |NonProxies(prioritized)| > 0)
  {
    var f := FirstDelivery(NonProxies(prioritized), keyCode, accepts, false);
    NonProxiesMembers(prioritized);
    DirectRefusal(prioritized, keyCode, accepts);
    if f.Some? {
      assert f.value.controller in NonProxies(prioritized);
      FirstDirectTaker(prioritized, keyCode, accepts);
    }
  }

  /** Every non-proxy controller refuses exactly when every controller of
      `NonProxies` does, in any order of the same controllers. */
  lemma DirectRefusal(cs: seq<Controller>, keyCode: int, accepts: Answers)
    ensures (forall i :: 0 <= i < |NonProxies(cs)| ==> Refuses(false, NonProxies(cs)[i], keyCode, accepts))
        <==> (forall i :: 0 <= i < |cs| && !IsLikelyProxyPackage(cs[i].packageName) ==> Refuses(false, cs[i], keyCode, accepts))
  {
    var np := NonProxies(cs);
    NonProxiesMembers(cs);
    if forall i :: 0 <= i < |np| ==> Refuses(false, np[i], keyCode, accepts) {
      forall i | 0 <= i < |cs| && !IsLikelyProxyPackage(cs[i].packageName)
        ensures Refuses(false, cs[i], keyCode, accepts)
      {
        assert cs[i] in np;
      }
    }
  }

  /** `NonProxies` keeps exactly the non-proxy controllers. */
  lemma {:induction false} NonProxiesMembers(cs: seq<Controller>)
    ensures forall c :: c in NonProxies(cs) <==> c in cs && !IsLikelyProxyPackage(c.packageName)
    decreases |cs|
  {
    if |cs| > 0 {
      NonProxiesMembers(cs[1..]);
      assert cs == [cs[0]] + cs[1..];
    }
  }

  /** The phone's `dispatchToActiveSession`: the first candidate, in the
      order of `PhoneCandidates`, that takes the media button or the
      phone's transport call. */
  function PhoneDispatch(accessEnabled: bool, sessions: seq<Controller>, allowProxy: bool, keyCode: int,
                         accepts: Answers): (r: Option<Delivery>)
    ensures !accessEnabled || |sessions| == 0 ==> r.None?
    ensures r.Some? ==> r.value.controller in multiset(sessions)
    ensures r.Some? && r.value.TransportCall? ==> keyCode in {KeyPlayPause, KeyNext, KeyPrevious}
    ensures r.Some? && !allowProxy && HasDirect(sessions) ==> !IsLikelyProxyPackage(r.value.controller.packageName)
    ensures accessEnabled && allowProxy ==>
              (r.None? <==> forall i :: 0 <= i < |sessions| ==> Refuses(true, sessions[i], keyCode, accepts))
    // nothing exactly when every candidate refuses; otherwise the first candidate that does not
    ensures accessEnabled && |sessions| > 0 ==>
              (r.None? <==> AllRefuse(PhoneCandidates(sessions, allowProxy, keyCode), keyCode, accepts, true))
    ensures r.Some? ==> FirstTakerIs(PhoneCandidates(sessions, allowProxy, keyCode), keyCode, accepts, true, r.value.controller)
  {
    if !accessEnabled || |sessions| == 0 then None
    else
      PhoneDispatchFacts(sessions, allowProxy, keyCode, accepts);
      FirstDeliveryTaker(PhoneCandidates(sessions, allowProxy, keyCode), keyCode, accepts, true);
      FirstDelivery(PhoneCandidates(sessions, allowProxy, keyCode), keyCode, accepts, true)
  }

  lemma PhoneDispatchFacts(sessions: seq<Controller>, allowProxy: bool, keyCode: int, accepts: Answers)
    ensures var r := FirstDelivery(PhoneCandidates(sessions, allowProxy, keyCode), keyCode, accepts, true);
      && (r.Some? ==> r.value.controller in multiset(sessions))
      && (r.Some? && !allowProxy && HasDirect(sessions) ==> !IsLikelyProxyPackage(r.value.controller.packageName))
      && (allowProxy ==> (r.None? <==> forall i :: 0 <= i < |sessions| ==> Refuses(true, sessions[i], keyCode, accepts)))
  {
    var candidates := PhoneCandidates(sessions, allowProxy, keyCode);
    var r := FirstDelivery(candidates, keyCode, accepts, true);
    if r.Some? {
      var k :| 0 <= k < |candidates| && r.value.controller == candidates[k];
      assert candidates[k] in multiset(candidates);
      if !allowProxy && HasDirect(sessions) {
        PhoneSkipsProxies(sessions, keyCode, k);
      } else if allowProxy {
        assert candidates[k] in multiset(sessions);
      } else {
        assert candidates[k] in multiset(sessions) by {
          assert multiset(NonProxies(sessions)) <= multiset(sessions);
        }
      }
    }
    if allowProxy {
      forall i | 0 <= i < |sessions| ensures sessions[i] in multiset(candidates) {
        assert sessions[i] in multiset(sessions);
      }
      forall i | 0 <= i < |candidates| ensures candidates[i] in multiset(sessions) {
        assert candidates[i] in multiset(candidates);
      }
    }
  }
}

=== FILE: ordering.dfy ===
/** Kotlin's `sortedByDescending`, which is stable: elements are ordered by
    non-increasing key, and elements with equal keys keep their input
    order. */
module Ordering {

  predicate NonIncreasing<T>(xs: seq<T>, key: T -> int) {
    forall i, j :: 0 <= i < j < |xs| ==> key(xs[i]) >= key(xs[j])
  }

  /** The elements of `xs` whose key is `k`, in input order. */
  function WithKey<T>(xs: seq<T>, key: T -> int, k: int): (r: seq<T>)
    decreases |xs|
  {
    if |xs| == 0 then []
    else if key(xs[0]) == k then [xs[0]] + WithKey(xs[1..], key, k)
    else WithKey(xs[1..], key, k)
  }

  /** An element with a key at least the head's extends a non-increasing
      sequence at the front. */
  lemma ConsNonIncreasing<T>(y: T, xs: seq<T>, key: T -> int)
    requires NonIncreasing(xs, key)
    requires |xs| > 0 ==> key(y) >= key(xs[0])
    ensures NonIncreasing([y] + xs, key)
  {
    var r := [y] + xs;
    forall i, j | 0 <= i < j < |r| ensures key(r[i]) >= key(r[j]) {
      assert r[j] == xs[j - 1];
      if i > 0 {
        assert r[i] == xs[i - 1];
      }
    }
  }

  /** Places `x` before the first element whose key is not larger. */
  function Insert<T>(x: T, xs: seq<T>, key: T -> int): (r: seq<T>)
    requires NonIncreasing(xs, key)
    ensures NonIncreasing(r, key)
    ensures multiset(r) == multiset(xs) + multiset{x}
    ensures |r| == |xs| + 1
    ensures r[0] == (if |xs| == 0 || key(xs[0]) <= key(x) then x else xs[0])
    decreases |xs|
  {
    if |xs| == 0 || key(xs[0]) <= key(x) then
      ConsNonIncreasing(x, xs, key);
      [x] + xs
    else
      var rest := Insert(x, xs[1..], key);
      assert xs == [xs[0]] + xs[1..];
      ConsNonIncreasing(xs[0], rest, key);
      [xs[0]] + rest
  }

  /** `sortedByDescending(key)`: a permutation of `xs` ordered by
      non-increasing key. */
  function SortByDescending<T>(xs: seq<T>, key: T -> int): (r: seq<T>)
    ensures NonIncreasing(r, key)
    ensures multiset(r) == multiset(xs)
    ensures |r| == |xs|
    decreases |xs|
  {
    if |xs| == 0 then []
    else
      assert xs == [xs[0]] + xs[1..];
      Insert(xs[0], SortByDescending(xs[1..], key), key)
  }

  lemma {:induction false} InsertWithKey<T>(x: T, xs: seq<T>, key: T -> int, k: int)
    requires NonIncreasing(xs, key)
    ensures WithKey(Insert(x, xs, key), key, k)
         == (if key(x) == k then [x] else []) + WithKey(xs, key, k)
    decreases |xs|
  {
    if |xs| == 0 || key(xs[0]) <= key(x) {
      assert ([x] + xs)[1..] == xs;
    } else {
      var rest := Insert(x, xs[1..], key);
      assert ([xs[0]] + rest)[1..] == rest;
      InsertWithKey(x, xs[1..], key, k);
    }
  }

  /** Stability: sorting keeps, for every key, the input order of the
      elements with that key. Together with the ensures of
      `SortByDescending` this pins the result down completely. */
  lemma {:induction false} SortIsStable<T>(xs: seq<T>, key: T -> int, k: int)
    ensures WithKey(SortByDescending(xs, key), key, k) == WithKey(xs, key, k)
    decreases |xs|
  {
    if |xs| > 0 {
      SortIsStable(xs[1..], key, k);
      InsertWithKey(xs[0], SortByDescending(xs[1..], key), key, k);
    }
  }
}

=== FILE: phone_media_executor.dfy ===
/** The phone's executor of watch commands (`PhoneMediaExecutor`): which
    commands it acts on, how play/pause picks its key and its retry, and
    the settings payload it sends to the watch.

    The platform's answers — whether the screen is on, whether
    notification access is granted, the active sessions, whether each
    accepts a media button and whether its transport call goes through —
    are parameters gathered in `Environment`. */
module PhoneMediaExecutor {
  import opened Common
  import opened Text
  import SyncProtocol
  import ControlPreferences
  import opened MediaSessions

  datatype Environment = Environment(
    interactive: bool,
    accessEnabled: bool,
    sessions: seq<Controller>,
    accepts: Answers)

  /** The phone's off-screen retry rule: never when disabled, never for
      the generic play/pause key, otherwise exactly when the screen is
      off. */
  function ShouldRetryOffScreen(retryEnabled: bool, keyCode: int, interactive: bool): (r: bool)
    ensures !retryEnabled || keyCode == KeyPlayPause ==> !r
    ensures retryEnabled && keyCode != KeyPlayPause ==> r == !interactive
  {
    if !retryEnabled then false
    else if keyCode == KeyPlayPause then false
    else !interactive
  }

  /** `handlePlayPause`: the explicit key inferred from the sessions when
      preferred and known, the generic key otherwise; then the same key
      again after the retry delay when the rule asks for it. */
  function HandlePlayPause(settings: ControlPreferences.Settings, env: Environment): (r: seq<Effect>)
    ensures 1 <= |r| <= 2 && r[0].MediaKey?
    ensures r[0].keyCode in {KeyPlayPause, KeyPlay, KeyPause}
    ensures !settings.preferExplicitPlayPause || !env.accessEnabled || |env.sessions| == 0 ==> r[0] == MediaKey(KeyPlayPause)
    ensures settings.preferExplicitPlayPause && env.accessEnabled && |env.sessions| > 0 ==> r[0].keyCode != KeyPlayPause
    ensures |r| == 2 <==> settings.offscreenRetryEnabled && !env.interactive && r[0].keyCode != KeyPlayPause
    ensures |r| == 2 ==> r[1] == RetryKey(r[0].keyCode, settings.offscreenRetryDelayMs)
    ensures forall i :: 0 <= i < |r| && r[i].RetryKey? ==>
              settings.offscreenRetryEnabled && !env.interactive &&
              r[i].keyCode in {KeyPlay, KeyPause} && r[i].delayMs == settings.offscreenRetryDelayMs
  {
    var key := if settings.preferExplicitPlayPause
               then PhoneExplicitPlayPauseKey(env.accessEnabled, env.sessions, settings.allowProxyScreenOff).GetOr(KeyPlayPause)
               else KeyPlayPause;
    [MediaKey(key)]
    + (if ShouldRetryOffScreen(settings.offscreenRetryEnabled, key, env.interactive)
       then [RetryKey(key, settings.offscreenRetryDelayMs)] else [])
  }

  /** A key through `dispatchToActiveSession`, or the fallback when no
      session takes it. */
  function DispatchOr(settings: ControlPreferences.Settings, keyCode: int, env: Environment, fallback: seq<Effect>): (r: seq<Effect>)
    ensures (|r| == 1 && r[0].Deliver?) || r == fallback
    ensures r != fallback ==> r[0].delivery.controller in multiset(env.sessions)
    // with a fallback that delivers nothing: the fallback exactly when no session takes the key
    ensures (forall i :: 0 <= i < |fallback| ==> !fallback[i].Deliver?) ==>
              (r == fallback <==> PhoneDispatch(env.accessEnabled, env.sessions, settings.allowProxyScreenOff, keyCode, env.accepts).None?)
    // a delivery goes to the first candidate that takes the key
    ensures r != fallback ==>
              FirstTakerIs(PhoneCandidates(env.sessions, settings.allowProxyScreenOff, keyCode), keyCode, env.accepts, true, r[0].delivery.controller)
  {
    match PhoneDispatch(env.accessEnabled, env.sessions, settings.allowProxyScreenOff, keyCode, env.accepts)
    case Some(d) => [Deliver(d)]
    case None => fallback
  }

  /** Next or previous: the session that takes the key, otherwise the key
      itself. */
  function KeyOrDelivery(settings: ControlPreferences.Settings, keyCode: int, env: Environment): (r: seq<Effect>)
    ensures |r| == 1 && (r[0].Deliver? || r[0] == MediaKey(keyCode))
    ensures r[0] == MediaKey(keyCode) <==>
              PhoneDispatch(env.accessEnabled, env.sessions, settings.allowProxyScreenOff, keyCode, env.accepts).None?
  {
    DispatchOr(settings, keyCode, env, [MediaKey(keyCode)])
  }

  /** Play/pause: the session that takes the key, otherwise
      `handlePlayPause`, whose retry is the only one the phone schedules. */
  function PlayPauseEffects(settings: ControlPreferences.Settings, env: Environment): (r: seq<Effect>)
    ensures 1 <= |r| <= 2 && (r[0].Deliver? || r[0].MediaKey?)
    ensures forall i :: 0 <= i < |r| ==> r[i].Deliver? || r[i].MediaKey? || r[i].RetryKey?
    ensures forall i :: 0 <= i < |r| && r[i].RetryKey? ==>
              settings.offscreenRetryEnabled && !env.interactive &&
              r[i].keyCode in {KeyPlay, KeyPause} && r[i].delayMs == settings.offscreenRetryDelayMs
    // `handlePlayPause` runs exactly when no session takes the key
    ensures r[0].MediaKey? <==>
              PhoneDispatch(env.accessEnabled, env.sessions, settings.allowProxyScreenOff, KeyPlayPause, env.accepts).None?
    ensures r[0].MediaKey? ==> r == HandlePlayPause(settings, env)
  {
    match PhoneDispatch(env.accessEnabled, env.sessions, settings.allowProxyScreenOff, KeyPlayPause, env.accepts)
    case Some(d) => [Deliver(d)]
    case None => HandlePlayPause(settings, env)
  }

  /** The commands the phone acts on. */
  function HandledActions(): set<string> {
    {SyncProtocol.ActionPlayPause, SyncProtocol.ActionNext, SyncProtocol.ActionPrevious,
     SyncProtocol.ActionVolumeUp, SyncProtocol.ActionVolumeDown, SyncProtocol.ActionMute}
  }

  /** `executeAction`: nothing while control is paused; play/pause, next
      and previous go to the sessions with a key as fallback; the volume
      commands adjust the volume; every other identifier is ignored. */
  function ExecuteAction(settings: ControlPreferences.Settings, action: string, env: Environment): (r: seq<Effect>)
    ensures !settings.controlEnabled ==> r == []
    ensures action !in HandledActions() ==> r == []
    ensures settings.controlEnabled && action in HandledActions() ==> |r| >= 1
    ensures settings.controlEnabled && action == SyncProtocol.ActionVolumeUp ==> r == [AdjustVolume(true)]
    ensures settings.controlEnabled && action == SyncProtocol.ActionVolumeDown ==> r == [AdjustVolume(false)]
    ensures settings.controlEnabled && action == SyncProtocol.ActionMute ==> r == [ToggleMute]
    ensures settings.controlEnabled && action == SyncProtocol.ActionNext ==>
              r == DispatchOr(settings, KeyNext, env, [MediaKey(KeyNext)])
    ensures settings.controlEnabled && action == SyncProtocol.ActionPrevious ==>
              r == DispatchOr(settings, KeyPrevious, env, [MediaKey(KeyPrevious)])
    ensures settings.controlEnabled && action == SyncProtocol.ActionPlayPause ==>
              r == DispatchOr(settings, KeyPlayPause, env, HandlePlayPause(settings, env))
    ensures forall i :: 0 <= i < |r| ==> !r[i].SendToPhone? && !r[i].GlobalAction? && !r[i].Vibrate?
    // a retry is only ever scheduled for an explicit play or pause key with the screen off
    ensures forall i :: 0 <= i < |r| && r[i].RetryKey? ==>
              action == SyncProtocol.ActionPlayPause && settings.offscreenRetryEnabled && !env.interactive &&
              r[i].keyCode in {KeyPlay, KeyPause} && r[i].delayMs == settings.offscreenRetryDelayMs
  {
    if !settings.controlEnabled then []
    else if action == SyncProtocol.ActionPlayPause then
      var r := PlayPauseEffects(settings, env);
      assert r == DispatchOr(settings, KeyPlayPause, env, HandlePlayPause(settings, env));
      r
    else if action == SyncProtocol.ActionNext then
      var r := KeyOrDelivery(settings, KeyNext, env);
      assert r == DispatchOr(settings, KeyNext, env, [MediaKey(KeyNext)]);
      r
    else if action == SyncProtocol.ActionPrevious then
      var r := KeyOrDelivery(settings, KeyPrevious, env);
      assert r == DispatchOr(settings, KeyPrevious, env, [MediaKey(KeyPrevious)]);
      r
    else if action == SyncProtocol.ActionVolumeUp then [AdjustVolume(true)]
    else if action == SyncProtocol.ActionVolumeDown then [AdjustVolume(false)]
    else if action == SyncProtocol.ActionMute then [ToggleMute]
    else []
  }

  /** Of the fourteen commands the protocol defines, the phone ignores
      eight: play, pause, stop, fast-forward, rewind, open camera, launch
      assistant and find phone. */
  lemma IgnoredProtocolActions(settings: ControlPreferences.Settings, action: string, env: Environment)
    requires action in SyncProtocol.ProtocolActions()
    ensures ExecuteAction(settings, action, env) == [] <==>
              (!settings.controlEnabled || action in
                 {SyncProtocol.ActionPlay, SyncProtocol.ActionPause, SyncProtocol.ActionStop,
                  SyncProtocol.ActionFastForward, SyncProtocol.ActionRewind, SyncProtocol.ActionOpenCamera,
                  SyncProtocol.ActionLaunchAssistant, SyncProtocol.ActionFindPhone})
  {
  }

  /** The phone schedules a retry only when every candidate session fails
      both ways: while every transport call goes through, play/pause is
      taken by the first candidate's transport call whenever a session
      exists, and without access or sessions no explicit key is inferred,
      so the generic key is sent and never retried. */
  lemma PhoneNeverRetries(settings: ControlPreferences.Settings, action: string, env: Environment)
    requires forall c :: env.accepts.transport(c)
    ensures forall i :: 0 <= i < |ExecuteAction(settings, action, env)| ==> !ExecuteAction(settings, action, env)[i].RetryKey?
  {
    if settings.controlEnabled && action == SyncProtocol.ActionPlayPause {
      var key := KeyPlayPause;
      if env.accessEnabled && |env.sessions| > 0 {
        var candidates := PhoneCandidates(env.sessions, settings.allowProxyScreenOff, key);
        assert TransportGoesThrough(true, candidates[0], key, env.accepts);
        assert PhoneDispatch(env.accessEnabled, env.sessions, settings.allowProxyScreenOff, key, env.accepts).Some?;
        assert |PlayPauseEffects(settings, env)| == 1;
      } else {
        assert HandlePlayPause(settings, env) == [MediaKey(key)];
      }
    }
  }

  /** The retry is reachable: with the screen off, retry and the explicit
      key on, and every session failing both ways, play/pause sends the
      inferred explicit key and schedules it again. */
  lemma PhoneRetriesWhenSessionsFail(settings: ControlPreferences.Settings, env: Environment)
    requires settings.controlEnabled && settings.preferExplicitPlayPause && settings.offscreenRetryEnabled
    requires !env.interactive && env.accessEnabled && |env.sessions| > 0
    requires forall c :: !env.accepts.button(c) && !env.accepts.transport(c)
    ensures var r := ExecuteAction(settings, SyncProtocol.ActionPlayPause, env);
      |r| == 2 && r[0].MediaKey? && r[0].keyCode in {KeyPlay, KeyPause} &&
      r[1] == RetryKey(r[0].keyCode, settings.offscreenRetryDelayMs)
  {
  }

  // ---------------------------------------------------------------------
  // Settings sent to the watch
  // ---------------------------------------------------------------------

  /** The keys of the payload, in the order `syncSettingsToWatch` lists
      them. */
  function PayloadKeys(): seq<string> {
    [SyncProtocol.KeyPrimaryAction, SyncProtocol.KeyPreferExplicitPlayPause, SyncProtocol.KeyAllowProxyScreenOff,
     SyncProtocol.KeyEnableOffscreenRetry, SyncProtocol.KeyOffscreenRetryDelayMs, SyncProtocol.KeyHapticsEnabled,
     SyncProtocol.KeyRouteMediaToPhone, SyncProtocol.KeyControlEnabled, SyncProtocol.KeySyncTs]
  }

  /** `syncSettingsToWatch`'s payload at wall-clock time `now`: the phone's
      settings as text, routing always on and the time of the sync. */
  function SettingsPayload(settings: ControlPreferences.Settings, now: int): (r: seq<SyncProtocol.Entry>)
    ensures |r| == |PayloadKeys()| && forall i :: 0 <= i < |r| ==> r[i].0 == PayloadKeys()[i]
    ensures (SyncProtocol.KeyRouteMediaToPhone, "true") in r
    ensures forall i :: 0 <= i < |r| ==> r[i].0 != SyncProtocol.KeyReverseAction
    ensures forall i, j :: 0 <= i < j < |r| ==> r[i].0 != r[j].0
  {
    [(SyncProtocol.KeyPrimaryAction, settings.primaryAction),
     (SyncProtocol.KeyPreferExplicitPlayPause, BoolToString(settings.preferExplicitPlayPause)),
     (SyncProtocol.KeyAllowProxyScreenOff, BoolToString(settings.allowProxyScreenOff)),
     (SyncProtocol.KeyEnableOffscreenRetry, BoolToString(settings.offscreenRetryEnabled)),
     (SyncProtocol.KeyOffscreenRetryDelayMs, IntToString(settings.offscreenRetryDelayMs)),
     (SyncProtocol.KeyHapticsEnabled, BoolToString(settings.hapticsEnabled)),
     (SyncProtocol.KeyRouteMediaToPhone, "true"),
     (SyncProtocol.KeyControlEnabled, BoolToString(settings.controlEnabled)),
     (SyncProtocol.KeySyncTs, IntToString(now))]
  }
}

=== FILE: phone_sync_listener.dfy ===
/** The phone's listener for watch traffic (`PhoneSyncListenerService`):
    media commands with duplicate suppression, settings requests with a
    cooldown, and settings updates made on the watch.

    The listener's process-wide fields are the `Listener` record; the
    elapsed-realtime clock is the parameter `now`. */
module PhoneSyncListener {
  import opened Common
  import opened Text
  import SyncProtocol
  import ControlPreferences
  import PhoneMediaExecutor
  import opened MediaSessions

  const DuplicateWindowMs: int := 900
  const SettingsRequestCooldownMs: int := 1200

  /** The companion object's fields. */
  datatype Listener = Listener(
    lastHandledTs: int,
    lastHandledAction: string,
    lastHandledElapsedMs: int,
    lastSettingsRequestElapsedMs: int)

  function Initial(): Listener {
    Listener(0, "", 0, 0)
  }

  // ---------------------------------------------------------------------
  // Duplicate suppression
  // ---------------------------------------------------------------------

  /** `shouldHandle`'s answer and the fields it leaves behind. */
  datatype Verdict = Verdict(handle: bool, listener: Listener)

  /** `shouldHandle`: a repeat of the last handled action is dropped inside
      the duplicate window, and also when it carries a positive timestamp
      no newer than the last handled one; anything handled becomes the
      new "last". */
  function ShouldHandle(l: Listener, action: string, ts: int, now: int): (r: Verdict)
    ensures action != l.lastHandledAction ==> r.handle
    ensures action == l.lastHandledAction && now - l.lastHandledElapsedMs < DuplicateWindowMs ==> !r.handle
    ensures action == l.lastHandledAction && 0 < ts <= l.lastHandledTs ==> !r.handle
    ensures action == l.lastHandledAction && now - l.lastHandledElapsedMs >= DuplicateWindowMs && !(0 < ts <= l.lastHandledTs) ==> r.handle
    ensures r.handle ==> r.listener == l.(lastHandledTs := ts, lastHandledAction := action, lastHandledElapsedMs := now)
    ensures !r.handle ==> r.listener == l
  {
    var sameAction := action == l.lastHandledAction;
    if sameAction && now - l.lastHandledElapsedMs < DuplicateWindowMs then Verdict(false, l)
    else if ts > 0 && sameAction && ts <= l.lastHandledTs then Verdict(false, l)
    else Verdict(true, l.(lastHandledTs := ts, lastHandledAction := action, lastHandledElapsedMs := now))
  }

  /** One delivery of a media command: its action, its timestamp and the
      elapsed time at which it arrives. */
  datatype Command = Command(action: string, ts: int, now: int)

  /** The commands of a delivery sequence that get handled, in order, and
      the fields left behind. */
  function HandleAll(l: Listener, cs: seq<Command>): (r: (Listener, seq<Command>))
    ensures |r.1| <= |cs|
    ensures forall i :: 0 <= i < |r.1| ==> r.1[i] in cs
    decreases |cs|
  {
    if |cs| == 0 then (l, [])
    else
      var v := ShouldHandle(l, cs[0].action, cs[0].ts, cs[0].now);
      var rest := HandleAll(v.listener, cs[1..]);
      (rest.0, (if v.handle then [cs[0]] else []) + rest.1)
  }

  /** A handled command with a positive timestamp is never handled again
      while it is the last one handled, however late it is redelivered. */
  lemma RedeliveryDropped(l: Listener, c: Command, later: int)
    requires c.ts > 0 && ShouldHandle(l, c.action, c.ts, c.now).handle
    ensures !ShouldHandle(ShouldHandle(l, c.action, c.ts, c.now).listener, c.action, c.ts, later).handle
  {
  }

  /** Every command of one action that gets handled after `l` is newer than
      the last one `l` remembers of that action, and arrives a window or
      more after it. */
  lemma {:induction false} HandledAfter(l: Listener, cs: seq<Command>, a: string)
    requires forall i :: 0 <= i < |cs| ==> cs[i].action == a && cs[i].ts > 0
    requires l.lastHandledAction == a
    ensures forall c :: c in HandleAll(l, cs).1 ==>
              c.ts > l.lastHandledTs && c.now - l.lastHandledElapsedMs >= DuplicateWindowMs
    ensures HandleAll(l, cs).0.lastHandledAction == a
    decreases |cs|
  {
    if |cs| > 0 {
      var v := ShouldHandle(l, cs[0].action, cs[0].ts, cs[0].now);
      HandledAfter(v.listener, cs[1..], a);
    }
  }

  /** Strictly increasing timestamps, arrivals at least a window apart. */
  predicate InOrder(h: seq<Command>) {
    forall i, j :: 0 <= i < j < |h| ==> h[i].ts < h[j].ts && h[j].now - h[i].now >= DuplicateWindowMs
  }

  lemma ConsInOrder(c: Command, rest: seq<Command>)
    requires InOrder(rest)
    requires forall x :: x in rest ==> x.ts > c.ts && x.now - c.now >= DuplicateWindowMs
    ensures InOrder([c] + rest)
  {
    var h := [c] + rest;
    forall i, j | 0 <= i < j < |h|
      ensures h[i].ts < h[j].ts && h[j].now - h[i].now >= DuplicateWindowMs
    {
      assert h[j] == rest[j - 1] && rest[j - 1] in rest;
      if i > 0 {
        assert h[i] == rest[i - 1];
      }
    }
  }

  /** For commands of one action with positive timestamps, the handled ones
      have strictly increasing timestamps and arrive at least a window
      apart. */
  lemma {:induction false} HandledInOrder(l: Listener, cs: seq<Command>, a: string)
    requires forall i :: 0 <= i < |cs| ==> cs[i].action == a && cs[i].ts > 0
    ensures InOrder(HandleAll(l, cs).1)
    decreases |cs|
  {
    if |cs| > 0 {
      var v := ShouldHandle(l, cs[0].action, cs[0].ts, cs[0].now);
      HandledInOrder(v.listener, cs[1..], a);
      if v.handle {
        HandledAfter(v.listener, cs[1..], a);
        ConsInOrder(cs[0], HandleAll(v.listener, cs[1..]).1);
      }
    }
  }

  /** Only the last handled command is remembered: once another action has
      been handled, a redelivery of the first command is handled again. */
  lemma InterleavedRedeliveryHandled()
    ensures var cs := [Command(SyncProtocol.ActionNext, 5, 1000), Command(SyncProtocol.ActionMute, 6, 1001),
                       Command(SyncProtocol.ActionNext, 5, 1002)];
      HandleAll(Initial(), cs).1 == cs
  {
    var cs := [Command(SyncProtocol.ActionNext, 5, 1000), Command(SyncProtocol.ActionMute, 6, 1001),
               Command(SyncProtocol.ActionNext, 5, 1002)];
    var l1 := ShouldHandle(Initial(), cs[0].action, cs[0].ts, cs[0].now).listener;
    var l2 := ShouldHandle(l1, cs[1].action, cs[1].ts, cs[1].now).listener;
    var l3 := ShouldHandle(l2, cs[2].action, cs[2].ts, cs[2].now).listener;
    assert cs[1..][1..] == [cs[2]] && cs[1..][1..][1..] == [];
    assert HandleAll(l3, []).1 == [];
    assert HandleAll(l2, [cs[2]]).1 == [cs[2]];
    assert HandleAll(l1, cs[1..]).1 == [cs[1], cs[2]];
  }

  // ---------------------------------------------------------------------
  // Settings requests
  // ---------------------------------------------------------------------

  /** A settings request is answered unless the last answered one is less
      than the cooldown ago. */
  function OnSettingsRequest(l: Listener, now: int): (r: Verdict)
    ensures r.handle <==> now - l.lastSettingsRequestElapsedMs >= SettingsRequestCooldownMs
    ensures r.handle ==> r.listener == l.(lastSettingsRequestElapsedMs := now)
    ensures !r.handle ==> r.listener == l
  {
    if now - l.lastSettingsRequestElapsedMs < SettingsRequestCooldownMs then Verdict(false, l)
    else Verdict(true, l.(lastSettingsRequestElapsedMs := now))
  }

  /** The arrival times of a request sequence that get answered. */
  function AnsweredRequests(l: Listener, nows: seq<int>): (r: seq<int>)
    ensures |r| <= |nows|
    decreases |nows|
  {
    if |nows| == 0 then []
    else
      var v := OnSettingsRequest(l, nows[0]);
      (if v.handle then [nows[0]] else []) + AnsweredRequests(v.listener, nows[1..])
  }

  /** Every answered request comes at least a cooldown after the one `l`
      remembers. */
  lemma {:induction false} AnsweredAfter(l: Listener, nows: seq<int>)
    ensures forall t :: t in AnsweredRequests(l, nows) ==> t - l.lastSettingsRequestElapsedMs >= SettingsRequestCooldownMs
    decreases |nows|
  {
    if |nows| > 0 {
      AnsweredAfter(OnSettingsRequest(l, nows[0]).listener, nows[1..]);
    }
  }

  /** Every later time is at least `gap` after every earlier one. */
  predicate SpacedBy(ts: seq<int>, gap: int) {
    forall i, j :: 0 <= i < j < |ts| ==> ts[j] - ts[i] >= gap
  }

  /** Answered settings requests are at least a cooldown apart. */
  lemma {:induction false} AnsweredRequestsSpaced(l: Listener, nows: seq<int>)
    ensures SpacedBy(AnsweredRequests(l, nows), SettingsRequestCooldownMs)
    decreases |nows|
  {
    if |nows| > 0 {
      var v := OnSettingsRequest(l, nows[0]);
      AnsweredRequestsSpaced(v.listener, nows[1..]);
      var rest := AnsweredRequests(v.listener, nows[1..]);
      var r := AnsweredRequests(l, nows);
      if v.handle {
        AnsweredAfter(v.listener, nows[1..]);
        assert r == [nows[0]] + rest;
        forall i, j | 0 <= i < j < |r|
          ensures r[j] - r[i] >= SettingsRequestCooldownMs
        {
          assert r[j] == rest[j - 1] && rest[j - 1] in rest;
          if i > 0 {
            assert r[i] == rest[i - 1];
            assert rest[j - 1] - rest[i - 1] >= SettingsRequestCooldownMs;
          }
        }
      } else {
        assert r == rest;
      }
    }
  }

  // ---------------------------------------------------------------------
  // Settings updates from the watch
  // ---------------------------------------------------------------------

  /** The store after an update and whether anything changed. */
  datatype Update = Update(store: ControlPreferences.Store, changed: bool)

  /** The primary action a payload asks for, when it names a phone action. */
  function RequestedPrimary(payload: map<string, string>): (r: Option<string>)
    ensures r.Some? <==> SyncProtocol.KeyPrimaryAction in payload && payload[SyncProtocol.KeyPrimaryAction] in ControlPreferences.AllActions()
    ensures r.Some? ==> r.value == payload[SyncProtocol.KeyPrimaryAction]
  {
    if SyncProtocol.KeyPrimaryAction in payload && payload[SyncProtocol.KeyPrimaryAction] in ControlPreferences.AllActions()
    then Some(payload[SyncProtocol.KeyPrimaryAction]) else None
  }

  /** The control switch a payload asks for, when its text is a strict
      boolean. */
  function RequestedControl(payload: map<string, string>): (r: Option<bool>)
    ensures r == Some(true) <==> SyncProtocol.KeyControlEnabled in payload && payload[SyncProtocol.KeyControlEnabled] == "true"
    ensures r == Some(false) <==> SyncProtocol.KeyControlEnabled in payload && payload[SyncProtocol.KeyControlEnabled] == "false"
  {
    if SyncProtocol.KeyControlEnabled in payload then ParseBoolStrict(payload[SyncProtocol.KeyControlEnabled]) else None
  }

  /** Writes the requested primary action when it differs from the stored
      one. */
  function WritePrimary(store: ControlPreferences.Store, requested: Option<string>): (r: ControlPreferences.Store)
    ensures ControlPreferences.Read(r) == ControlPreferences.Read(store).(primaryAction := requested.GetOr(ControlPreferences.Read(store).primaryAction))
    ensures r == store <==> ControlPreferences.Read(r) == ControlPreferences.Read(store)
  {
    match requested
    case Some(a) => if ControlPreferences.Read(store).primaryAction != a then ControlPreferences.SetPrimaryAction(store, a) else store
    case None => store
  }

  /** Writes the requested control switch when it differs from the stored
      one. */
  function WriteControl(store: ControlPreferences.Store, requested: Option<bool>): (r: ControlPreferences.Store)
    ensures ControlPreferences.Read(r) == ControlPreferences.Read(store).(controlEnabled := requested.GetOr(ControlPreferences.Read(store).controlEnabled))
    ensures r == store <==> ControlPreferences.Read(r) == ControlPreferences.Read(store)
  {
    match requested
    case Some(b) => if ControlPreferences.Read(store).controlEnabled != b then ControlPreferences.SetControlEnabled(store, b) else store
    case None => store
  }

  /** The settings-update branch of `onMessageReceived`: an empty payload is
      ignored; a known primary action and a strict boolean control switch
      are written when they differ from what is stored. */
  function WatchSettingsUpdate(store: ControlPreferences.Store, payload: map<string, string>): (r: Update)
    ensures |payload| == 0 ==> r == Update(store, false)
    ensures var before := ControlPreferences.Read(store);
      ControlPreferences.Read(r.store) == before.(primaryAction := RequestedPrimary(payload).GetOr(before.primaryAction),
                                                  controlEnabled := RequestedControl(payload).GetOr(before.controlEnabled))
    ensures r.changed <==> ControlPreferences.Read(r.store) != ControlPreferences.Read(store)
    ensures !r.changed ==> r.store == store
  {
    if |payload| == 0 then Update(store, false)
    else
      var s1 := WritePrimary(store, RequestedPrimary(payload));
      var s2 := WriteControl(s1, RequestedControl(payload));
      Update(s2, s1 != store || s2 != s1)
  }

  /** Applying the same update twice changes nothing the second time. */
  lemma SettingsUpdateIdempotent(store: ControlPreferences.Store, payload: map<string, string>)
    ensures var once := WatchSettingsUpdate(store, payload).store;
      WatchSettingsUpdate(once, payload) == Update(once, false)
  {
  }

  /** An update made on the watch never touches the phone's other
      settings. */
  lemma SettingsUpdateOnlyTwoKeys(store: ControlPreferences.Store, payload: map<string, string>)
    ensures var before := ControlPreferences.Read(store);
      var after := ControlPreferences.Read(WatchSettingsUpdate(store, payload).store);
      after.reverseAction == before.reverseAction && after.preferExplicitPlayPause == before.preferExplicitPlayPause &&
      after.allowProxyScreenOff == before.allowProxyScreenOff && after.offscreenRetryEnabled == before.offscreenRetryEnabled &&
      after.offscreenRetryDelayMs == before.offscreenRetryDelayMs && after.hapticsEnabled == before.hapticsEnabled
  {
  }

  // ---------------------------------------------------------------------
  // Messages
  // ---------------------------------------------------------------------

  /** The media-command branch's reading of a message body: the `action`
      entry, or the whole text when there is none; the `ts` entry as a
      `Long`, or 0 when it is missing or not a number. */
  function ParseMediaCommand(text: string): (r: (string, int))
    ensures SyncProtocol.KeyAction in SyncProtocol.DecodeMap(text) ==> r.0 == SyncProtocol.DecodeMap(text)[SyncProtocol.KeyAction]
    ensures SyncProtocol.KeyAction !in SyncProtocol.DecodeMap(text) ==> r.0 == text
    ensures SyncProtocol.KeyTs !in SyncProtocol.DecodeMap(text) ==> r.1 == 0
    ensures SyncProtocol.KeyTs in SyncProtocol.DecodeMap(text) ==>
              r.1 == ParseLong(SyncProtocol.DecodeMap(text)[SyncProtocol.KeyTs]).GetOr(0)
    ensures LongMin <= r.1 <= LongMax
    // a body that is not a key=value payload is the bare action name, with no timestamp
    ensures '=' !in text ==> r == (text, 0)
  {
    var decoded := SyncProtocol.DecodeMap(text);
    assert '=' !in text ==> decoded == map[] by {
      if '=' !in text { SyncProtocol.DecodeWithoutSeparator(text); }
    }
    var action := if SyncProtocol.KeyAction in decoded then decoded[SyncProtocol.KeyAction] else text;
    var ts := if SyncProtocol.KeyTs in decoded then ParseLong(decoded[SyncProtocol.KeyTs]).GetOr(0) else 0;
    (action, ts)
  }

  /** A message from the watch: its path and its body as text. */
  datatype Message = Message(path: string, data: string)

  /** What a message does: the listener's fields and the phone's store
      afterwards, the media effects carried out, whether the settings are
      sent back to the watch and whether the settings screen is told of a
      change. */
  datatype Outcome = Outcome(
    listener: Listener,
    store: ControlPreferences.Store,
    effects: seq<Effect>,
    syncSettings: bool,
    broadcastChanged: bool)

  /** `onMessageReceived`. */
  function OnMessageReceived(l: Listener, store: ControlPreferences.Store, msg: Message, now: int,
                             env: PhoneMediaExecutor.Environment): (r: Outcome)
    ensures msg.path != SyncProtocol.PathMediaCommand ==> r.effects == []
    ensures msg.path != SyncProtocol.PathWatchSettingsUpdate ==> r.store == store && !r.broadcastChanged
    ensures msg.path == SyncProtocol.PathWatchSettingsUpdate ==>
              r.listener == l && r.broadcastChanged == r.syncSettings &&
              (r.syncSettings <==> ControlPreferences.Read(r.store) != ControlPreferences.Read(store))
    ensures msg.path == SyncProtocol.PathSettingsRequest ==>
              r.listener == OnSettingsRequest(l, now).listener && r.syncSettings == OnSettingsRequest(l, now).handle
    ensures msg.path == SyncProtocol.PathMediaCommand ==>
              var (action, ts) := ParseMediaCommand(msg.data);
              var v := ShouldHandle(l, action, ts, now);
              r.listener == v.listener && !r.syncSettings &&
              r.effects == (if v.handle then PhoneMediaExecutor.ExecuteAction(ControlPreferences.Read(store), action, env) else [])
    ensures msg.path !in {SyncProtocol.PathMediaCommand, SyncProtocol.PathSettingsRequest, SyncProtocol.PathWatchSettingsUpdate} ==>
              r == Outcome(l, store, [], false, false)
  {
    if msg.path == SyncProtocol.PathMediaCommand then
      var (action, ts) := ParseMediaCommand(msg.data);
      var v := ShouldHandle(l, action, ts, now);
      var effects := if v.handle then PhoneMediaExecutor.ExecuteAction(ControlPreferences.Read(store), action, env) else [];
      Outcome(v.listener, store, effects, false, false)
    else if msg.path == SyncProtocol.PathSettingsRequest then
      var v := OnSettingsRequest(l, now);
      Outcome(v.listener, store, [], v.handle, false)
    else if msg.path == SyncProtocol.PathWatchSettingsUpdate then
      var u := WatchSettingsUpdate(store, SyncProtocol.DecodeMap(msg.data));
      Outcome(l, u.store, [], u.changed, u.changed)
    else Outcome(l, store, [], false, false)
  }

  /** One event of `onDataChanged`: whether it is a change, the item's
      path, its `action` string if any, its `ts` (0 when absent), and the
      phone's elapsed-time clock when `shouldHandle` reads it for this
      item. */
  datatype DataEvent = DataEvent(changed: bool, path: string, action: Option<string>, ts: int, elapsedMs: int)

  /** Whether `onDataChanged` acts on the event at all: a change of a
      media-command item that carries an action. */
  predicate Relevant(e: DataEvent) {
    e.changed && e.path == SyncProtocol.PathMediaCommand && e.action.Some?
  }

  /** `onDataChanged`: every changed media-command item with an action
      goes through the same duplicate suppression as messages, in order,
      each at its own clock reading; every other event is skipped. */
  function OnDataChanged(l: Listener, store: ControlPreferences.Store, events: seq<DataEvent>,
                         env: PhoneMediaExecutor.Environment): (r: (Listener, seq<Effect>))
    ensures r.0.lastSettingsRequestElapsedMs == l.lastSettingsRequestElapsedMs
    ensures (forall i :: 0 <= i < |events| ==> !Relevant(events[i])) ==> r == (l, [])
    // a skipped event changes nothing
    ensures |events| > 0 && !Relevant(events[0]) ==> r == OnDataChanged(l, store, events[1..], env)
    // a relevant item is judged by `shouldHandle` first, executed if accepted, and the rest follow from the new state
    ensures |events| > 0 && Relevant(events[0]) ==>
              var e := events[0];
              var v := ShouldHandle(l, e.action.value, e.ts, e.elapsedMs);
              var rest := OnDataChanged(v.listener, store, events[1..], env);
              r.0 == rest.0 &&
              r.1 == (if v.handle then PhoneMediaExecutor.ExecuteAction(ControlPreferences.Read(store), e.action.value, env) else [])
                     + rest.1
    decreases |events|
  {
    if |events| == 0 then (l, [])
    else
      var e := events[0];
      if !Relevant(e) then
        OnDataChanged(l, store, events[1..], env)
      else
        var v := ShouldHandle(l, e.action.value, e.ts, e.elapsedMs);
        var effects := if v.handle then PhoneMediaExecutor.ExecuteAction(ControlPreferences.Read(store), e.action.value, env) else [];
        var rest := OnDataChanged(v.listener, store, events[1..], env);
        (rest.0, effects + rest.1)
  }
}

=== FILE: sync_protocol.dfy ===
/** The line-based settings wire format shared by the phone and the watch
    (`WearSyncProtocol`): a string map travels as `key=value` lines joined
    by "\n", and is read back line by line with trimming, skip rules and
    last-wins duplicates. */
module SyncProtocol {
  import opened Common
  import opened Text

  /** One map entry; a Kotlin `Map` is given as its entries in iteration
      order. */
  type Entry = (string, string)

  // Message paths.
  const PathMediaCommand: string := "/snappinch/media_command"
  const PathSettingsSync: string := "/snappinch/settings_sync"
  const PathSettingsRequest: string := "/snappinch/settings_request"
  const PathWatchSettingsUpdate: string := "/snappinch/watch_settings_update"

  // Protocol action identifiers.
  const ActionPlayPause: string := "play_pause"
  const ActionPlay: string := "play"
  const ActionPause: string := "pause"
  const ActionStop: string := "stop"
  const ActionNext: string := "next_track"
  const ActionPrevious: string := "prev_track"
  const ActionFastForward: string := "fast_forward"
  const ActionRewind: string := "rewind"
  const ActionVolumeUp: string := "volume_up"
  const ActionVolumeDown: string := "volume_down"
  const ActionMute: string := "mute"
  const ActionOpenCamera: string := "open_camera"
  const ActionLaunchAssistant: string := "launch_assistant"
  const ActionFindPhone: string := "find_phone"

  /** The fourteen protocol action identifiers. */
  function ProtocolActions(): (r: seq<string>)
    ensures |r| == 14
    ensures forall i, j :: 0 <= i < j < |r| ==> r[i] != r[j]
  {
    [ActionPlayPause, ActionPlay, ActionPause, ActionStop, ActionNext, ActionPrevious,
     ActionFastForward, ActionRewind, ActionVolumeUp, ActionVolumeDown, ActionMute,
     ActionOpenCamera, ActionLaunchAssistant, ActionFindPhone]
  }

  // Keys of the settings payloads, written as literals at both ends.
  const KeyPrimaryAction: string := "primary_action"
  const KeyReverseAction: string := "reverse_action"
  const KeyPreferExplicitPlayPause: string := "prefer_explicit_play_pause"
  const KeyAllowProxyScreenOff: string := "allow_proxy_screen_off"
  const KeyEnableOffscreenRetry: string := "enable_offscreen_retry"
  const KeyOffscreenRetryDelayMs: string := "offscreen_retry_delay_ms"
  const KeyHapticsEnabled: string := "haptics_enabled"
  const KeyRouteMediaToPhone: string := "route_media_to_phone"
  const KeyControlEnabled: string := "control_enabled"
  const KeySyncTs: string := "sync_ts"

  // Keys of the media command payload.
  const KeyAction: string := "action"
  const KeyTs: string := "ts"

  // ---------------------------------------------------------------------
  // Encoding
  // ---------------------------------------------------------------------

  function EntryLine(e: Entry): string {
    e.0 + "=" + e.1
  }

  function EntryLines(es: seq<Entry>): (r: seq<string>)
    ensures |r| == |es|
    ensures forall i :: 0 <= i < |es| ==> r[i] == EntryLine(es[i])
  {
    seq(|es|, i requires 0 <= i < |es| => EntryLine(es[i]))
  }

  /** `encodeMap`: every entry as `key=value`, joined by single "\n"
      separators and with no trailing separator. */
  function EncodeMap(es: seq<Entry>): (r: string)
    ensures |es| == 0 ==> r == ""
    ensures |es| == 1 ==> r == es[0].0 + "=" + es[0].1
  {
    JoinLines(EntryLines(es))
  }

  /** Each entry but the last is followed by a single "\n" and the
      encoding of the rest. */
  lemma EncodeMapCons(es: seq<Entry>)
    requires |es| > 1
    ensures EncodeMap(es) == es[0].0 + "=" + es[0].1 + "\n" + EncodeMap(es[1..])
  {
    assert EntryLines(es)[1..] == EntryLines(es[1..]);
  }

  // ---------------------------------------------------------------------
  // Decoding
  // ---------------------------------------------------------------------

  /** `idx` is the position of the first `=` of a line. */
  predicate FirstSeparatorAt(line: string, idx: int) {
    0 <= idx < |line| && line[idx] == '=' && '=' !in line[..idx]
  }

  /** A line has at most one first `=`, and `IndexOf` finds it. */
  lemma FirstSeparatorIsIndexOf(line: string)
    ensures forall idx :: FirstSeparatorAt(line, idx) ==> IndexOf(line, '=') == Some(idx)
  {
    forall idx | FirstSeparatorAt(line, idx) ensures IndexOf(line, '=') == Some(idx) {
      IndexOfAt(line, '=', idx);
    }
  }

  /** One line of `decodeMap`: split at the first `=`, which must be neither
      the first nor the last character, then trim both sides; an empty key
      drops the line. */
  function ParseLine(line: string): (r: Option<Entry>)
    ensures r.Some? ==> r.value.0 != "" && Trimmed(r.value.0) && Trimmed(r.value.1)
    ensures r.Some? ==> '=' !in r.value.0
    ensures '=' !in line ==> r.None?
    // the entry is the trimmed text on either side of the first `=`; the line
    // is dropped exactly when that `=` is at either end or the key trims to nothing
    ensures forall idx :: FirstSeparatorAt(line, idx) ==>
              && (r.Some? <==> 0 < idx < |line| - 1 && Trim(line[..idx]) != "")
              && (r.Some? ==> r.value == (Trim(line[..idx]), Trim(line[idx + 1..])))
    ensures |line| > 0 && line[0] == '=' ==> r.None?
    ensures |line| > 0 && line[|line| - 1] == '=' && '=' !in line[..|line| - 1] ==> r.None?
  {
    FirstSeparatorIsIndexOf(line);
    match IndexOf(line, '=')
    case None => None
    case Some(idx) =>
      assert idx > 0 ==> line[..idx][0] == line[0];
      assert idx < |line| - 1 ==> line[..|line| - 1][idx] == '=';
      if idx == 0 || idx == |line| - 1 then None
      else
        var key := Trim(line[..idx]);
        var value := Trim(line[idx + 1..]);
        TrimKeepsOut(line[..idx], '=');
        if key == "" then None else Some((key, value))
  }

  /** `mapNotNull` of the line parser over the lines. */
  function ParsedEntries(lines: seq<string>): (r: seq<Entry>)
    ensures |r| <= |lines|
    ensures forall i :: 0 <= i < |r| ==> r[i].0 != "" && Trimmed(r[i].0) && Trimmed(r[i].1) && '=' !in r[i].0
    decreases |lines|
  {
    if |lines| == 0 then []
    else
      match ParseLine(lines[0])
      case None => ParsedEntries(lines[1..])
      case Some(e) => [e] + ParsedEntries(lines[1..])
  }

  /** One line gives its entry when it parses and nothing otherwise. */
  lemma ParsedEntriesOfLine(line: string)
    ensures ParsedEntries([line]) == (if ParseLine(line).Some? then [ParseLine(line).value] else [])
  {
    assert [line][1..] == [];
  }

  /** Parsing consecutive blocks of lines concatenates their entries, so the
      entries come in the order of their lines. */
  lemma {:induction false} ParsedEntriesAppend(a: seq<string>, b: seq<string>)
    ensures ParsedEntries(a + b) == ParsedEntries(a) + ParsedEntries(b)
    decreases |a|
  {
    if |a| > 0 {
      assert (a + b)[1..] == a[1..] + b;
      ParsedEntriesAppend(a[1..], b);
    } else {
      assert a + b == b;
    }
  }

  /** Some line parses to the entry. */
  predicate FromLine(lines: seq<string>, e: Entry) {
    exists j :: 0 <= j < |lines| && ParseLine(lines[j]) == Some(e)
  }

  /** Every entry comes from a line that parses to it. */
  lemma {:induction false} ParsedEntriesFromLines(lines: seq<string>)
    ensures forall i :: 0 <= i < |ParsedEntries(lines)| ==> FromLine(lines, ParsedEntries(lines)[i])
    decreases |lines|
  {
    if |lines| > 0 {
      var rest := lines[1..];
      ParsedEntriesFromLines(rest);
      var tail := ParsedEntries(rest);
      forall i | 0 <= i < |tail| ensures FromLine(lines, tail[i]) {
        var j :| 0 <= j < |rest| && ParseLine(rest[j]) == Some(tail[i]);
        assert lines[j + 1] == rest[j];
      }
      if ParseLine(lines[0]).Some? {
        var r := ParsedEntries(lines);
        assert r == [ParseLine(lines[0]).value] + tail;
        forall i | 0 <= i < |r| ensures FromLine(lines, r[i]) {
          if i > 0 { assert r[i] == tail[i - 1]; }
        }
      }
    }
  }

  /** Every line that parses contributes its entry. */
  lemma {:induction false} LinesGiveEntries(lines: seq<string>)
    ensures forall j :: 0 <= j < |lines| && ParseLine(lines[j]).Some? ==> ParseLine(lines[j]).value in ParsedEntries(lines)
    decreases |lines|
  {
    if |lines| > 0 {
      var rest := lines[1..];
      LinesGiveEntries(rest);
      var tail := ParsedEntries(rest);
      if ParseLine(lines[0]).Some? {
        assert ParsedEntries(lines) == [ParseLine(lines[0]).value] + tail;
      } else {
        assert ParsedEntries(lines) == tail;
      }
      forall j | 0 < j < |lines| && ParseLine(lines[j]).Some? ensures ParseLine(lines[j]).value in ParsedEntries(lines) {
        assert lines[j] == rest[j - 1];
      }
    }
  }

  /** Kotlin's `toMap()` on a list of pairs: later pairs overwrite earlier
      ones. */
  function ToMap(es: seq<Entry>): (m: map<string, string>)
    decreases |es|
  {
    if |es| == 0 then map[]
    else
      var last := es[|es| - 1];
      ToMap(es[..|es| - 1])[last.0 := last.1]
  }

  /** `decodeMap`: blank text decodes to the empty map; otherwise every line
      that parses contributes its entry, and the last occurrence of a key
      wins. */
  function DecodeMap(text: string): (r: map<string, string>)
    ensures IsBlank(text) ==> r == map[]
    ensures forall k :: k in r ==> k != "" && Trimmed(k) && Trimmed(r[k]) && '=' !in k
  {
    if IsBlank(text) then map[]
    else
      var es := ParsedEntries(Lines(text));
      ToMapValues(es);
      ToMap(es)
  }

  // ---------------------------------------------------------------------
  // Properties
  // ---------------------------------------------------------------------

  /** Every value of `ToMap` comes from some entry with that key. */
  lemma {:induction false} ToMapValues(es: seq<Entry>)
    ensures forall k :: k in ToMap(es) ==> exists i :: 0 <= i < |es| && es[i] == (k, ToMap(es)[k])
    decreases |es|
  {
    if |es| > 0 {
      var init := es[..|es| - 1];
      ToMapValues(init);
      forall k | k in ToMap(es) ensures exists i :: 0 <= i < |es| && es[i] == (k, ToMap(es)[k]) {
        if k == es[|es| - 1].0 {
          assert es[|es| - 1] == (k, ToMap(es)[k]);
        } else {
          var i :| 0 <= i < |init| && init[i] == (k, ToMap(init)[k]);
          assert es[i] == init[i];
        }
      }
    }
  }

  /** `ToMap` holds exactly the keys of its entries. */
  lemma {:induction false} ToMapKeys(es: seq<Entry>)
    ensures forall k :: k in ToMap(es) <==> exists i :: 0 <= i < |es| && es[i].0 == k
    decreases |es|
  {
    if |es| > 0 {
      var init := es[..|es| - 1];
      ToMapKeys(init);
      forall k ensures k in ToMap(es) <==> exists i :: 0 <= i < |es| && es[i].0 == k {
        if k in ToMap(init) {
          var i :| 0 <= i < |init| && init[i].0 == k;
          assert es[i].0 == k;
        }
        if exists i :: 0 <= i < |es| && es[i].0 == k {
          var i :| 0 <= i < |es| && es[i].0 == k;
          if i < |init| { assert init[i].0 == k; }
        }
      }
    }
  }

  /** Last wins: a key's value is the value of its last occurrence. */
  lemma {:induction false} ToMapLastWins(es: seq<Entry>, i: nat)
    requires i < |es|
    requires forall j :: i < j < |es| ==> es[j].0 != es[i].0
    ensures es[i].0 in ToMap(es) && ToMap(es)[es[i].0] == es[i].1
    decreases |es|
  {
    if i < |es| - 1 {
      var init := es[..|es| - 1];
      ToMapLastWins(init, i);
    }
  }

  /** A line written by the encoder parses back to the entry it came from. */
  lemma ParseEntryLine(e: Entry)
    requires CleanEntry(e)
    ensures ParseLine(EntryLine(e)) == Some(e)
  {
    var line := EntryLine(e);
    var idx := |e.0|;
    assert line[..idx] == e.0;
    assert line[idx + 1..] == e.1;
    assert line[idx] == '=';
    IndexOfAt(line, '=', idx);
    TrimTrimmed(e.0);
    TrimTrimmed(e.1);
  }

  /** An entry the encoder can carry faithfully: non-empty key and value,
      both without surrounding whitespace or line breaks, and no `=` in the
      key. */
  predicate CleanEntry(e: Entry) {
    && e.0 != "" && e.1 != ""
    && Trimmed(e.0) && Trimmed(e.1)
    && NoLineBreaks(e.0) && NoLineBreaks(e.1)
    && '=' !in e.0
  }

  lemma {:induction false} ParsedEntriesOfEncoded(es: seq<Entry>)
    requires forall i :: 0 <= i < |es| ==> CleanEntry(es[i])
    ensures ParsedEntries(EntryLines(es)) == es
    decreases |es|
  {
    if |es| > 0 {
      var lines := EntryLines(es);
      ParseEntryLine(es[0]);
      assert lines[0] == EntryLine(es[0]);
      assert ParseLine(lines[0]) == Some(es[0]);
      assert lines[1..] == EntryLines(es[1..]);
      ParsedEntriesOfEncoded(es[1..]);
      calc {
        ParsedEntries(lines);
        [es[0]] + ParsedEntries(lines[1..]);
        [es[0]] + es[1..];
        es;
      }
    }
  }

  /** An encoded entry holds no line break of its own. */
  lemma EntryLineNoBreaks(e: Entry)
    requires NoLineBreaks(e.0) && NoLineBreaks(e.1)
    ensures NoLineBreaks(EntryLine(e))
  {
    var line := EntryLine(e);
    forall k | 0 <= k < |line| ensures !IsLineBreak(line[k]) {
      if k < |e.0| { assert line[k] == e.0[k]; }
      else if k > |e.0| { assert line[k] == e.1[k - |e.0| - 1]; }
    }
  }

  /** Lines without a separator yield no entry. */
  lemma {:induction false} NoSeparatorNoEntries(lines: seq<string>)
    requires forall i :: 0 <= i < |lines| ==> '=' !in lines[i]
    ensures ParsedEntries(lines) == []
    decreases |lines|
  {
    if |lines| > 0 {
      NoSeparatorNoEntries(lines[1..]);
    }
  }

  /** A text without `=` decodes to the empty map: none of its lines has
      a separator. */
  lemma DecodeWithoutSeparator(text: string)
    requires '=' !in text
    ensures DecodeMap(text) == map[]
  {
    if !IsBlank(text) {
      LinesKeepOut(text, '=');
      NoSeparatorNoEntries(Lines(text));
    }
  }

  /** The map of the entries of some lines: every key and value come from
      one line that parses to them, and every line that parses puts its
      key in the map. */
  lemma MapOfLines(lines: seq<string>)
    ensures forall k :: k in ToMap(ParsedEntries(lines)) ==> FromLine(lines, (k, ToMap(ParsedEntries(lines))[k]))
    ensures forall j :: 0 <= j < |lines| && ParseLine(lines[j]).Some? ==>
              ParseLine(lines[j]).value.0 in ToMap(ParsedEntries(lines))
  {
    var es := ParsedEntries(lines);
    ToMapValues(es);
    ToMapKeys(es);
    ParsedEntriesFromLines(lines);
    LinesGiveEntries(lines);
    forall k | k in ToMap(es) ensures FromLine(lines, (k, ToMap(es)[k])) {
      var i :| 0 <= i < |es| && es[i] == (k, ToMap(es)[k]);
    }
    forall j | 0 <= j < |lines| && ParseLine(lines[j]).Some? ensures ParseLine(lines[j]).value.0 in ToMap(es) {
      var i :| 0 <= i < |es| && es[i] == ParseLine(lines[j]).value;
    }
  }

  /** The entries of the lines before a parsing line, its entry, then the
      entries of the lines after it. */
  lemma ParsedEntriesAround(lines: seq<string>, j: nat)
    requires j < |lines| && ParseLine(lines[j]).Some?
    ensures ParsedEntries(lines) == ParsedEntries(lines[..j]) + [ParseLine(lines[j]).value] + ParsedEntries(lines[j + 1..])
  {
    var before, line, after := lines[..j], [lines[j]], lines[j + 1..];
    SplitAround(lines, j);
    ParsedEntriesAppend(before + line, after);
    ParsedEntriesAppend(before, line);
    ParsedEntriesOfLine(lines[j]);
    calc {
      ParsedEntries(lines);
      ParsedEntries(before + line) + ParsedEntries(after);
      ParsedEntries(before) + ParsedEntries(line) + ParsedEntries(after);
    }
  }

  /** In the map of some lines, the last line with a key decides its
      value. */
  lemma LastLineWins(lines: seq<string>, j: nat)
    requires j < |lines| && ParseLine(lines[j]).Some?
    requires forall k :: j < k < |lines| && ParseLine(lines[k]).Some? ==> ParseLine(lines[k]).value.0 != ParseLine(lines[j]).value.0
    ensures var e := ParseLine(lines[j]).value;
      e.0 in ToMap(ParsedEntries(lines)) && ToMap(ParsedEntries(lines))[e.0] == e.1
  {
    var e := ParseLine(lines[j]).value;
    var after := lines[j + 1..];
    ParsedEntriesAround(lines, j);
    var es, pa, pb := ParsedEntries(lines), ParsedEntries(lines[..j]), ParsedEntries(after);
    ParsedEntriesFromLines(after);
    forall i | |pa| < i < |es| ensures es[i].0 != e.0 {
      var f := pb[i - |pa| - 1];
      assert es[i] == f;
      assert FromLine(after, f);
      var k :| 0 <= k < |after| && ParseLine(after[k]) == Some(f);
      assert after[k] == lines[j + 1 + k];
    }
    ToMapLastWins(es, |pa|);
  }

  /** What `decodeMap` keeps of a text that is not blank: every decoded key
      and value come from one line that parses to them, and every line that
      parses puts its key in the map. */
  lemma DecodedFromLines(text: string)
    requires !IsBlank(text)
    ensures forall k :: k in DecodeMap(text) ==> FromLine(Lines(text), (k, DecodeMap(text)[k]))
    ensures forall j :: 0 <= j < |Lines(text)| && ParseLine(Lines(text)[j]).Some? ==>
              ParseLine(Lines(text)[j]).value.0 in DecodeMap(text)
  {
    MapOfLines(Lines(text));
  }

  /** The last line of a text with a key decides its decoded value. */
  lemma DecodeLastLineWins(text: string, j: nat)
    requires !IsBlank(text) && j < |Lines(text)| && ParseLine(Lines(text)[j]).Some?
    requires forall k :: j < k < |Lines(text)| && ParseLine(Lines(text)[k]).Some? ==>
               ParseLine(Lines(text)[k]).value.0 != ParseLine(Lines(text)[j]).value.0
    ensures var e := ParseLine(Lines(text)[j]).value;
      e.0 in DecodeMap(text) && DecodeMap(text)[e.0] == e.1
  {
    LastLineWins(Lines(text), j);
  }

  /** Round trip: decoding what the encoder wrote gives back the entries,
      in order, and hence the map they describe. */
  lemma RoundTrip(es: seq<Entry>)
    requires forall i :: 0 <= i < |es| ==> CleanEntry(es[i])
    ensures |es| > 0 ==> ParsedEntries(Lines(EncodeMap(es))) == es
    ensures DecodeMap(EncodeMap(es)) == ToMap(es)
  {
    if |es| > 0 {
      LinesOfEncoded(es);
      ParsedEntriesOfEncoded(es);
    }
  }

  /** The encoder's text splits back into its entry lines, and is not
      blank. */
  lemma LinesOfEncoded(es: seq<Entry>)
    requires |es| > 0
    requires forall i :: 0 <= i < |es| ==> CleanEntry(es[i])
    ensures Lines(EncodeMap(es)) == EntryLines(es)
    ensures !IsBlank(EncodeMap(es))
  {
    var ls := EntryLines(es);
    forall i | 0 <= i < |ls| ensures NoLineBreaks(ls[i]) {
      EntryLineNoBreaks(es[i]);
    }
    LinesOfJoin(ls);
    var text := EncodeMap(es);
    assert text[0] == es[0].0[0];
  }

  /** With distinct keys, the round trip maps every key to its value. */
  lemma RoundTripLookup(es: seq<Entry>, i: nat)
    requires forall j :: 0 <= j < |es| ==> CleanEntry(es[j])
    requires forall j, k :: 0 <= j < k < |es| ==> es[j].0 != es[k].0
    requires i < |es|
    ensures es[i].0 in DecodeMap(EncodeMap(es)) && DecodeMap(EncodeMap(es))[es[i].0] == es[i].1
  {
    RoundTrip(es);
    ToMapLastWins(es, i);
  }
}

=== FILE: text.dfy ===
/** The Kotlin standard-library string operations the settings wire format
    and the preference merges rely on: `isBlank`, `trim`, `indexOf`,
    `startsWith`, `lineSequence`, `toBooleanStrictOrNull`, `toIntOrNull`,
    `toLongOrNull` and `toString` on integers and booleans. Text is a
    sequence of characters; UTF-8 decoding is not modelled. */
module Text {
  import opened Common

  // ---------------------------------------------------------------------
  // Whitespace, blankness and trimming
  // ---------------------------------------------------------------------

  /** Kotlin's `Char.isWhitespace()`: the ASCII controls 9..13 and 28..31,
      and the Unicode space, line and paragraph separators. */
  predicate IsWhitespace(c: char) {
    || ('\t' <= c <= '\r')
    || ('\U{1C}' <= c <= '\U{1F}')
    || c == ' '
    || c == '\U{A0}'
    || c == '\U{1680}'
    || ('\U{2000}' <= c <= '\U{200A}')
    || c == '\U{2028}'
    || c == '\U{2029}'
    || c == '\U{202F}'
    || c == '\U{205F}'
    || c == '\U{3000}'
  }

  /** Kotlin's `CharSequence.isBlank()`. */
  predicate IsBlank(s: string) {
    forall i :: 0 <= i < |s| ==> IsWhitespace(s[i])
  }

  /** A string `trim()` leaves unchanged: it neither starts nor ends with
      whitespace. */
  predicate Trimmed(s: string) {
    |s| == 0 || (!IsWhitespace(s[0]) && !IsWhitespace(s[|s| - 1]))
  }

  /** The first position at or after `i` that is not whitespace, or `|s|`. */
  function SkipBlanks(s: string, i: nat): (n: nat)
    requires i <= |s|
    ensures i <= n <= |s|
    ensures forall k :: i <= k < n ==> IsWhitespace(s[k])
    ensures n < |s| ==> !IsWhitespace(s[n])
    decreases |s| - i
  {
    if i < |s| && IsWhitespace(s[i]) then SkipBlanks(s, i + 1) else i
  }

  /** The end of `s[lo..j]` once its trailing whitespace is dropped. */
  function DropTrailingBlanks(s: string, lo: nat, j: nat): (n: nat)
    requires lo <= j <= |s|
    ensures lo <= n <= j
    ensures forall k :: n <= k < j ==> IsWhitespace(s[k])
    ensures n > lo ==> !IsWhitespace(s[n - 1])
    decreases j
  {
    if j > lo && IsWhitespace(s[j - 1]) then DropTrailingBlanks(s, lo, j - 1) else j
  }

  /** How many leading characters `Trim` drops. */
  function TrimOffset(s: string): (n: nat)
    ensures n <= |s|
  {
    SkipBlanks(s, 0)
  }

  /** Kotlin's `String.trim()`: drops leading and trailing whitespace; what
      remains is the part of `s` between its blank ends. */
  function Trim(s: string): (r: string)
    ensures Trimmed(r)
    ensures TrimOffset(s) + |r| <= |s| && r == s[TrimOffset(s)..TrimOffset(s) + |r|]
  {
    var lo := TrimOffset(s);
    var hi := DropTrailingBlanks(s, lo, |s|);
    assert hi > lo ==> s[lo..hi][0] == s[lo] && s[lo..hi][hi - lo - 1] == s[hi - 1];
    s[lo..hi]
  }

  /** Trimming adds no character that was not there. */
  lemma TrimKeepsOut(s: string, c: char)
    requires c !in s
    ensures c !in Trim(s)
  {
    var off := TrimOffset(s);
    var r := Trim(s);
    assert forall k :: 0 <= k < |r| ==> r[k] == s[off + k];
  }

  /** What `Trim` drops is blank, and it leaves nothing exactly when the
      whole string is blank. */
  lemma TrimDropsBlanks(s: string)
    ensures IsBlank(s[..TrimOffset(s)]) && IsBlank(s[TrimOffset(s) + |Trim(s)|..])
    ensures Trim(s) == "" <==> IsBlank(s)
  {
    var lo := TrimOffset(s);
    var hi := lo + |Trim(s)|;
    assert hi == DropTrailingBlanks(s, lo, |s|);
    assert forall k :: 0 <= k < lo ==> s[..lo][k] == s[k];
    assert forall k :: 0 <= k < |s| - hi ==> s[hi..][k] == s[hi + k];
    if hi > lo {
      assert !IsWhitespace(s[lo]);
    }
  }

  /** Trimming an already trimmed string changes nothing. */
  lemma TrimTrimmed(s: string)
    requires Trimmed(s)
    ensures Trim(s) == s
  {
  }

  // ---------------------------------------------------------------------
  // Searching
  // ---------------------------------------------------------------------

  /** Kotlin's `indexOf(c)`, with `None` for the source's `-1`. */
  function IndexOf(s: string, c: char): (r: Option<nat>)
    ensures r.Some? ==> r.value < |s| && s[r.value] == c && c !in s[..r.value]
    ensures r.None? <==> c !in s
    decreases |s|
  {
    if |s| == 0 then None
    else if s[0] == c then Some(0)
    else match IndexOf(s[1..], c)
      case None => None
      case Some(i) =>
        assert s[..i + 1] == [s[0]] + s[1..][..i];
        Some(i + 1)
  }

  /** The first occurrence is the one with no occurrence before it. */
  lemma {:induction false} IndexOfAt(s: string, c: char, k: nat)
    requires k < |s| && s[k] == c && c !in s[..k]
    ensures IndexOf(s, c) == Some(k)
    decreases k
  {
    if k > 0 {
      assert s[0] == s[..k][0];
      assert s[1..][..k - 1] == s[..k][1..];
      IndexOfAt(s[1..], c, k - 1);
    }
  }

  /** Kotlin's `startsWith(prefix)`. */
  predicate StartsWith(s: string, prefix: string) {
    |prefix| <= |s| && s[..|prefix|] == prefix
  }

  // ---------------------------------------------------------------------
  // Lines
  // ---------------------------------------------------------------------

  predicate IsLineBreak(c: char) {
    c == '\n' || c == '\r'
  }

  predicate NoLineBreaks(s: string) {
    forall i :: 0 <= i < |s| ==> !IsLineBreak(s[i])
  }

  /** A string holds no line break exactly when it contains neither break
      character. */
  lemma NoLineBreaksByMembership(s: string)
    ensures NoLineBreaks(s) <==> '\n' !in s && '\r' !in s
  {
    if '\n' in s {
      var i :| 0 <= i < |s| && s[i] == '\n';
    }
    if '\r' in s {
      var i :| 0 <= i < |s| && s[i] == '\r';
    }
  }

  function FirstLineBreak(s: string): (r: Option<nat>)
    ensures r.Some? ==> r.value < |s| && IsLineBreak(s[r.value]) && NoLineBreaks(s[..r.value])
    ensures r.None? <==> NoLineBreaks(s)
    decreases |s|
  {
    if |s| == 0 then None
    else if IsLineBreak(s[0]) then Some(0)
    else match FirstLineBreak(s[1..])
      case None => None
      case Some(i) =>
        assert s[..i + 1] == [s[0]] + s[1..][..i];
        Some(i + 1)
  }

  /** Kotlin's `lineSequence()`: splits at every "\r\n", "\n" or "\r"; the
      result always has at least one (possibly empty) line. */
  function Lines(s: string): (r: seq<string>)
    ensures |r| >= 1
    ensures forall i :: 0 <= i < |r| ==> NoLineBreaks(r[i])
    decreases |s|
  {
    match FirstLineBreak(s)
    case None => [s]
    case Some(i) =>
      var next := if s[i] == '\r' && i + 1 < |s| && s[i + 1] == '\n' then i + 2 else i + 1;
      [s[..i]] + Lines(s[next..])
  }

  /** Kotlin's `joinToString("\n")`. */
  function JoinLines(ls: seq<string>): (r: string)
    decreases |ls|
  {
    if |ls| == 0 then ""
    else if |ls| == 1 then ls[0]
    else ls[0] + "\n" + JoinLines(ls[1..])
  }

  /** The first line break is the one that has no line break before it. */
  lemma {:induction false} FirstLineBreakAt(s: string, k: nat)
    requires k < |s| && IsLineBreak(s[k]) && NoLineBreaks(s[..k])
    ensures FirstLineBreak(s) == Some(k)
    decreases k
  {
    if k > 0 {
      assert s[0] == s[..k][0];
      assert s[1..][..k - 1] == s[..k][1..];
      FirstLineBreakAt(s[1..], k - 1);
    }
  }

  lemma FirstLineBreakOfJoin(a: string, b: string)
    requires NoLineBreaks(a)
    ensures FirstLineBreak(a + "\n" + b) == Some(|a|)
  {
    var s := a + "\n" + b;
    assert s[..|a|] == a;
    FirstLineBreakAt(s, |a|);
  }

  /** A line followed by "\n" splits off as the first line. */
  lemma LinesOfBreak(a: string, rest: string)
    requires NoLineBreaks(a)
    ensures Lines(a + "\n" + rest) == [a] + Lines(rest)
  {
    var s := a + "\n" + rest;
    FirstLineBreakOfJoin(a, rest);
    assert s[|a|] == '\n';
    assert s[..|a|] == a;
    assert s[|a| + 1..] == rest;
  }

  /** The three line terminators of `lineSequence`: a text without a break
      is one line; "\r\n", "\n" and a lone "\r" each end a line, and what
      follows a terminator — an empty rest included — is split in turn, so
      a trailing terminator leaves a last empty line. */
  lemma LinesSplitAtBreaks(a: string, b: string)
    requires NoLineBreaks(a)
    ensures Lines(a) == [a]
    ensures Lines(a + "\r\n" + b) == [a] + Lines(b)
    ensures Lines(a + "\n" + b) == [a] + Lines(b)
    ensures |b| == 0 || b[0] != '\n' ==> Lines(a + "\r" + b) == [a] + Lines(b)
  {
    LinesOfBreak(a, b);
    var crlf := a + "\r\n" + b;
    assert crlf[..|a|] == a && crlf[|a|] == '\r' && crlf[|a| + 1] == '\n';
    FirstLineBreakAt(crlf, |a|);
    assert crlf[|a| + 2..] == b;
    var cr := a + "\r" + b;
    assert cr[..|a|] == a && cr[|a|] == '\r';
    FirstLineBreakAt(cr, |a|);
    assert cr[|a| + 1..] == b;
  }

  /** Every line holds only characters of the text it came from. */
  lemma {:induction false} LinesKeepOut(s: string, c: char)
    requires c !in s
    ensures forall i :: 0 <= i < |Lines(s)| ==> c !in Lines(s)[i]
    decreases |s|
  {
    match FirstLineBreak(s)
    case None =>
    case Some(i) =>
      var next := if s[i] == '\r' && i + 1 < |s| && s[i + 1] == '\n' then i + 2 else i + 1;
      assert forall k :: 0 <= k < |s[next..]| ==> s[next..][k] == s[next + k];
      assert forall k :: 0 <= k < i ==> s[..i][k] == s[k];
      LinesKeepOut(s[next..], c);
  }

  /** Splitting joined lines gives the lines back when none of them holds
      a line break. */
  lemma {:induction false} LinesOfJoin(ls: seq<string>)
    requires |ls| >= 1
    requires forall i :: 0 <= i < |ls| ==> NoLineBreaks(ls[i])
    ensures Lines(JoinLines(ls)) == ls
    decreases |ls|
  {
    if |ls| == 1 {
      assert FirstLineBreak(ls[0]).None?;
    } else {
      var rest := JoinLines(ls[1..]);
      assert JoinLines(ls) == ls[0] + "\n" + rest;
      LinesOfBreak(ls[0], rest);
      LinesOfJoin(ls[1..]);
      assert ls == [ls[0]] + ls[1..];
    }
  }

  // ---------------------------------------------------------------------
  // Booleans and integers as text
  // ---------------------------------------------------------------------

  /** Kotlin's `toBooleanStrictOrNull()`: only the exact strings "true" and
      "false" are booleans. */
  function ParseBoolStrict(s: string): (r: Option<bool>)
    ensures r == Some(true) <==> s == "true"
    ensures r == Some(false) <==> s == "false"
  {
    if s == "true" then Some(true) else if s == "false" then Some(false) else None
  }

  /** Kotlin's `Boolean.toString()`. */
  function BoolToString(b: bool): string {
    if b then "true" else "false"
  }

  predicate IsDigit(c: char) {
    '0' <= c <= '9'
  }

  predicate AllDigits(s: string) {
    forall i :: 0 <= i < |s| ==> IsDigit(s[i])
  }

  function DigitValue(c: char): nat
    requires IsDigit(c)
  {
    (c as int - '0' as int) as nat
  }

  function DigitChar(d: nat): (c: char)
    requires d < 10
    ensures IsDigit(c) && DigitValue(c) == d
  {
    ('0' as int + d) as char
  }

  /** The value of a string of decimal digits, read left to right. */
  function DigitsValue(s: string): nat
    requires AllDigits(s)
    decreases |s|
  {
    if |s| == 0 then 0 else DigitsValue(s[..|s| - 1]) * 10 + DigitValue(s[|s| - 1])
  }

  /** Parses an optional `+` or `-` followed by at least one decimal digit,
      rejecting values outside `[lo, hi]`: Kotlin's `toIntOrNull` and
      `toLongOrNull` with the bounds of `Int` and `Long`. */
  function ParseSigned(s: string, lo: int, hi: int): (r: Option<int>)
    ensures r.Some? ==> lo <= r.value <= hi
    ensures |s| == 0 ==> r.None?
  {
    if |s| == 0 then None
    else if s[0] == '-' || s[0] == '+' then
      if |s| == 1 || !AllDigits(s[1..]) then None
      else
        var magnitude: int := DigitsValue(s[1..]);
        var v := if s[0] == '-' then -magnitude else magnitude;
        if lo <= v <= hi then Some(v) else None
    else if !AllDigits(s) then None
    else
      var v := DigitsValue(s);
      if lo <= v <= hi then Some(v) else None
  }

  /** `s` is `sign` followed by the decimal digits `ds`, where the sign is
      empty, `+` or `-`: the only texts Kotlin reads as integers. */
  predicate SignedForm(s: string, sign: string, ds: string) {
    (sign == "" || sign == "+" || sign == "-") && |ds| >= 1 && AllDigits(ds) && s == sign + ds
  }

  /** The integer a sign and its digits denote. */
  function SignedValue(sign: string, ds: string): int
    requires AllDigits(ds)
  {
    if sign == "-" then -(DigitsValue(ds) as int) else DigitsValue(ds)
  }

  /** The parser reads exactly the signed decimal texts: a text of that
      form parses to its value when the value is within the bounds and to
      nothing otherwise, and a text of any other form parses to nothing. */
  lemma ParseSignedForms(s: string, lo: int, hi: int)
    ensures forall sign, ds :: SignedForm(s, sign, ds) ==>
              ParseSigned(s, lo, hi) == (if lo <= SignedValue(sign, ds) <= hi then Some(SignedValue(sign, ds)) else None)
    ensures ParseSigned(s, lo, hi).Some? ==>
              exists sign, ds :: SignedForm(s, sign, ds) && ParseSigned(s, lo, hi).value == SignedValue(sign, ds)
  {
    forall sign, ds | SignedForm(s, sign, ds)
      ensures ParseSigned(s, lo, hi) == (if lo <= SignedValue(sign, ds) <= hi then Some(SignedValue(sign, ds)) else None)
    {
      if sign == "" {
        assert s == ds;
        assert IsDigit(s[0]);
      } else {
        assert s[0] == sign[0];
        assert s[1..] == ds;
      }
    }
    var r := ParseSigned(s, lo, hi);
    if r.Some? {
      if s[0] == '-' || s[0] == '+' {
        var sign, ds := [s[0]], s[1..];
        assert s == sign + ds;
        assert SignedForm(s, sign, ds);
      } else {
        assert s == "" + s;
        assert SignedForm(s, "", s);
      }
    }
  }

  /** Kotlin's `String.toIntOrNull()`: a signed decimal text whose value
      fits in an `Int`, and nothing for any other text. */
  function ParseInt(s: string): (r: Option<int>)
    ensures r.Some? ==> IntMin <= r.value <= IntMax
    ensures forall sign, ds :: SignedForm(s, sign, ds) ==>
              r == (if IntMin <= SignedValue(sign, ds) <= IntMax then Some(SignedValue(sign, ds)) else None)
    ensures r.Some? ==> exists sign, ds :: SignedForm(s, sign, ds) && r.value == SignedValue(sign, ds)
  {
    ParseSignedForms(s, IntMin, IntMax);
    ParseSigned(s, IntMin, IntMax)
  }

  /** Kotlin's `String.toLongOrNull()`: a signed decimal text whose value
      fits in a `Long`, and nothing for any other text. */
  function ParseLong(s: string): (r: Option<int>)
    ensures r.Some? ==> LongMin <= r.value <= LongMax
    ensures forall sign, ds :: SignedForm(s, sign, ds) ==>
              r == (if LongMin <= SignedValue(sign, ds) <= LongMax then Some(SignedValue(sign, ds)) else None)
    ensures r.Some? ==> exists sign, ds :: SignedForm(s, sign, ds) && r.value == SignedValue(sign, ds)
  {
    ParseSignedForms(s, LongMin, LongMax);
    ParseSigned(s, LongMin, LongMax)
  }

  /** The decimal digits of `n`, most significant first, without leading
      zeros. */
  function NatToDigits(n: nat): (r: string)
    ensures |r| >= 1 && AllDigits(r)
    decreases n
  {
    if n < 10 then [DigitChar(n)] else NatToDigits(n / 10) + [DigitChar(n % 10)]
  }

  /** Kotlin's `Int.toString()` / `Long.toString()`: a minus sign exactly
      for a negative number, then its decimal digits. */
  function IntToString(n: int): (r: string)
    ensures |r| >= 1
    ensures n < 0 <==> r[0] == '-'
    ensures n < 0 ==> |r| >= 2 && AllDigits(r[1..])
    ensures n >= 0 ==> AllDigits(r)
  {
    if n < 0 then "-" + NatToDigits(-n) else NatToDigits(n)
  }

  lemma {:induction false} DigitsRoundTrip(n: nat)
    ensures DigitsValue(NatToDigits(n)) == n
    decreases n
  {
    if n >= 10 {
      var ds := NatToDigits(n / 10) + [DigitChar(n % 10)];
      assert ds[..|ds| - 1] == NatToDigits(n / 10);
      DigitsRoundTrip(n / 10);
    }
  }

  /** Digits without a sign parse as their value, within the bounds. */
  lemma ParseUnsigned(ds: string, lo: int, hi: int)
    requires |ds| >= 1 && AllDigits(ds)
    ensures ParseSigned(ds, lo, hi) == (if lo <= DigitsValue(ds) <= hi then Some(DigitsValue(ds) as int) else None)
  {
    assert IsDigit(ds[0]);
  }

  /** Digits after a minus sign parse as the negated value, within the
      bounds. */
  lemma ParseNegative(s: string, lo: int, hi: int)
    requires |s| >= 2 && s[0] == '-' && AllDigits(s[1..])
    ensures var v: int := DigitsValue(s[1..]);
      ParseSigned(s, lo, hi) == (if lo <= -v <= hi then Some(-v) else None)
  {
  }

  /** Printing an integer and parsing it back gives the same integer,
      whenever it lies within the parser's bounds. */
  lemma IntToStringRoundTrip(n: int, lo: int, hi: int)
    requires lo <= n <= hi
    ensures ParseSigned(IntToString(n), lo, hi) == Some(n)
  {
    if n < 0 {
      var ds := NatToDigits(-n);
      var s := "-" + ds;
      assert s[1..] == ds;
      assert IntToString(n) == s;
      ParseNegative(s, lo, hi);
      DigitsRoundTrip(-n);
    } else {
      assert IntToString(n) == NatToDigits(n);
      ParseUnsigned(NatToDigits(n), lo, hi);
      DigitsRoundTrip(n);
    }
  }

  /** Printed integers are clean wire values: non-empty, no surrounding
      whitespace, no line break and no `=`. */
  lemma IntToStringClean(n: int)
    ensures Trimmed(IntToString(n)) && NoLineBreaks(IntToString(n)) && '=' !in IntToString(n)
  {
    var s := IntToString(n);
    var ds := NatToDigits(if n < 0 then -n else n);
    assert forall i :: 0 <= i < |ds| ==> IsDigit(ds[i]);
    if n < 0 {
      assert s == "-" + ds;
      assert forall i :: 1 <= i < |s| ==> s[i] == ds[i - 1];
    }
  }
}

=== FILE: twist_classifier.dfy ===
/** The triple-twist gesture classifier (`PinchGestureClassifier`).

    Each gyroscope reading is stored with its magnitude; quiet readings feed
    a bounded baseline window whose upper median is the noise floor. On every
    sample the current reading may become a twist: a spike well above the
    noise floor that rotates mainly about the X axis, with direction given by
    the sign of X. Twists pass through four time gates (cooldown, sequence
    expiry, debounce, minimum interval) into a sequence of at most three
    members, and a +/-/+ or -/+/- sequence completes the gesture.

    Magnitudes are reals supplied by the caller (the source takes a float
    square root); float rounding is not modelled. */
module TwistClassifier {

  const MinTwistSpeed: real := 5.5
  const MaxTwistSpeed: real := 35.0
  const MinIntervalMs: int := 100
  const MaxTotalTimeMs: int := 1200
  const CooldownMs: int := 1000
  const DebounceMs: int := 50
  const BaselineWindow: nat := 20
  const SpikeRatio: real := 2.0
  const MinPrimaryAxisSpeed: real := 4.2
  const MinAxisDominanceRatio: real := 1.35
  const MaxOffAxisFraction: real := 0.8
  /** Added to the off-axis sum before dividing. */
  const OffAxisEpsilon: real := 0.001
  /** The noise floor used while the window holds fewer than three samples. */
  const DefaultBaseline: real := 2.0

  datatype TwistEvent = TwistEvent(timestamp: int, rotationSpeed: real, direction: int)

  datatype Classifier = Classifier(
    twistSequence: seq<TwistEvent>,
    lastTriggerTime: int,
    lastTwistTime: int,
    recentGyro: seq<real>,
    gyroX: real,
    gyroY: real,
    gyroZ: real,
    gyroMag: real,
    sampleCount: int,
    totalTwists: int)

  /** The result of one call of `processSample` or `processTwist`. */
  datatype Step = Step(state: Classifier, fired: bool)

  /** A newly constructed classifier. */
  function Fresh(): Classifier {
    Classifier([], 0, 0, [], 0.0, 0.0, 0.0, 0.0, 0, 0)
  }

  /** What holds between calls: the window is bounded and holds only quiet
      magnitudes, the pending sequence has at most two members, and every
      direction is a sign. */
  predicate Valid(c: Classifier) {
    && |c.recentGyro| <= BaselineWindow
    && (forall i :: 0 <= i < |c.recentGyro| ==> 0.0 <= c.recentGyro[i] < MinTwistSpeed)
    && |c.twistSequence| <= 2
    && (forall i :: 0 <= i < |c.twistSequence| ==> c.twistSequence[i].direction == 1 || c.twistSequence[i].direction == -1)
  }

  // ---------------------------------------------------------------------
  // Baseline window
  // ---------------------------------------------------------------------

  /** The window update of `updateGyroscope`: a magnitude below the twist
      threshold is appended, and the oldest entry is evicted once the window
      exceeds its capacity. */
  function PushBaseline(window: seq<real>, mag: real): (r: seq<real>)
    ensures mag >= MinTwistSpeed ==> r == window
    ensures mag < MinTwistSpeed ==> |r| > 0 && r[|r| - 1] == mag
    ensures mag < MinTwistSpeed ==> |r| <= |window| + 1 && r[..|r| - 1] == window[|window| + 1 - |r|..]
    ensures |window| <= BaselineWindow ==> |r| <= BaselineWindow
  {
    if mag < MinTwistSpeed then
      var w := window + [mag];
      if |w| > BaselineWindow then w[1..] else w
    else window
  }

  /** `mag` is the Euclidean norm of the reading (x, y, z). */
  predicate IsMagnitude(x: real, y: real, z: real, mag: real) {
    0.0 <= mag && mag * mag == x * x + y * y + z * z
  }

  /** `updateGyroscope`: records the reading and its magnitude and feeds the
      baseline window. */
  function UpdateGyroscope(c: Classifier, x: real, y: real, z: real, mag: real): (r: Classifier)
    requires IsMagnitude(x, y, z, mag)
    ensures r.gyroX == x && r.gyroY == y && r.gyroZ == z && r.gyroMag == mag
    ensures r.recentGyro == PushBaseline(c.recentGyro, mag)
    ensures r.twistSequence == c.twistSequence && r.lastTriggerTime == c.lastTriggerTime
    ensures r.lastTwistTime == c.lastTwistTime
    ensures Valid(c) ==> Valid(r)
  {
    c.(gyroX := x, gyroY := y, gyroZ := z, gyroMag := mag,
       recentGyro := PushBaseline(c.recentGyro, mag))
  }

  /** The last `n` elements of `s` (all of them when there are fewer). */
  function LastN(s: seq<real>, n: nat): (r: seq<real>)
    ensures |r| <= n
  {
    if |s| <= n then s else s[|s| - n..]
  }

  /** The magnitudes the window admits, in arrival order. */
  function Admitted(mags: seq<real>): (r: seq<real>)
    ensures forall i :: 0 <= i < |r| ==> r[i] < MinTwistSpeed
    decreases |mags|
  {
    if |mags| == 0 then []
    else
      var init := Admitted(mags[..|mags| - 1]);
      if mags[|mags| - 1] < MinTwistSpeed then init + [mags[|mags| - 1]] else init
  }

  lemma PushLastN(s: seq<real>, mag: real)
    requires mag < MinTwistSpeed
    ensures PushBaseline(LastN(s, BaselineWindow), mag) == LastN(s + [mag], BaselineWindow)
  {
  }

  /** The window always holds the latest (at most twenty) admitted
      magnitudes, oldest first: feeding magnitudes one at a time gives the
      last twenty of everything admitted. */
  lemma {:induction false} WindowHoldsLatestAdmitted(window: seq<real>, mags: seq<real>)
    requires |window| <= BaselineWindow
    ensures FeedBaseline(window, mags) == LastN(window + Admitted(mags), BaselineWindow)
    decreases |mags|
  {
    if |mags| > 0 {
      var init := mags[..|mags| - 1];
      var m := mags[|mags| - 1];
      WindowHoldsLatestAdmitted(window, init);
      if m < MinTwistSpeed {
        PushLastN(window + Admitted(init), m);
        assert window + Admitted(mags) == (window + Admitted(init)) + [m];
      }
    }
  }

  /** The window after pushing each magnitude of `mags` in turn. */
  function FeedBaseline(window: seq<real>, mags: seq<real>): seq<real>
    decreases |mags|
  {
    if |mags| == 0 then window
    else PushBaseline(FeedBaseline(window, mags[..|mags| - 1]), mags[|mags| - 1])
  }

  // ---------------------------------------------------------------------
  // Baseline value: the upper median of the window
  // ---------------------------------------------------------------------

  predicate SortedAsc(s: seq<real>) {
    forall i, j :: 0 <= i < j < |s| ==> s[i] <= s[j]
  }

  lemma ConsSortedAsc(y: real, s: seq<real>)
    requires SortedAsc(s)
    requires |s| > 0 ==> y <= s[0]
    ensures SortedAsc([y] + s)
  {
    var r := [y] + s;
    forall i, j | 0 <= i < j < |r| ensures r[i] <= r[j] {
      assert r[j] == s[j - 1];
      if i > 0 {
        assert r[i] == s[i - 1];
      }
    }
  }

  function InsertAsc(x: real, s: seq<real>): (r: seq<real>)
    requires SortedAsc(s)
    ensures SortedAsc(r)
    ensures multiset(r) == multiset(s) + multiset{x}
    ensures |r| == |s| + 1
    ensures r[0] == (if |s| == 0 || x <= s[0] then x else s[0])
    decreases |s|
  {
    if |s| == 0 || x <= s[0] then
      ConsSortedAsc(x, s);
      [x] + s
    else
      var rest := InsertAsc(x, s[1..]);
      assert s == [s[0]] + s[1..];
      ConsSortedAsc(s[0], rest);
      [s[0]] + rest
  }

  /** `sorted()` on the window. */
  function SortAsc(s: seq<real>): (r: seq<real>)
    ensures SortedAsc(r)
    ensures multiset(r) == multiset(s)
    ensures |r| == |s|
    decreases |s|
  {
    if |s| == 0 then []
    else
      assert s == [s[0]] + s[1..];
      InsertAsc(s[0], SortAsc(s[1..]))
  }

  /** How many elements of `s` are below `x`. */
  function CountBelow(s: seq<real>, x: real): nat
    decreases |s|
  {
    if |s| == 0 then 0 else (if s[0] < x then 1 else 0) + CountBelow(s[1..], x)
  }

  /** How many elements of `s` are at most `x`. */
  function CountAtMost(s: seq<real>, x: real): nat
    decreases |s|
  {
    if |s| == 0 then 0 else (if s[0] <= x then 1 else 0) + CountAtMost(s[1..], x)
  }

  lemma {:induction false} CountsOfInsert(y: real, s: seq<real>, x: real)
    requires SortedAsc(s)
    ensures CountBelow(InsertAsc(y, s), x) == CountBelow(s, x) + (if y < x then 1 else 0)
    ensures CountAtMost(InsertAsc(y, s), x) == CountAtMost(s, x) + (if y <= x then 1 else 0)
    decreases |s|
  {
    if |s| == 0 || y <= s[0] {
      assert ([y] + s)[1..] == s;
    } else {
      CountsOfInsert(y, s[1..], x);
      assert ([s[0]] + InsertAsc(y, s[1..]))[1..] == InsertAsc(y, s[1..]);
    }
  }

  /** Sorting does not change how many elements lie below or at a value. */
  lemma {:induction false} CountsOfSort(s: seq<real>, x: real)
    ensures CountBelow(SortAsc(s), x) == CountBelow(s, x)
    ensures CountAtMost(SortAsc(s), x) == CountAtMost(s, x)
    decreases |s|
  {
    if |s| > 0 {
      CountsOfSort(s[1..], x);
      CountsOfInsert(s[0], SortAsc(s[1..]), x);
    }
  }

  lemma {:induction false} CountBelowBound(s: seq<real>, x: real, k: nat)
    requires k <= |s|
    requires forall j :: k <= j < |s| ==> x <= s[j]
    ensures CountBelow(s, x) <= k
    decreases |s|
  {
    if |s| > 0 {
      if k == 0 {
        CountBelowBound(s[1..], x, 0);
      } else {
        CountBelowBound(s[1..], x, k - 1);
      }
    }
  }

  lemma {:induction false} CountAtMostBound(s: seq<real>, x: real, k: nat)
    requires k < |s|
    requires forall j :: 0 <= j <= k ==> s[j] <= x
    ensures CountAtMost(s, x) >= k + 1
    decreases |s|
  {
    if k > 0 {
      CountAtMostBound(s[1..], x, k - 1);
    }
  }

  /** `calculateGyroBaseline`: the default floor for fewer than three
      samples, otherwise the upper median of the window, i.e. the value with
      at most half the window strictly below it and more than half at or
      below it. */
  function Baseline(window: seq<real>): (r: real)
    ensures |window| < 3 ==> r == DefaultBaseline
    ensures |window| >= 3 ==> r in window
    ensures |window| >= 3 ==> CountBelow(window, r) <= |window| / 2 < CountAtMost(window, r)
  {
    if |window| < 3 then DefaultBaseline
    else
      var sorted := SortAsc(window);
      UpperMedian(window);
      sorted[|sorted| / 2]
  }

  /** The middle element of the sorted window is an element of the window
      with at most half the window below it and more than half at or below
      it. */
  lemma UpperMedian(window: seq<real>)
    requires |window| > 0
    ensures var m := SortAsc(window)[|window| / 2];
      m in window && CountBelow(window, m) <= |window| / 2 < CountAtMost(window, m)
  {
    var sorted := SortAsc(window);
    var m := sorted[|sorted| / 2];
    assert m in multiset(window) by {
      assert m in multiset(sorted);
    }
    CountsOfSort(window, m);
    CountsAtSortedIndex(sorted, |sorted| / 2);
  }

  /** In a sorted sequence, at most `k` elements lie below the `k`-th and
      more than `k` at or below it. */
  lemma CountsAtSortedIndex(sorted: seq<real>, k: nat)
    requires SortedAsc(sorted) && k < |sorted|
    ensures CountBelow(sorted, sorted[k]) <= k < CountAtMost(sorted, sorted[k])
  {
    var m := sorted[k];
    assert forall j :: k <= j < |sorted| ==> m <= sorted[j];
    CountBelowBound(sorted, m, k);
    assert forall j :: 0 <= j <= k ==> sorted[j] <= m;
    CountAtMostBound(sorted, m, k);
  }

  /** A window of quiet magnitudes never yields a floor at or above the
      twist threshold, so a spike test against it stays satisfiable. */
  lemma BaselineBelowThreshold(window: seq<real>)
    requires forall i :: 0 <= i < |window| ==> window[i] < MinTwistSpeed
    ensures Baseline(window) < MinTwistSpeed
  {
  }

  // ---------------------------------------------------------------------
  // Axis and spike qualification
  // ---------------------------------------------------------------------

  function Abs(x: real): real {
    if x < 0.0 then -x else x
  }

  function Max(a: real, b: real): real {
    if a < b then b else a
  }

  lemma DivAtLeast(a: real, d: real, c: real)
    requires d > 0.0
    ensures a / d >= c <==> a >= c * d
  {
    var q := a / d;
    assert q * d == a;
    if q >= c {
      assert q * d >= c * d;
    } else {
      assert q * d < c * d;
    }
  }

  /** `isTwistAxisQualified`: the X axis carries the rotation. Stated
      without the division, it reads: |x| is at least the primary-axis speed,
      neither other axis exceeds 0.8 |x|, and |x| is at least 1.35 times the
      off-axis sum plus epsilon. Such a reading rotates strictly more about X
      than about Y or Z. */
  function IsTwistAxisQualified(x: real, y: real, z: real): (r: bool)
    ensures r <==> && Abs(x) >= MinPrimaryAxisSpeed
                   && Max(Abs(y), Abs(z)) <= Abs(x) * MaxOffAxisFraction
                   && Abs(x) >= MinAxisDominanceRatio * (Abs(y) + Abs(z) + OffAxisEpsilon)
    ensures r ==> Abs(y) < Abs(x) && Abs(z) < Abs(x)
  {
    var absX := Abs(x);
    var absY := Abs(y);
    var absZ := Abs(z);
    if absX < MinPrimaryAxisSpeed then false
    else if Max(absY, absZ) > absX * MaxOffAxisFraction then false
    else
      var offAxisSum := absY + absZ + OffAxisEpsilon;
      DivAtLeast(absX, offAxisSum, MinAxisDominanceRatio);
      absX / offAxisSum >= MinAxisDominanceRatio
  }

  /** The spike test: inside the open speed band and more than twice the
      noise floor. */
  predicate IsSpike(mag: real, baseline: real) {
    MinTwistSpeed < mag < MaxTwistSpeed && mag > baseline * SpikeRatio
  }

  /** The current reading would be a twist, whatever the clock says. */
  predicate QualifiesAsTwist(c: Classifier) {
    IsSpike(c.gyroMag, Baseline(c.recentGyro)) && IsTwistAxisQualified(c.gyroX, c.gyroY, c.gyroZ)
  }

  /** The twist direction: +1 exactly when X is not negative. */
  function Direction(x: real): (d: int)
    ensures d == 1 <==> x >= 0.0
    ensures d == -1 <==> x < 0.0
  {
    if x >= 0.0 then 1 else -1
  }

  // ---------------------------------------------------------------------
  // Sequence state machine
  // ---------------------------------------------------------------------

  /** The pending sequence is older than the maximum total time. */
  predicate Expired(c: Classifier, timestamp: int) {
    |c.twistSequence| > 0 && timestamp - c.twistSequence[0].timestamp > MaxTotalTimeMs
  }

  /** The sample at `timestamp` passes every gate and becomes a twist. */
  predicate Accepts(c: Classifier, timestamp: int) {
    && timestamp - c.lastTriggerTime >= CooldownMs
    && timestamp - c.lastTwistTime >= DebounceMs
    && QualifiesAsTwist(c)
  }

  /** `processTwist`: merges a twist into the pending sequence. */
  function ProcessTwist(c: Classifier, twist: TwistEvent, now: int): (r: Step)
    ensures r.state.lastTwistTime == now && r.state.totalTwists == c.totalTwists + 1
    // only the sequence, the counters and the two clocks change
    ensures r.state == c.(twistSequence := r.state.twistSequence, totalTwists := c.totalTwists + 1,
                          lastTwistTime := now, lastTriggerTime := r.state.lastTriggerTime)
    // the sequence only ever holds earlier members and the new twist
    ensures forall i :: 0 <= i < |r.state.twistSequence| ==>
              r.state.twistSequence[i] in c.twistSequence || r.state.twistSequence[i] == twist
    // the first twist starts a sequence
    ensures |c.twistSequence| == 0 ==> !r.fired && r.state.twistSequence == [twist]
    // a twist under the minimum interval is the same motion: the length is
    // kept and the last member is replaced only by a faster one
    ensures |c.twistSequence| > 0 && twist.timestamp - Last(c.twistSequence).timestamp < MinIntervalMs ==>
              && !r.fired
              && |r.state.twistSequence| == |c.twistSequence|
              && Init(r.state.twistSequence) == Init(c.twistSequence)
              && Last(r.state.twistSequence) == (if twist.rotationSpeed > Last(c.twistSequence).rotationSpeed then twist else Last(c.twistSequence))
    // a later twist in the same direction restarts the sequence with itself
    ensures |c.twistSequence| > 0 && twist.timestamp - Last(c.twistSequence).timestamp >= MinIntervalMs
            && twist.direction == Last(c.twistSequence).direction ==>
              !r.fired && r.state.twistSequence == [twist]
    // the gesture completes exactly on an alternating third twist
    ensures r.fired <==> && |c.twistSequence| == 2
                         && twist.timestamp - c.twistSequence[1].timestamp >= MinIntervalMs
                         && twist.direction != c.twistSequence[1].direction
                         && twist.direction == c.twistSequence[0].direction
                         && c.twistSequence[1].direction != c.twistSequence[0].direction
    ensures r.state.lastTriggerTime == (if r.fired then now else c.lastTriggerTime)
    // reaching three members always clears the sequence
    ensures (&& |c.twistSequence| == 2
             && twist.timestamp - c.twistSequence[1].timestamp >= MinIntervalMs
             && twist.direction != c.twistSequence[1].direction) ==> r.state.twistSequence == []
    ensures |c.twistSequence| <= 2 ==> |r.state.twistSequence| <= 2
  {
    var c1 := c.(totalTwists := c.totalTwists + 1, lastTwistTime := now);
    var sq := c1.twistSequence;
    if |sq| == 0 then Step(c1.(twistSequence := [twist]), false)
    else
      var last := sq[|sq| - 1];
      var interval := twist.timestamp - last.timestamp;
      if interval < MinIntervalMs then
        if twist.rotationSpeed > last.rotationSpeed then
          Step(c1.(twistSequence := sq[|sq| - 1 := twist]), false)
        else Step(c1, false)
      else if twist.direction == last.direction then
        Step(c1.(twistSequence := [twist]), false)
      else
        var appended := sq + [twist];
        if |appended| == 2 then Step(c1.(twistSequence := appended), false)
        else if |appended| == 3 then
          if appended[0].direction == appended[2].direction && appended[1].direction != appended[0].direction then
            Step(c1.(lastTriggerTime := now, twistSequence := []), true)
          else Step(c1.(twistSequence := []), false)
        else Step(c1.(twistSequence := []), false)
  }

  function Last(s: seq<TwistEvent>): TwistEvent
    requires |s| > 0
  {
    s[|s| - 1]
  }

  function Init(s: seq<TwistEvent>): seq<TwistEvent>
    requires |s| > 0
  {
    s[..|s| - 1]
  }

  /** The classifier after the expiry gate at `timestamp`. */
  function AfterExpiry(c: Classifier, timestamp: int): Classifier {
    if Expired(c, timestamp) then c.(twistSequence := []) else c
  }

  /** The twist the current reading would make at `timestamp`. */
  function CurrentTwist(c: Classifier, timestamp: int): TwistEvent {
    TwistEvent(timestamp, c.gyroMag, Direction(c.gyroX))
  }

  /** `processSample`: applies the cooldown, expiry and debounce gates and
      the twist qualification to the current reading; returns whether the
      gesture completed. */
  function ProcessSample(c: Classifier, timestamp: int): (r: Step)
    // cooldown: nothing changes but the sample counter
    ensures timestamp - c.lastTriggerTime < CooldownMs ==>
              !r.fired && r.state == c.(sampleCount := c.sampleCount + 1)
    // expiry happens before the debounce test, which then drops the sample
    ensures timestamp - c.lastTriggerTime >= CooldownMs && timestamp - c.lastTwistTime < DebounceMs ==>
              && !r.fired
              && r.state.twistSequence == (if Expired(c, timestamp) then [] else c.twistSequence)
    // a twist is recorded exactly when every gate and the qualification pass
    ensures r.state.lastTwistTime == (if Accepts(c, timestamp) then timestamp else c.lastTwistTime)
    ensures r.state.totalTwists == c.totalTwists + (if Accepts(c, timestamp) then 1 else 0)
    ensures !Accepts(c, timestamp) ==> !r.fired
    // past the cooldown, a sample that is not recorded leaves the sequence as expiry left it
    ensures timestamp - c.lastTriggerTime >= CooldownMs && !Accepts(c, timestamp) ==>
              r.state == AfterExpiry(c, timestamp).(sampleCount := c.sampleCount + 1)
    ensures Accepts(c, timestamp) ==>
              r == ProcessTwist(AfterExpiry(c, timestamp).(sampleCount := c.sampleCount + 1), CurrentTwist(c, timestamp), timestamp)
    // a completion starts a new cooldown and leaves no pending sequence
    ensures r.fired ==> && r.state.lastTriggerTime == timestamp
                        && timestamp - c.lastTriggerTime >= CooldownMs
                        && r.state.twistSequence == []
    ensures !r.fired ==> r.state.lastTriggerTime == c.lastTriggerTime
    // the reading and the window are left as they were
    ensures r.state.recentGyro == c.recentGyro
    ensures r.state.gyroX == c.gyroX && r.state.gyroY == c.gyroY && r.state.gyroZ == c.gyroZ && r.state.gyroMag == c.gyroMag
    ensures r.state.sampleCount == c.sampleCount + 1
    ensures Valid(c) ==> Valid(r.state)
  {
    var c1 := c.(sampleCount := c.sampleCount + 1);
    var baseline := Baseline(c.recentGyro);
    var axisQualified := IsTwistAxisQualified(c.gyroX, c.gyroY, c.gyroZ);
    if timestamp - c.lastTriggerTime < CooldownMs then Step(c1, false)
    else
      var c2 := AfterExpiry(c1, timestamp);
      if timestamp - c2.lastTwistTime < DebounceMs then Step(c2, false)
      else if !IsSpike(c.gyroMag, baseline) || !axisQualified then Step(c2, false)
      else ProcessTwist(c2, TwistEvent(timestamp, c.gyroMag, Direction(c.gyroX)), timestamp)
  }

  /** `reset`: empties the window and the sequence and zeroes the reading,
      the counters and the debounce clock; the cooldown clock survives. */
  function Reset(c: Classifier): (r: Classifier)
    ensures r == Fresh().(lastTriggerTime := c.lastTriggerTime)
    ensures Valid(r)
  {
    c.(twistSequence := [], recentGyro := [],
       gyroX := 0.0, gyroY := 0.0, gyroZ := 0.0, gyroMag := 0.0,
       sampleCount := 0, totalTwists := 0, lastTwistTime := 0)
  }

  // ---------------------------------------------------------------------
  // Runs over an input stream
  // ---------------------------------------------------------------------

  /** One call into the classifier. */
  datatype Input =
    | Gyro(x: real, y: real, z: real, mag: real)
    | Sample(timestamp: int)
    | ResetInput

  predicate WellFormed(ins: seq<Input>) {
    forall i :: 0 <= i < |ins| ==> ins[i].Gyro? ==> IsMagnitude(ins[i].x, ins[i].y, ins[i].z, ins[i].mag)
  }

  /** The final classifier and the timestamps at which the gesture
      completed. */
  datatype Trace = Trace(state: Classifier, fireTimes: seq<int>)

  function Apply(c: Classifier, input: Input): (r: Step)
    requires input.Gyro? ==> IsMagnitude(input.x, input.y, input.z, input.mag)
    ensures r.fired ==> && input.Sample?
                        && r.state.lastTriggerTime == input.timestamp
                        && input.timestamp >= c.lastTriggerTime + CooldownMs
    ensures !r.fired ==> r.state.lastTriggerTime == c.lastTriggerTime
  {
    match input
    case Gyro(x, y, z, mag) => Step(UpdateGyroscope(c, x, y, z, mag), false)
    case Sample(t) => ProcessSample(c, t)
    case ResetInput => Step(Reset(c), false)
  }

  function Run(c: Classifier, ins: seq<Input>): Trace
    requires WellFormed(ins)
    decreases |ins|
  {
    if |ins| == 0 then Trace(c, [])
    else
      var step := Apply(c, ins[0]);
      var rest := Run(step.state, ins[1..]);
      var t := if ins[0].Sample? then ins[0].timestamp else 0;
      Trace(rest.state, (if step.fired then [t] else []) + rest.fireTimes)
  }

  /** Completions are at least the cooldown apart, whatever order the
      timestamps come in and however many resets intervene; the first one
      is at least the cooldown after the last completion before the run. */
  lemma {:induction false} CompletionsAreSeparated(c: Classifier, ins: seq<Input>)
    requires WellFormed(ins)
    ensures var tr := Run(c, ins);
      && (|tr.fireTimes| > 0 ==> tr.fireTimes[0] >= c.lastTriggerTime + CooldownMs)
      && (forall i :: 0 <= i < |tr.fireTimes| - 1 ==> tr.fireTimes[i + 1] >= tr.fireTimes[i] + CooldownMs)
    decreases |ins|
  {
    if |ins| > 0 {
      var step := Apply(c, ins[0]);
      CompletionsAreSeparated(step.state, ins[1..]);
      if step.fired {
        ConsSeparated(ins[0].timestamp, Run(step.state, ins[1..]).fireTimes);
      }
    }
  }

  /** A completion at least the cooldown before the next one keeps a run of
      separated completions separated. */
  lemma ConsSeparated(t: int, fs: seq<int>)
    requires |fs| > 0 ==> fs[0] >= t + CooldownMs
    requires forall i :: 0 <= i < |fs| - 1 ==> fs[i + 1] >= fs[i] + CooldownMs
    ensures forall i :: 0 <= i < |[t] + fs| - 1 ==> ([t] + fs)[i + 1] >= ([t] + fs)[i] + CooldownMs
  {
    var ts := [t] + fs;
    forall i | 0 <= i < |ts| - 1 ensures ts[i + 1] >= ts[i] + CooldownMs {
      if i > 0 { assert ts[i] == fs[i - 1]; }
    }
  }

  /** The pending sequence holds only twists in direction +1 and the
      reading has a non-negative X. */
  predicate OnlyPositive(c: Classifier) {
    && c.gyroX >= 0.0
    && forall i :: 0 <= i < |c.twistSequence| ==> c.twistSequence[i].direction == 1
  }

  /** A stream whose X readings are never negative produces only +1 twists,
      which always restart the sequence, so it never completes the
      gesture. */
  lemma {:induction false} OneDirectionNeverCompletes(c: Classifier, ins: seq<Input>)
    requires WellFormed(ins)
    requires OnlyPositive(c) && |c.twistSequence| <= 1
    requires forall i :: 0 <= i < |ins| ==> ins[i].Gyro? ==> ins[i].x >= 0.0
    ensures Run(c, ins).fireTimes == []
    decreases |ins|
  {
    if |ins| > 0 {
      var step := Apply(c, ins[0]);
      if ins[0].Sample? && Accepts(c, ins[0].timestamp) {
        var t := ins[0].timestamp;
        var c2 := AfterExpiry(c, t).(sampleCount := c.sampleCount + 1);
        assert step == ProcessTwist(c2, CurrentTwist(c, t), t);
        assert CurrentTwist(c, t).direction == 1;
      }
      assert OnlyPositive(step.state) && |step.state.twistSequence| <= 1 && !step.fired;
      OneDirectionNeverCompletes(step.state, ins[1..]);
    }
  }

  /** One reading of the alternating scenario and the sample after it: a
      rotation of 10 rad/s about +X or -X and nothing about the other
      axes. */
  function TwistAt(x: real, t: int): seq<Input> {
    [Gyro(x, 0.0, 0.0, 10.0), Sample(t)]
  }

  /** The alternating scenario: +X, -X, +X at the three timestamps. */
  function TwistInputs(t1: int, t2: int, t3: int): seq<Input> {
    TwistAt(10.0, t1) + (TwistAt(-10.0, t2) + (TwistAt(10.0, t3) + []))
  }

  /** Running a reading and a sample fires at most at the sample's time. */
  lemma RunTwistAt(c: Classifier, x: real, t: int, rest: seq<Input>)
    requires x == 10.0 || x == -10.0
    requires WellFormed(rest)
    ensures WellFormed(TwistAt(x, t) + rest)
    ensures var s := ProcessSample(UpdateGyroscope(c, x, 0.0, 0.0, 10.0), t);
      Run(c, TwistAt(x, t) + rest).fireTimes == (if s.fired then [t] else []) + Run(s.state, rest).fireTimes
  {
    var ins := TwistAt(x, t) + rest;
    assert IsMagnitude(x, 0.0, 0.0, 10.0);
    assert ins[0] == Gyro(x, 0.0, 0.0, 10.0);
    assert ins[1..] == [Sample(t)] + rest;
    assert ins[1..][1..] == rest;
    assert WellFormed(ins) by {
      forall i | 0 <= i < |ins| && ins[i].Gyro?
        ensures IsMagnitude(ins[i].x, ins[i].y, ins[i].z, ins[i].mag)
      {
        if i >= 2 { assert ins[i] == rest[i - 2]; }
      }
    }
  }

  /** The classifier of the alternating scenario after `n` twists, reading
      `x` about X and nothing about the other axes. */
  function ScenarioState(sq: seq<TwistEvent>, lastTrigger: int, lastTwist: int, x: real, n: int): Classifier {
    Classifier(sq, lastTrigger, lastTwist, [], x, 0.0, 0.0, 10.0, n, n)
  }

  /** The first twist of the scenario starts a sequence. */
  lemma FirstTwistStarts()
    ensures ProcessSample(UpdateGyroscope(Fresh(), 10.0, 0.0, 0.0, 10.0), 2000)
         == Step(ScenarioState([TwistEvent(2000, 10.0, 1)], 0, 2000, 10.0, 1), false)
  {
    assert IsTwistAxisQualified(10.0, 0.0, 0.0);
  }

  /** The second, opposite twist joins the sequence. */
  lemma SecondTwistJoins()
    ensures ProcessSample(UpdateGyroscope(ScenarioState([TwistEvent(2000, 10.0, 1)], 0, 2000, 10.0, 1), -10.0, 0.0, 0.0, 10.0), 2300)
         == Step(ScenarioState([TwistEvent(2000, 10.0, 1), TwistEvent(2300, 10.0, -1)], 0, 2300, -10.0, 2), false)
  {
    assert IsTwistAxisQualified(-10.0, 0.0, 0.0);
  }

  /** The third twist, back in the first direction, completes the gesture. */
  lemma ThirdTwistCompletes()
    ensures ProcessSample(UpdateGyroscope(ScenarioState([TwistEvent(2000, 10.0, 1), TwistEvent(2300, 10.0, -1)], 0, 2300, -10.0, 2),
                                          10.0, 0.0, 0.0, 10.0), 2600)
         == Step(ScenarioState([], 2600, 2600, 10.0, 3), true)
  {
    assert IsTwistAxisQualified(10.0, 0.0, 0.0);
  }

  /** +/-/+ twists 300 ms apart complete the gesture on the third one. */
  lemma TripleTwistCompletes()
    ensures Run(Fresh(), TwistInputs(2000, 2300, 2600)).fireTimes == [2600]
  {
    var s1 := ScenarioState([TwistEvent(2000, 10.0, 1)], 0, 2000, 10.0, 1);
    var s2 := ScenarioState([TwistEvent(2000, 10.0, 1), TwistEvent(2300, 10.0, -1)], 0, 2300, -10.0, 2);
    FirstTwistStarts();
    SecondTwistJoins();
    ThirdTwistCompletes();
    RunTwistAt(s2, 10.0, 2600, []);
    RunTwistAt(s1, -10.0, 2300, TwistAt(10.0, 2600) + []);
    RunTwistAt(Fresh(), 10.0, 2000, TwistAt(-10.0, 2300) + (TwistAt(10.0, 2600) + []));
  }

  /** The same twists within the first second after construction complete
      nothing: the cooldown clock starts at zero. */
  lemma FirstSecondIsCoolingDown()
    ensures Run(Fresh(), TwistInputs(0, 300, 600)).fireTimes == []
  {
    var ins := TwistInputs(0, 300, 600);
    assert ins[1..][1..][1..][1..][1..][1..] == [];
  }

  /** Reset is idempotent and keeps the cooldown: a reset classifier still
      refuses to complete within the cooldown of its last completion. */
  lemma ResetKeepsCooldown(c: Classifier, timestamp: int)
    requires timestamp - c.lastTriggerTime < CooldownMs
    ensures Reset(Reset(c)) == Reset(c)
    ensures !ProcessSample(Reset(c), timestamp).fired
    ensures ProcessSample(Reset(c), timestamp).state.twistSequence == []
  {
  }
}

=== FILE: wear_detector.dfy ===
/** On-wrist detection (`WearDetector`).

    The watch is assumed worn at start. A low-latency off-body sensor, when
    present, reports the state directly. Accelerometer motion always marks
    the watch worn again; without the off-body sensor, thirty seconds
    without motion marks it off the wrist. The listener hears only actual
    changes.

    The wall clock becomes the `now` parameter. The movement test compares
    the squared magnitude with the squared threshold, which is the source's
    square-root comparison for real numbers. */
module WearDetector {
  import opened Common

  const StationaryDurationMs: int := 30000
  /** The movement threshold 0.1, squared. */
  const MovementThresholdSquared: real := 0.01
  /** A reading above this value of the off-body sensor means on the body. */
  const OnBodyValue: real := 0.5

  datatype Detector = Detector(
    isWorn: bool,
    lastMotionTime: int,
    hasOffBodySensor: bool,
    hasListener: bool)

  /** The detector after one call, and the value passed to the listener's
      `onWearStateChanged`, if any. */
  datatype Outcome = Outcome(detector: Detector, notified: Option<bool>)

  datatype SensorType = OffBodyDetect | OtherSensor

  /** A sensor event: its sensor type and its first value. */
  datatype SensorEvent = SensorEvent(sensorType: SensorType, value: real)

  /** A detector constructed at time `now`: worn, with motion at `now`, no
      sensor and no listener yet. */
  function Create(now: int): (d: Detector)
    ensures d.isWorn && d.lastMotionTime == now && !d.hasOffBodySensor && !d.hasListener
  {
    Detector(true, now, false, false)
  }

  /** `setListener`. */
  function SetListener(d: Detector): (r: Detector)
    ensures r.hasListener
    ensures r.isWorn == d.isWorn && r.lastMotionTime == d.lastMotionTime && r.hasOffBodySensor == d.hasOffBodySensor
  {
    d.(hasListener := true)
  }

  /** `start`: records whether the platform has an off-body sensor. */
  function Start(d: Detector, offBodySensorPresent: bool): (r: Detector)
    ensures r.hasOffBodySensor == offBodySensorPresent
    ensures r.isWorn == d.isWorn && r.lastMotionTime == d.lastMotionTime && r.hasListener == d.hasListener
  {
    d.(hasOffBodySensor := offBodySensorPresent)
  }

  /** `updateWornState`: stores the state and tells the listener only when
      it changed. */
  function UpdateWornState(d: Detector, worn: bool): (r: Outcome)
    ensures r.detector.isWorn == worn
    ensures r.notified.Some? <==> d.isWorn != worn && d.hasListener
    ensures r.notified.Some? ==> r.notified.value == worn
    ensures r.detector.lastMotionTime == d.lastMotionTime
    ensures r.detector.hasOffBodySensor == d.hasOffBodySensor && r.detector.hasListener == d.hasListener
  {
    if d.isWorn != worn then
      Outcome(d.(isWorn := worn), if d.hasListener then Some(worn) else None)
    else Outcome(d, None)
  }

  /** The reading (x, y, z) is motion: its magnitude exceeds 0.1. */
  predicate IsMotion(x: real, y: real, z: real) {
    x * x + y * y + z * z > MovementThresholdSquared
  }

  /** `processAccelerometer` at time `now`. */
  function ProcessAccelerometer(d: Detector, x: real, y: real, z: real, now: int): (r: Outcome)
    // motion refreshes the clock and means worn
    ensures IsMotion(x, y, z) ==> r.detector.isWorn && r.detector.lastMotionTime == now
    ensures IsMotion(x, y, z) ==> (r.notified.Some? <==> !d.isWorn && d.hasListener)
    // with the off-body sensor, stillness changes nothing
    ensures !IsMotion(x, y, z) && d.hasOffBodySensor ==> r == Outcome(d, None)
    // without it, more than thirty seconds of stillness means off the wrist
    ensures !IsMotion(x, y, z) && !d.hasOffBodySensor ==>
              && r.detector.lastMotionTime == d.lastMotionTime
              && r.detector.isWorn == (d.isWorn && now - d.lastMotionTime <= StationaryDurationMs)
    ensures r.notified.Some? <==> r.detector.isWorn != d.isWorn && d.hasListener
    ensures r.notified.Some? ==> r.notified.value == r.detector.isWorn
    ensures r.detector.hasOffBodySensor == d.hasOffBodySensor && r.detector.hasListener == d.hasListener
  {
    if IsMotion(x, y, z) then
      var d1 := d.(lastMotionTime := now);
      if !d1.isWorn then UpdateWornState(d1, true) else Outcome(d1, None)
    else if !d.hasOffBodySensor then
      var stationaryTime := now - d.lastMotionTime;
      if stationaryTime > StationaryDurationMs && d.isWorn then UpdateWornState(d, false)
      else Outcome(d, None)
    else Outcome(d, None)
  }

  /** `onSensorChanged`: a null event and other sensors are ignored; the
      off-body sensor sets the state from its first value. */
  function OnSensorChanged(d: Detector, event: Option<SensorEvent>): (r: Outcome)
    ensures event.None? || event.value.sensorType != OffBodyDetect ==> r == Outcome(d, None)
    ensures event.Some? && event.value.sensorType == OffBodyDetect ==>
              r.detector.isWorn == (event.value.value > OnBodyValue)
    ensures r.notified.Some? <==> r.detector.isWorn != d.isWorn && d.hasListener
    ensures r.notified.Some? ==> r.notified.value == r.detector.isWorn
    ensures r.detector.lastMotionTime == d.lastMotionTime
    ensures r.detector.hasOffBodySensor == d.hasOffBodySensor && r.detector.hasListener == d.hasListener
  {
    match event
    case None => Outcome(d, None)
    case Some(e) =>
      if e.sensorType == OffBodyDetect then UpdateWornState(d, e.value > OnBodyValue)
      else Outcome(d, None)
  }

  // ---------------------------------------------------------------------
  // Runs over an input stream
  // ---------------------------------------------------------------------

  datatype Input =
    | Accelerometer(x: real, y: real, z: real, now: int)
    | Sensor(event: Option<SensorEvent>)

  function Apply(d: Detector, input: Input): (r: Outcome)
    ensures r.notified.Some? <==> r.detector.isWorn != d.isWorn && d.hasListener
    ensures r.notified.Some? ==> r.notified.value == r.detector.isWorn
    ensures r.detector.hasOffBodySensor == d.hasOffBodySensor && r.detector.hasListener == d.hasListener
  {
    match input
    case Accelerometer(x, y, z, now) => ProcessAccelerometer(d, x, y, z, now)
    case Sensor(e) => OnSensorChanged(d, e)
  }

  /** The final detector and every value the listener heard, in order. */
  datatype Trace = Trace(detector: Detector, notifications: seq<bool>)

  function Run(d: Detector, ins: seq<Input>): (tr: Trace)
    ensures tr.detector.hasOffBodySensor == d.hasOffBodySensor && tr.detector.hasListener == d.hasListener
    decreases |ins|
  {
    if |ins| == 0 then Trace(d, [])
    else
      var o := Apply(d, ins[0]);
      var rest := Run(o.detector, ins[1..]);
      Trace(rest.detector, (if o.notified.Some? then [o.notified.value] else []) + rest.notifications)
  }

  /** The listener hears only edges: the first value differs from the
      starting state, consecutive values alternate, and the last one is the
      final state. */
  lemma NotificationsAreEdges(d: Detector, ins: seq<Input>)
    ensures var n := Run(d, ins).notifications;
      && (|n| > 0 ==> n[0] != d.isWorn && n[|n| - 1] == Run(d, ins).detector.isWorn)
      && (forall i :: 0 <= i < |n| - 1 ==> n[i + 1] != n[i])
  {
    NotificationsAlternate(d, ins);
    LastNotificationIsFinal(d, ins);
  }

  /** The first value heard differs from the starting state, and each
      later one differs from the one before. */
  lemma {:induction false} NotificationsAlternate(d: Detector, ins: seq<Input>)
    ensures var n := Run(d, ins).notifications;
      && (|n| > 0 ==> n[0] != d.isWorn)
      && (forall i :: 0 <= i < |n| - 1 ==> n[i + 1] != n[i])
    decreases |ins|
  {
    if |ins| > 0 {
      var o := Apply(d, ins[0]);
      NotificationsAlternate(o.detector, ins[1..]);
      if o.notified.Some? {
        ConsAlternates(o.notified.value, Run(o.detector, ins[1..]).notifications);
      } else if !d.hasListener {
        NotificationParity(o.detector, ins[1..]);
      }
    }
  }

  /** The last value heard is the final state. */
  lemma {:induction false} LastNotificationIsFinal(d: Detector, ins: seq<Input>)
    ensures var n := Run(d, ins).notifications;
      |n| > 0 ==> n[|n| - 1] == Run(d, ins).detector.isWorn
    decreases |ins|
  {
    if |ins| > 0 {
      var o := Apply(d, ins[0]);
      LastNotificationIsFinal(o.detector, ins[1..]);
      if o.notified.Some? && Run(o.detector, ins[1..]).notifications == [] {
        NotificationParity(o.detector, ins[1..]);
      }
    }
  }

  /** A value unlike the next one keeps an alternating sequence
      alternating. */
  lemma ConsAlternates(v: bool, ns: seq<bool>)
    requires |ns| > 0 ==> ns[0] != v
    requires forall i :: 0 <= i < |ns| - 1 ==> ns[i + 1] != ns[i]
    ensures forall i :: 0 <= i < |[v] + ns| - 1 ==> ([v] + ns)[i + 1] != ([v] + ns)[i]
  {
    var n := [v] + ns;
    forall i | 0 <= i < |n| - 1 ensures n[i + 1] != n[i] {
      if i > 0 { assert n[i] == ns[i - 1]; }
    }
  }

  /** Without a listener nothing is heard; with one, the state ends changed
      exactly when it heard an odd number of values. */
  lemma {:induction false} NotificationParity(d: Detector, ins: seq<Input>)
    ensures !d.hasListener ==> Run(d, ins).notifications == []
    ensures d.hasListener ==> (|Run(d, ins).notifications| % 2 == 1 <==> Run(d, ins).detector.isWorn != d.isWorn)
    decreases |ins|
  {
    if |ins| > 0 {
      var o := Apply(d, ins[0]);
      NotificationParity(o.detector, ins[1..]);
      var rest := Run(o.detector, ins[1..]);
      var n := Run(d, ins).notifications;
      assert |n| == |rest.notifications| + (if o.notified.Some? then 1 else 0);
    }
  }

  /** With the off-body sensor present, the accelerometer alone can only
      mark the watch worn: it never reports off the wrist, and reports at
      most once. */
  lemma {:induction false} OffBodySensorOverridesStillness(d: Detector, ins: seq<Input>)
    requires d.hasOffBodySensor
    requires forall i :: 0 <= i < |ins| ==> ins[i].Accelerometer?
    ensures Run(d, ins).notifications == [] || Run(d, ins).notifications == [true]
    ensures d.isWorn ==> Run(d, ins).notifications == [] && Run(d, ins).detector.isWorn
    decreases |ins|
  {
    if |ins| > 0 {
      var o := Apply(d, ins[0]);
      OffBodySensorOverridesStillness(o.detector, ins[1..]);
      if o.notified.Some? {
        assert o.detector.isWorn;
        assert Run(o.detector, ins[1..]).notifications == [];
      }
    }
  }

  /** Without the sensor, a stream of still readings reports off the wrist
      at most once and never reports worn. */
  lemma {:induction false} StillnessReportsOnce(d: Detector, ins: seq<Input>)
    requires !d.hasOffBodySensor
    requires forall i :: 0 <= i < |ins| ==> ins[i].Accelerometer? && !IsMotion(ins[i].x, ins[i].y, ins[i].z)
    ensures Run(d, ins).notifications == [] || Run(d, ins).notifications == [false]
    ensures !d.isWorn ==> Run(d, ins).notifications == [] && !Run(d, ins).detector.isWorn
    decreases |ins|
  {
    if |ins| > 0 {
      var o := Apply(d, ins[0]);
      StillnessReportsOnce(o.detector, ins[1..]);
      if o.notified.Some? {
        assert !o.detector.isWorn;
        assert Run(o.detector, ins[1..]).notifications == [];
      }
    }
  }
}
